=== FILE: README.md ===
# TheRecruit front end — a Dafny model of its rules

TheRecruit is a React front end for recruiters. They enter job briefs and a company
context, upload CVs, generate and evaluate interview questions, and follow each candidate
through a staged process. Most of the application is rendering and HTTP calls. The
components also hold many small, sequential rules, and those rules are modelled here as
pure Dafny functions over immutable records:

- the candidate filters;
- the score derivations and their fallbacks;
- the threshold bands that colour and label scores;
- the recruitment-stage state machine and the actions each stage enables;
- the normalisation of question payloads;
- the comma-list parser and the form validators;
- the per-index update of an interview evaluation.

How JavaScript's semantics are represented:

- Values whose shape the code cannot know are a `JsValue.Value`: API responses, the
  `scores` prop of the CV chart, and a candidate's stored questions.
- `?.`, `||`, `??`, truthiness and `Math.round` are spelled out in the `JsValue` module.
- Numbers are exact reals.
- Backend calls are replaced by the way they settled, given as a parameter: a reply body,
  or the message of the error they threw.
- `window.confirm` answers, `Math.random` draws and `JSON.parse` are parameters too.

Modules follow the program's structure:

| module | file | models |
|---|---|---|
| `Seqs`, `Text` | seqs.dfy, text.dfy | `filter`/`length`/sum/mean; split, trim, join and the comma-list parser |
| `JsValue`, `Records`, `Axes`, `Bands` | js_value.dfy, records.dfy, axes.dfy, bands.dfy | JS values, backend records, the five radar axes, the shared 80/60 bands |
| `Candidates` | candidates.dfy | brief and status filters |
| `Dashboard` | dashboard.dfy | the recruiter dashboard radar and risks |
| `Evaluation` | evaluation.dfy | the questionnaire page |
| `Questions` | questions.dfy | the interview page and its payload normalisation |
| `Process` | process.dfy | the candidate process manager |
| `ProcessDashboard`, `RadarV2` | process_dashboard.dfy, radar_v2.dfy | the process dashboard and its comparison radar |
| `BarCharts` | bar_charts.dfy | the two CV bar charts |
| `CvPage`, `BriefPage`, `BriefActions`, `ContextPage`, `Auth` | cv_page.dfy, brief_page.dfy, brief_actions.dfy, context_page.dfy, auth.dfy | the form pages |
| `ContextSelector`, `InterviewEvaluation`, `CandidateCard` | context_selector.dfy, interview_evaluation.dfy, candidate_card.dfy | the components of the same names |

## Model

| member | source | states |
|---|---|---|
| Candidates.FilterByBrief | src/lib/utils.ts:15-22 | Without a brief the list comes back unchanged. With one, exactly the candidates whose brief_id equals the brief's id are kept: each kept one matches and each matching one is kept. |
| Candidates.FilterByBriefIdempotent | src/lib/utils.ts:15-22 | Filtering twice by the same brief equals filtering once. |
| Candidates.FilterByBriefOrder | src/lib/utils.ts:20 | The filter keeps input order: the result for a concatenation is the concatenation of the results. |
| Candidates.FilterByTab | src/pages/Dashboard.tsx:37-43 | 'all' and any unrecognised tab keep every candidate in order. 'recommended', 'review' and 'evaluation' keep exactly the candidates with status 'Recommandé', 'À revoir' and 'En évaluation'. |
| Candidates.FilterByTabOrder | src/pages/Dashboard.tsx:37-43 | The tab filters keep input order. |
| Candidates.LoadForBrief | src/components/CandidateProcessManager.tsx:42-44 | Missing data yields []. Otherwise exactly the candidates of the brief are kept. |
| Candidates.DropdownCandidates | src/pages/Interview.tsx:228-229 | With no brief selected every candidate is listed. Otherwise exactly those with the selected brief_id are listed. |
| Candidates.FindById | src/pages/Evaluation.tsx:226 | `find` returns the first candidate with the id, and nothing exactly when no candidate has it. |
| Dashboard.LengthEstimate | src/pages/Dashboard.tsx:51-52 | A non-empty list gives min(length × per-item, 100). A missing or empty list gives the fallback. The value never exceeds 100. |
| Dashboard.InterviewEstimate | src/pages/Dashboard.tsx:54-56 | Without appreciations, or with an empty list, the interview axis is 0. Otherwise it is 25 × the mean appreciation score, so that multiplied by the count it gives 25 × their sum. |
| Dashboard.InterviewEstimateBounds | src/pages/Dashboard.tsx:54-56 | Appreciation scores within lo..hi give an interview axis within 25·lo..25·hi. |
| Dashboard.RadarData | src/pages/Dashboard.tsx:46-58 | With no CV analysis the result is an empty map. Otherwise it holds exactly the five axis keys, valued score‖75, min(exp×20,100) or 60, min(edu×25,100) or 70, predictive‖80, and the mean appreciation score × 25. |
| Dashboard.DefaultProfile | src/pages/Dashboard.tsx:50-56 | A CV analysis that carries nothing yields the fallbacks 75/60/70/80 and an interview value of 0. |
| Dashboard.RadarDataInRange | src/pages/Dashboard.tsx:46-58 | When the backend values are in range (scores in 0..100, appreciations in 0..4), every axis is in 0..100. |
| Dashboard.LengthEstimateMonotone | src/pages/Dashboard.tsx:51-52 | A longer non-empty list never lowers its axis. |
| Dashboard.RisksAndRecommendations | src/pages/Dashboard.tsx:61-80 | Risks and recommendations have equal length, at most 3, and are paired by position. Each risk appears exactly when its rule fires: score < 70, fewer than 3 skills (or none), or an appreciation list that is present but empty. |
| Dashboard.RecommendationFor | src/pages/Dashboard.tsx:65-78 | A recommendation exists exactly for the three risks the dashboard raises. |
| Evaluation.SetAnswer | src/pages/Evaluation.tsx:80-85 | Only the chosen question's answer is set. Every other answer is unchanged, and the answered count grows by one exactly for a new question. |
| Evaluation.CountDecidesCompleteness | src/pages/Evaluation.tsx:95-98 | When the keys are question indexes, "answered ≥ total" holds exactly when every question has an answer. |
| Evaluation.Progress | src/pages/Evaluation.tsx:176-180 | With questions, progress × total = 100 × the number of answered questions. |
| Evaluation.ProgressReachesFull | src/pages/Evaluation.tsx:176-180 | Progress lies in 0..100 and is 100 exactly when every question is answered. |
| Evaluation.AppreciationLabel | src/pages/Evaluation.tsx:171-174 | Values 1..4 get their option's label; any other value gets ''. |
| Evaluation.AppreciationLabelInjective | src/pages/Evaluation.tsx:73-78 | Distinct options have distinct labels. |
| Evaluation.Payload | src/pages/Evaluation.tsx:110-117 | One appreciation per question, in question order, carrying that question's text, category, answer and label. |
| Evaluation.CheckSubmission | src/pages/Evaluation.tsx:90-104 | No candidate gives 'Aucun candidat sélectionné'. An incomplete sheet gives the count message. Otherwise the payload is built. |
| Evaluation.SubmitButtonMatchesGuards | src/pages/Evaluation.tsx:345 | The submit button is enabled exactly when the handler's guards let the submission through. |
| Evaluation.Mean | src/pages/Evaluation.tsx:128-136 | The mean is undefined (the NaN of 0/0) exactly for an empty list. |
| Evaluation.MeanWithinOptions | src/pages/Evaluation.tsx:128-136 | The mean of answers in 1..4 lies in 1..4. |
| Evaluation.AnsweredValuesCount | src/pages/Evaluation.tsx:128 | `Object.values` lists as many values as there are answers. |
| Evaluation.CategoryAnswers | src/pages/Evaluation.tsx:158-166 | The truthy answers of the category's questions: empty exactly when there are none, and each one such an answer. |
| Evaluation.CategoryAnswersFilterMap | src/pages/Evaluation.tsx:158-166 | The list is exactly the answers at the positions of the category's questions with a truthy answer, in question order: a filter by category and truthy answer, then a map to the answer. |
| Evaluation.CategoryScore | src/pages/Evaluation.tsx:158-169 | Without such answers the score is 0. Otherwise score × their count = their sum, i.e. the score is their mean. |
| Evaluation.CategoryScoreRange | src/pages/Evaluation.tsx:158-169 | A category score is 0 exactly when no question of the category has a truthy answer; otherwise it lies in 1..4. |
| Evaluation.BuildRadar | src/pages/Evaluation.tsx:123-129 | Skills and culture are the category means × 25. Experience lies in [70,100) and education in [80,100). The interview axis is undefined exactly when nothing is answered. |
| Evaluation.BuildRadarOnScale | src/pages/Evaluation.tsx:123-129 | With valid options every axis of the radar stays in 0..100. |
| Evaluation.MarkEvaluated | src/pages/Evaluation.tsx:142-146 | Only candidates with the evaluated id change, to status 'Évalué' and the returned score. The length is kept. |
| Evaluation.MarkEvaluatedIdempotent | src/pages/Evaluation.tsx:142-146 | Applying the same result twice changes nothing more. |
| Evaluation.Submit | src/pages/Evaluation.tsx:119-153 | A reply with data updates the list and shows the radar with a success toast. Any other reply or a throw leaves the list alone, with response.error or the default message. |
| Questions.FirstArray | src/components/CandidateProcessManager.tsx:91-109 | The reference definition of the chain: the first of the locations holding an array, or nothing when none does. |
| Questions.ExtractFollowsPriority | src/pages/Interview.tsx:90-105 | The extraction chain equals the reference definition over the four locations, in the order questions.questions, data.questions.questions, data.questions, questions. |
| Questions.ExtractNestedData | src/pages/Interview.tsx:95-97 | The usual `{data:{questions:{questions:[…]}}}` shape yields its list. |
| Questions.GeneratedQuestions | src/components/CandidateProcessManager.tsx:62-64 | The generate handler's `\|\|` chain equals the reference definition over data.questions.questions then data.questions: the first of the two holding an array. |
| Questions.GeneratedAgreesWithChain | src/components/CandidateProcessManager.tsx:62-109 | Without a top-level `questions` field, the generate chain and the view chain agree. |
| Questions.ParsedQuestions | src/pages/Interview.tsx:45-54 | A parsed object's `questions` array wins, then a parsed array, else []. |
| Questions.StoredQuestions | src/pages/Interview.tsx:39-66 | A falsy value gives []. A string is parsed, and a parse failure gives []. An array is used as is, an object yields its `questions`, and anything else gives []. |
| Questions.StringFormAgrees | src/pages/Interview.tsx:43-58 | Storing the questions as JSON text or as the decoded value yields the same list. |
| Questions.QuestionsForSelection | src/pages/Interview.tsx:38-66 | No selection, or an unknown candidate, gives []. Otherwise the result is the candidate's normalised questions. |
| Questions.Generate | src/pages/Interview.tsx:69-134 | Without both a brief and a candidate it refuses with an error. A found array replaces the questions with a count toast. Every error path leaves the questions untouched. What the reload that follows does to them is stated by GenerateAndReload. |
| Questions.GenerateAndReload | src/pages/Interview.tsx:38-121 | The toast is the generation's. On an error the questions are untouched. After a success without a reload they are the generated list, and after a reload they are the selected candidate's stored questions in the reloaded list, as the selection effect recomputes them. |
| Questions.GeneratedSurvivesReload | src/pages/Interview.tsx:38-121 | After a successful generation and reload, the generated list stays shown exactly when the reloaded candidate's stored questions normalise to it, or, for an empty list, when the candidate is gone from the reloaded list. |
| Questions.ReloadOverwritesGenerated | src/pages/Interview.tsx:38-121 | A reply with one question and a reloaded candidate storing none: the success toast announces one question and the page shows none. |
| Questions.Refresh | src/pages/Interview.tsx:137-181 | The same chain applies to the refresh reply, with its own messages. On error the questions are untouched. |
| Process.StageNameRoundTrip | src/components/CandidateProcessManager.tsx:184-196 | The four stage names and the known stages correspond one to one. |
| Process.StageLabel | src/components/CandidateProcessManager.tsx:184-196 | The label is 'En attente' exactly for an unknown stage. |
| Process.ActionsFor | src/components/CandidateProcessManager.tsx:209-213 | Generate holds exactly at cv_analysis and view exactly at the three later stages. Evaluate holds only at interview_questions, finalize only at interview_evaluation. |
| Process.ForwardActionAdvancesOneStage | src/components/CandidateProcessManager.tsx:209-251 | At most one forward button is enabled at a stage. Its click reports a stage exactly when the button is not 'Évaluer Entretien', and the reported stage is the successor of the stage that enabled the button. |
| Process.ClickReports | src/components/CandidateProcessManager.tsx:216-251 | 'Évaluer Entretien' reports no stage, because its click only selects the candidate. The other two buttons report their handler's stage. |
| Process.InterviewEvaluationNeverReported | src/components/CandidateProcessManager.tsx:236-242 | No enabled button ever reports the interview_evaluation stage. |
| Process.UnknownStageIsInert | src/components/CandidateProcessManager.tsx:184-213 | An unknown stage shows 'En attente' and enables no action. |
| Process.ViewAfterGeneration | src/components/CandidateProcessManager.tsx:211 | Viewing is offered exactly at the stages after question generation. |
| Process.GenerateOutcome | src/components/CandidateProcessManager.tsx:54-81 | A stage is reported, and questions set, exactly when the reply holds an array in the chain. |
| Process.ViewOutcome | src/components/CandidateProcessManager.tsx:84-127 | Questions are set exactly when the four-location chain finds an array; viewing reports no stage. |
| Process.ReportedOnData | src/components/CandidateProcessManager.tsx:129-180 | Evaluate and finalize report their stage exactly when the reply carries truthy data. |
| Process.DeleteReloads | src/components/CandidateProcessManager.tsx:146-163 | The list is reloaded only after a confirmed deletion whose reply carries data. |
| Process.ScoreDisplay | src/components/CandidateProcessManager.tsx:277-293 | The five axes appear in fixed order, each with its value when positive and '-' otherwise. |
| ProcessDashboard.RadarEntries | src/pages/ProcessDashboard.tsx:54-67 | The entries are those of the candidates with final score > 0, in order. |
| ProcessDashboard.ScoredCandidatesAppear | src/pages/ProcessDashboard.tsx:54-55 | Every candidate with a positive final score has its entry. |
| ProcessDashboard.RadarEntriesAppend | src/pages/ProcessDashboard.tsx:54-55 | The entries keep list order. |
| ProcessDashboard.ComputeStats | src/pages/ProcessDashboard.tsx:70-79 | total is the list size. Each stage counter is the number of positions of the list at that stage. The average is that of the radar entries. |
| ProcessDashboard.StageCountIsPositions | src/pages/ProcessDashboard.tsx:72-75 | Filtering by stage and taking the length counts the positions at that stage. |
| ProcessDashboard.StageCount | src/pages/ProcessDashboard.tsx:72-75 | A stage counter is the number of positions of the list at that stage. |
| ProcessDashboard.Average | src/pages/ProcessDashboard.tsx:76-78 | 0 without entries. Otherwise average × number of entries = the sum of their final scores. |
| ProcessDashboard.AverageWithinScores | src/pages/ProcessDashboard.tsx:76-78 | When every scored candidate's final score lies in lo..hi, the average does too. |
| ProcessDashboard.StageCountsWithinTotal | src/pages/ProcessDashboard.tsx:71-75 | The four stage counters add up to at most total. |
| ProcessDashboard.AverageScoreSign | src/pages/ProcessDashboard.tsx:76-78 | The average is 0 exactly without entries, and positive otherwise. |
| ProcessDashboard.ScreenFor | src/pages/ProcessDashboard.tsx:108-120 | The evaluation screen is shown only for the 'evaluation' view with a selected candidate and questions. |
| RadarV2.Insert | src/components/RadarChartV2.tsx:48 | Insertion into a sorted list keeps it sorted by final score and adds exactly the new candidate. |
| RadarV2.InsertPermutes | src/components/RadarChartV2.tsx:48 | Insertion adds exactly one copy of the inserted candidate. |
| RadarV2.SortByFinalScore | src/components/RadarChartV2.tsx:48 | The sorted copy is non-increasing by final score and has the same length. |
| RadarV2.SortPermutes | src/components/RadarChartV2.tsx:48 | The sorted copy holds exactly the same candidates. |
| RadarV2.TopCandidates | src/components/RadarChartV2.tsx:34-49 | The top list has min(#candidates, maxCandidates) entries, is sorted, and is drawn from the input. |
| RadarV2.OmittedScoreNoHigher | src/components/RadarChartV2.tsx:47-49 | Shown and omitted candidates together are the input, and no omitted candidate scores above a shown one. |
| RadarV2.KeyInjective | src/components/RadarChartV2.tsx:57 | Distinct datasets get distinct `candidate_i` keys. |
| RadarV2.AxisValues | src/components/RadarChartV2.tsx:56-59 | An axis row maps `candidate_i` to the i-th top candidate's score, for exactly the shown candidates. |
| RadarV2.RadarRows | src/components/RadarChartV2.tsx:52-93 | There are five rows, in axis order, each with fullMark 100 and the candidates' scores on that axis. |
| RadarV2.ColorsDistinct | src/components/RadarChartV2.tsx:38-44 | Up to five datasets get pairwise distinct colours. |
| RadarV2.Recommendation | src/components/RadarChartV2.tsx:198-202 | 'Excellent' from 80, 'Bon candidat' from 60, 'À considérer' below. |
| RadarV2.RecommendationColor | src/components/RadarChartV2.tsx:220-226 | The badge colour follows the same 80/60 bands. |
| RadarV2.Render | src/components/RadarChartV2.tsx:121-134 | With an empty top list the empty-state panel is drawn and no chart. |
| BarCharts.BarData | src/components/CVBarChartV2.tsx:34-66 | There are 3 bars by default and 5 with showAllScores, in fixed label order. Each bar is round(field ‖ 0). |
| BarCharts.ThreeBarsArePrefix | src/components/CVBarChartV2.tsx:34-66 | The three-bar data is the five-bar data without its last two bars. |
| BarCharts.MissingFieldIsZero | src/components/CVBarChartV2.tsx:37-62 | A missing field draws a 0 bar. |
| BarCharts.BarColor | src/components/CVBarChartV2.tsx:99-104 | High and medium bands get green and amber. The low band is red from 40 and grey below. |
| BarCharts.BarColorMonotone | src/components/CVBarChartV2.tsx:99-104 | The colour bands at 80/60/40 are monotone in the score. |
| BarCharts.AverageScore | src/components/CVBarChartV2.tsx:106 | average × number of displayed bars (5, or 3 by default) = the sum of the displayed bars. |
| BarCharts.AverageOnScale | src/components/CVBarChartV2.tsx:106 | The average of displayed bars in 0..100 lies in 0..100. |
| BarCharts.AverageBadge | src/components/CVBarChartV2.tsx:122-128 | The average badge follows the shared 80/60 bands. |
| BarCharts.MapScores | src/components/CVBarChart.tsx:25-33 | A falsy input gives four zeros. Otherwise each axis prefers `*_score`, then the short name, then 0, and global is final_score ?? global ?? score ?? 0. |
| BarCharts.ExplicitZeroKept | src/components/CVBarChart.tsx:28 | `??` keeps an explicit 0 over the short-named field. |
| BarCharts.ShortNamesMapped | src/components/CVBarChart.tsx:28-31 | An object using only short names maps to exactly those values. |
| BarCharts.ChartOf | src/components/CVBarChart.tsx:37-69 | Four rounded bars in fixed label order when all four values are non-NaN numbers; the error panel otherwise. |
| BarCharts.RenderAsWritten | src/components/CVBarChart.tsx:35-57 | As written, a null or undefined `scores` prop throws in the debug logging before anything renders. |
| BarCharts.MissingScoresCrash | src/components/CVBarChart.tsx:25-47 | A missing prop crashes the component as written, although mapScores maps it to zeros. |
| BarCharts.Render | src/components/CVBarChart.tsx:25-69 | The corrected component never crashes, and a missing prop draws four 0 bars. |
| BarCharts.RenderAgreesOutsideMissing | src/components/CVBarChart.tsx:35-69 | Except for a missing prop, the corrected component renders as written. |
| CvPage.CheckFile | src/pages/CV.tsx:67-77 | A type other than PDF or text is rejected first. A size above 5 MiB is rejected next. Everything else passes. |
| CvPage.StartUpload | src/pages/CV.tsx:65-80 | A rejected file only raises its toast. An accepted one starts analysing and clears the previous result. |
| CvPage.SizeLimitInclusive | src/pages/CV.tsx:74 | Exactly 5 MiB is accepted; one byte more is not. |
| CvPage.StripExtension | src/pages/CV.tsx:87 | The last `.ext` is removed, and a name without a final extension is unchanged. |
| CvPage.StripExtensionMatchesRegex | src/pages/CV.tsx:87 | The removed suffix is exactly the match of `/\.[^/.]+$/`, and nothing is removed when there is no match. |
| CvPage.StripAddedExtension | src/pages/CV.tsx:87 | Stripping undoes appending a `.ext` extension. |
| CvPage.JoinOrPlaceholder | src/pages/CV.tsx:88-89 | The list joined by ', ', or 'Non renseigné' when missing. |
| CvPage.PlaceholderCases | src/pages/CV.tsx:88-89 | The placeholder appears exactly for a missing list, an empty list, or one empty item. |
| CvPage.Transform | src/pages/CV.tsx:86-91 | The file name without its extension, the joined experience and education, and the skills or []. |
| CvPage.FinishUpload | src/pages/CV.tsx:82-114 | A reply with data shows the transformed result and a success toast. Every other outcome shows response.error or the default, and no new result. |
| CvPage.FailedUploadShowsNothing | src/pages/CV.tsx:79-111 | An accepted file whose upload fails leaves no result on screen. |
| CvPage.ScoreColor | src/pages/CV.tsx:117-121 | Green from 80, yellow from 60, red below. |
| CvPage.ScoreLabel | src/pages/CV.tsx:123-127 | 'Excellent' from 80, 'Satisfaisant' from 60, 'À améliorer' below. |
| Bands.Pick | src/pages/CV.tsx:117-127 | The value of the score's band: the high value from 80, the medium one from 60, the low one below. |
| Bands.PickDecidesBand | src/pages/CV.tsx:117-127 | With three distinct values, two scores get the same value exactly when they fall in the same band. |
| CvPage.ColorAndLabelAgree | src/pages/CV.tsx:117-127 | Two scores share a colour exactly when they share a label. |
| Text.ParseList | src/pages/Brief.tsx:48 | Every parsed item is non-empty, trimmed and comma-free. |
| Text.ParseListAppend | src/pages/Brief.tsx:48 | Parsing keeps left-to-right order: the pieces before a comma come first. |
| Text.ParseJoinRoundTrip | src/components/BriefActions.tsx:20-47 | Joining with ', ' and parsing returns any list of non-empty, trimmed, comma-free items. |
| Text.BlankListParsesEmpty | src/pages/Context.tsx:49 | A text of only commas and blanks parses to []. |
| BriefPage.Validate | src/pages/Brief.tsx:39-55 | Refused with 'Tous les champs sont requis' exactly when a field is empty. Otherwise the request carries the parsed skills. |
| BriefPage.Submit | src/pages/Brief.tsx:35-78 | Success empties the form, appends the new brief, and makes it active only if none was. Every other path keeps the form, the briefs and the active brief, with the right toast. |
| BriefPage.FirstBriefStaysActive | src/pages/Brief.tsx:67-69 | After the first brief becomes active, later submissions leave it active. |
| BriefActions.InitialForm | src/components/BriefActions.tsx:20-25 | The skills text is the skills joined by ', ', or '' when skills is not an array. |
| BriefActions.SkillsRoundTrip | src/components/BriefActions.tsx:20-47 | Saving an untouched form sends back the brief's own skills. |
| BriefActions.CancelEdit | src/components/BriefActions.tsx:32-40 | Cancel leaves edit mode and restores all four fields from the brief. |
| BriefActions.CancelDiscardsEdits | src/components/BriefActions.tsx:32-40 | Whatever was typed, cancelling gives the same state. |
| BriefActions.SaveSkills | src/components/BriefActions.tsx:44-47 | The saved skills are non-empty, trimmed and comma-free. |
| BriefActions.SaveEdit | src/components/BriefActions.tsx:42-72 | The update is accepted exactly when status is 'success' and data is present. Otherwise editing continues with message ‖ error ‖ the default, or the thrown message. |
| BriefActions.Delete | src/components/BriefActions.tsx:74-94 | A declined confirmation does nothing. The brief is deleted exactly when confirmed and the reply carries no error. |
| ContextPage.Validate | src/pages/Context.tsx:41-54 | Values and culture are both required. The request carries the parsed values. |
| ContextPage.BlankValuesPass | src/pages/Context.tsx:41-49 | A values text of commas and blanks passes the check but sends an empty list. |
| ContextPage.Submit | src/pages/Context.tsx:38-68 | Only a reply with data replaces the shown questions, with the count toast. A refused form, a reply without data and a throw keep the questions already shown, with the required-fields message, response.error or the default. |
| ContextPage.FailuresKeepLastSuccess | src/pages/Context.tsx:38-68 | After a successful submission, any run of failed ones keeps its questions on screen. |
| ContextPage.Counts | src/pages/Context.tsx:242-254 | Each counter is the number of positions of the list whose question has exactly its category. |
| ContextPage.CategoryCountIsPositions | src/pages/Context.tsx:242-254 | Filtering by category and taking the length counts the positions of that category. |
| ContextPage.CountsWithinTotal | src/pages/Context.tsx:242-254 | The three counters add up to at most the number of questions. |
| ContextPage.CountsCoverTotal | src/pages/Context.tsx:242-254 | When every question has one of the three categories, the counters add up to exactly the number of questions. |
| Auth.Validate | src/pages/Auth.tsx:47-61 | Checks run in order: required email and password, then the name, then the password match. Registration passes exactly when all hold, login when the first holds. |
| Auth.LoginIgnoresNameAndConfirm | src/pages/Auth.tsx:47-61 | Login never looks at the name or the confirmation. |
| Auth.RegisterStricterThanLogin | src/pages/Auth.tsx:52-61 | A form that may register may also log in. |
| Auth.RequestFor | src/pages/Auth.tsx:65-76 | Login sends email and password; registration also sends the name as username. |
| Auth.HandleReply | src/pages/Auth.tsx:79-98 | An error is shown first. A message logs in (with the fallback user) or switches a registration back to login. A throw shows 'Erreur serveur ou réseau : ' with the reason or 'Inconnu'. |
| Auth.ToggleMode | src/pages/Auth.tsx:101-110 | The mode flips, and the four fields and the toast are cleared. |
| Auth.ToggleTwice | src/pages/Auth.tsx:101-110 | Toggling twice restores the mode with a cleared form. |
| ContextSelector.Validate | src/components/ContextSelector.tsx:24-34 | Refused with 'Tous les champs sont requis' exactly when a field is empty. The request carries the parsed values. |
| ContextSelector.FindById | src/components/ContextSelector.tsx:41 | `find` returns the first context with that id, and nothing exactly when none has it. |
| ContextSelector.CreateAsWritten | src/components/ContextSelector.tsx:37-43 | As written, the new context is looked up in the list captured before the refresh. |
| ContextSelector.Create | src/components/ContextSelector.tsx:19-54 | An invalid form only sets the error. A settled request resets and hides the form with a success toast. A throw keeps the form and selection with the reason or the default. The created context is selected when the refreshed list holds it. |
| ContextSelector.StaleLookupMissesNewContext | src/components/ContextSelector.tsx:37-43 | A context absent before the refresh and present after is selected by the corrected handler and never by the written one. |
| ContextSelector.FirstContextNotSelected | src/components/ContextSelector.tsx:37-43 | The first context ever created, with id 7, is not selected by the handler as written and is selected by the corrected one. |
| ContextSelector.Delete | src/components/ContextSelector.tsx:57-72 | A missing or zero id, or a declined confirmation, does nothing. A deletion clears the selection exactly when the deleted context was selected. |
| InterviewEvaluation.Init | src/components/InterviewEvaluation.tsx:30-40 | One record per question copies its text, category and purpose, with score 0 and empty appreciation and notes. |
| InterviewEvaluation.Update | src/components/InterviewEvaluation.tsx:42-46 | Only the named field of the given record changes. The length and every other record are kept. |
| InterviewEvaluation.UpdateSameValue | src/components/InterviewEvaluation.tsx:42-46 | Writing a field's own value back changes nothing. |
| InterviewEvaluation.ScoreLabel | src/components/InterviewEvaluation.tsx:64-73 | A score 1..5 gets its button's label from 'Faible' to 'Excellent'. Anything else gets 'Non évalué'. |
| InterviewEvaluation.ScoreLabelsDistinct | src/components/InterviewEvaluation.tsx:64-73 | 1..5 get five distinct labels; anything else is 'Non évalué'. |
| InterviewEvaluation.ScoreColor | src/components/InterviewEvaluation.tsx:57-62 | One of four colours, whose band is the score minus one clamped to 0..3. |
| InterviewEvaluation.ScoreColorMonotone | src/components/InterviewEvaluation.tsx:57-62 | The colour bands at 4/3/2 are monotone. |
| InterviewEvaluation.Progress | src/components/InterviewEvaluation.tsx:82 | Progress lies in (0,100] and is 100 exactly at the last question. |
| InterviewEvaluation.ProgressMonotone | src/components/InterviewEvaluation.tsx:82 | Moving forward never shortens the bar. |
| InterviewEvaluation.NavigationFor | src/components/InterviewEvaluation.tsx:209-236 | 'Précédente' appears exactly when index > 0. 'Suivante' appears before the last question and 'Terminer' at it. Both are disabled until the score and the appreciation are set; 'Terminer' also while loading. |
| InterviewEvaluation.StepKeepsCompleteBefore | src/components/InterviewEvaluation.tsx:209-224 | The buttons and the edits keep every question before the current one complete. |
| InterviewEvaluation.Run | src/components/InterviewEvaluation.tsx:30-224 | Any run of edits and button clicks from the first question keeps that invariant. |
| InterviewEvaluation.FinishMeansAllComplete | src/components/InterviewEvaluation.tsx:220-231 | Reached through the buttons, an enabled 'Terminer' means every question is complete. |
| InterviewEvaluation.JumpSkipsEarlierQuestions | src/components/InterviewEvaluation.tsx:231-248 | A summary tile jumps straight to the last question, where 'Terminer' can be enabled with earlier questions unscored. |
| CandidateCard.StatusColorsDistinct | src/components/CandidateCard.jsx:6-17 | The three known statuses have distinct badges, and every other status gets the grey one. |
| CandidateCard.StatusColor | src/components/CandidateCard.jsx:6-17 | 'Recommandé' is green, 'En évaluation' yellow and 'À revoir' red. The grey badge is given exactly to any other status. |
| CandidateCard.ScoreColor | src/components/CandidateCard.jsx:19-41 | Green from 80, yellow from 60, red below or when the score is missing. |
| CandidateCard.RiskSummary | src/components/CandidateCard.jsx:63-69 | The risk section is shown exactly when risks are present and non-empty. |
| CandidateCard.ShortRiskListShownWhole | src/components/CandidateCard.jsx:67 | With at most two risks, the line lists them all, and parsing it gives them back. |
| CandidateCard.LongRiskListTruncated | src/components/CandidateCard.jsx:67-68 | With more than two, the line is the first two joined by ', ' followed by '...'. |

## Left out

- src/services/api.ts (fetch, token storage, JSON transport): every backend call is replaced by the way it settled. `companyContextService` and `CompanyContextType` are not part of this model: the creation reply is modelled as carrying an optional `context_id`.
- src/components/RadarChart.jsx, and the recharts / Chart.js drawing in the chart components: these are rendering, not logic. Only the data preparation is modelled.
- Async sequencing, loading flags, `alert`, toast timers and the delayed switch after registration: these are UI effects. Each handler is modelled as one step from its inputs to the state it leaves. The delayed switch is folded into `Auth.HandleReply`.
- The direct fetch of the process dashboard (src/pages/ProcessDashboard.tsx:85-106): this is I/O.
- The list reloads after a successful action: the fetch is I/O. Whether a reload happens is modelled in `Process.DeleteReloads`. The reload after a generation on the interview page is a parameter of `Questions.GenerateAndReload`, because the new list re-runs the selection effect and replaces the generated questions.
- `Math.random`: the two draws of the Evaluation radar are parameters in [0,1). The random score fallbacks of src/pages/CV.tsx:92-94 are left out, and so is the `scores` part of `CvPage.Transform`.
- `JSON.parse` is a parameter returning an optional value, with None for a parse failure.
- `parseInt` of select values, `toFixed` and the percent formatting: these are display only.
- Glue with no rules of its own: src/components/Navbar.tsx, Modal.jsx, Card.jsx, Toast.jsx, BriefSelector.tsx, BriefDropdown.tsx, CandidateDropdown.tsx, src/context/CompanyContext.tsx, src/pages/RecruitmentWorkflow.tsx, src/pages/Index.jsx, src/main.tsx, src/App.tsx and src/App.jsx. The fixtures in src/utils/mockData.js and mockData.ts are left out too.
- The radar values shown on the candidate card (src/components/CandidateCard.jsx:48-61): they are a display of fields this model does not carry.
- RadarV2.SortByFinalScore: the source sorts the caller's array in place. The model sorts a copy and does not claim the input is unchanged. Equal scores keep their input order in the model, which JavaScript's stable sort also does, but stability is not stated as a property.
- RadarV2.TopCandidates: `maxCandidates` is a natural number. A negative value (which `slice` would count from the end) is not modelled.
- InterviewEvaluation.Update: it requires an index inside the list. The page only updates the question it is showing, which the render guard (src/components/InterviewEvaluation.tsx:78) guarantees exists.
- A `null` predictive score on the dashboard: a missing predictive score is `undefined`, which compares false with 70. A `null` score would compare as 0 and raise the risk; null is not distinguished from a missing value here.
- Thrown values that are not `Error` objects: a throw always carries a message string.
- Toast kinds 'warning' and 'info' of the context selector: they are never raised by the modelled handlers.
- `evaluateInterview` (src/components/CandidateProcessManager.tsx:129-143) has no caller: 'Évaluer Entretien' only selects the candidate, and 'Commencer Évaluation' (src/components/CandidateProcessManager.tsx:349-351) has no handler. `Process.ReportedOnData` models the handler as written, although nothing reaches it.
- Evaluation.Submit: the reply's `data` stands for `data.analysis.predictive_score` (src/pages/Evaluation.tsx:131,144). A truthy `data` without an `analysis` object throws there and ends in the catch toast. The model shows success for it.
- CvPage.FinishUpload: the reply's `data` stands for `data.cv_analysis` with its score part (src/pages/CV.tsx:88-94). A truthy `data` without `cv_analysis` throws and ends in the catch toast. The model shows success for it.
- ContextPage.Submit: the reply's `data` stands for `data.questions` (src/pages/Context.tsx:57-58). A truthy `data` without a `questions` array throws on `.length` and ends in the catch toast. The model shows success for it.

## Findings

| source | as written | input that shows it | evidently intended | confidence | as-written member | corrected member |
|---|---|---|---|---|---|---|
| src/components/CVBarChart.tsx:25-47 | `mapScores` maps a missing `scores` prop to four zeros, but `Object.entries(scores)` in the debug logging runs first and throws on `null`/`undefined` | `scores = undefined` | a missing prop draws four 0 bars, as the null branch of `mapScores` shows | medium, not executed | BarCharts.RenderAsWritten, BarCharts.MissingScoresCrash | BarCharts.Render, BarCharts.RenderAgreesOutsideMissing |
| src/components/ContextSelector.tsx:37-43 | after `await onContextsChange()`, the created context is searched in the `contexts` prop captured by the handler, i.e. the list before the refresh, so a new context is never found | first creation, `contexts = []`, reply `context_id = 7`, refreshed list holding context 7 | the created context becomes active, as the comment above the lookup says | medium, not executed | ContextSelector.CreateAsWritten, ContextSelector.FirstContextNotSelected | ContextSelector.Create, ContextSelector.StaleLookupMissesNewContext |

=== FILE: auth.dfy ===
/** The login / registration page: the field checks, the request each mode sends, what a
    reply does to the page, and the mode toggle. */
module Auth {

  import opened Wrappers
  import opened Records

  datatype Mode = Login | Register

  datatype AuthForm = AuthForm(email: string, password: string, name: string, confirmPassword: string)

  const EmptyForm: AuthForm := AuthForm("", "", "", "")

  const RequiredMessage := "Tous les champs sont requis"
  const NameMessage := "Le nom est requis pour l'inscription"
  const MismatchMessage := "Les mots de passe ne correspondent pas"

  /** The checks of `handleSubmit`, in their order; the first that fails is reported. */
  function Validate(mode: Mode, f: AuthForm): (r: Result<(), string>)
    ensures r.Ok? <==> (
      && f.email != "" && f.password != ""
      && (mode == Register ==> f.name != "" && f.password == f.confirmPassword))
    ensures (f.email == "" || f.password == "") ==> r == Err(RequiredMessage)
    ensures f.email != "" && f.password != "" && mode == Register && f.name == "" ==> r == Err(NameMessage)
    ensures r == Err(MismatchMessage) <==> (
      && f.email != "" && f.password != "" && mode == Register
      && f.name != "" && f.password != f.confirmPassword)
  {
    if f.email == "" || f.password == "" then Err(RequiredMessage)
    else if mode == Register && f.name == "" then Err(NameMessage)
    else if mode == Register && f.password != f.confirmPassword then Err(MismatchMessage)
    else Ok(())
  }

  /** Logging in looks only at the e-mail and the password. */
  lemma LoginIgnoresNameAndConfirm(f: AuthForm, name: string, confirm: string)
    ensures Validate(Login, f) == Validate(Login, f.(name := name, confirmPassword := confirm))
  {
  }

  /** A form that passes the registration checks passes the login checks. */
  lemma RegisterStricterThanLogin(f: AuthForm)
    ensures Validate(Register, f).Ok? ==> Validate(Login, f).Ok?
  {
  }

  datatype Request =
    | LoginRequest(email: string, password: string)
    | RegisterRequest(username: string, email: string, password: string)

  /** The request sent once the checks pass; registration sends the name as `username`. */
  function RequestFor(mode: Mode, f: AuthForm): (r: Request)
    ensures r.LoginRequest? <==> mode == Login
    ensures r.email == f.email && r.password == f.password
    ensures r.RegisterRequest? ==> r.username == f.name
  {
    match mode
    case Login => LoginRequest(f.email, f.password)
    case Register => RegisterRequest(f.name, f.email, f.password)
  }

  datatype User = User(id: int, username: string, email: string)

  /** How the auth call settled: a reply body, or a thrown error carrying its message. */
  datatype AuthReply =
    | AuthReply(error: Option<string>, message: Option<string>, user: Option<User>)
    | AuthThrew(reason: string)

  datatype PageState = PageState(mode: Mode, form: AuthForm, toast: Option<Toast>)

  /** What a reply leaves: the page, and the user handed to `onLogin`. The switch back to
      the login mode after a registration happens after a delay; it is folded in here. */
  datatype Outcome = Outcome(state: PageState, loggedIn: Option<User>)

  function HandleReply(st: PageState, reply: AuthReply): (r: Outcome)
    ensures r.loggedIn.Some? <==> (
      && st.mode == Login && reply.AuthReply?
      && !HasText(reply.error) && HasText(reply.message))
    ensures r.loggedIn.Some? && reply.user.Some? ==> r.loggedIn == reply.user
    ensures r.loggedIn.Some? && reply.user.None? ==>
      r.loggedIn == Some(User(1, st.form.name, st.form.email))
    ensures reply.AuthReply? && HasText(reply.error) ==>
      r.state == st.(toast := Some(Toast(reply.error.value, ErrorToast)))
    ensures reply.AuthReply? && !HasText(reply.error) && HasText(reply.message) ==>
      r.state.toast == Some(Toast(reply.message.value, SuccessToast))
    ensures reply.AuthReply? && !HasText(reply.error) && HasText(reply.message) && st.mode == Register ==>
      r.state.mode == Login
      && r.state.form == st.form.(name := "", confirmPassword := "")
    ensures reply.AuthReply? && !HasText(reply.error) && !HasText(reply.message) ==>
      r == Outcome(st, None)
    ensures reply.AuthThrew? ==>
      r.state == st.(toast := Some(Toast("Erreur serveur ou réseau : " +
        (if reply.reason != "" then reply.reason else "Inconnu"), ErrorToast)))
  {
    match reply
    case AuthThrew(reason) =>
      Outcome(st.(toast := Some(Toast("Erreur serveur ou réseau : " +
        (if reason != "" then reason else "Inconnu"), ErrorToast))), None)
    case AuthReply(error, message, user) =>
      if HasText(error) then Outcome(st.(toast := Some(Toast(error.value, ErrorToast))), None)
      else if HasText(message) then
        var shown := st.(toast := Some(Toast(message.value, SuccessToast)));
        match st.mode
        case Login =>
          Outcome(shown, Some(if user.Some? then user.value else User(1, st.form.name, st.form.email)))
        case Register =>
          Outcome(shown.(mode := Login, form := st.form.(name := "", confirmPassword := "")), None)
      else Outcome(st, None)
  }

  /** `toggleMode`: the other mode, an empty form, no toast. */
  function ToggleMode(st: PageState): (r: PageState)
    ensures r.mode != st.mode
    ensures r.form == EmptyForm && r.toast.None?
  {
    PageState(if st.mode == Login then Register else Login, EmptyForm, None)
  }

  /** Toggling twice comes back to the same mode, with the form and the toast cleared. */
  lemma ToggleTwice(st: PageState)
    ensures ToggleMode(ToggleMode(st)) == PageState(st.mode, EmptyForm, None)
  {
  }
}

=== FILE: axes.dfy ===
/** The five score axes every chart and score panel shows, with their display labels in the
    fixed display order. */
module Axes {

  const Skills: string := "Compétences"
  const Experience: string := "Expérience"
  const Education: string := "Formation"
  const Culture: string := "Culture"
  const Interview: string := "Entretien"

  /** The display order shared by the radar charts, the bar chart and the score panel. */
  const Labels: seq<string> := [Skills, Experience, Education, Culture, Interview]

  /** A five-axis profile with one number per axis. */
  datatype Profile = Profile(skills: real, experience: real, education: real, culture: real, interview: real)
  {
    /** The axis values in display order. */
    function Values(): seq<real> {
      [skills, experience, education, culture, interview]
    }
  }
}

=== FILE: bands.dfy ===
/** The score bands the views colour and label scores by: 80 and above, 60 up to 80, and
    below 60. */
module Bands {

  datatype Band = High | Medium | Low

  function BandOf(score: real): (b: Band)
    ensures b == High <==> score >= 80.0
    ensures b == Medium <==> 60.0 <= score < 80.0
    ensures b == Low <==> score < 60.0
  {
    if score >= 80.0 then High else if score >= 60.0 then Medium else Low
  }

  /** The one of three values that belongs to `score`'s band. */
  function Pick<T>(score: real, high: T, medium: T, low: T): (r: T)
    ensures BandOf(score) == High ==> r == high
    ensures BandOf(score) == Medium ==> r == medium
    ensures BandOf(score) == Low ==> r == low
  {
    if score >= 80.0 then high else if score >= 60.0 then medium else low
  }

  /** With three distinct values, two scores pick the same value exactly when they fall in
      the same band. */
  lemma PickDecidesBand<T>(x: real, y: real, high: T, medium: T, low: T)
    requires high != medium && medium != low && high != low
    ensures Pick(x, high, medium, low) == Pick(y, high, medium, low) <==> BandOf(x) == BandOf(y)
  {
  }

  /** Higher bands rank higher. */
  function Rank(b: Band): nat {
    match b
    case Low => 0
    case Medium => 1
    case High => 2
  }

  /** A higher score never falls in a lower band. */
  lemma BandMonotone(x: real, y: real)
    requires x <= y
    ensures Rank(BandOf(x)) <= Rank(BandOf(y))
  {
  }
}

=== FILE: bar_charts.dfy ===
/** The two score bar charts: the staged one (`CVBarChartV2`), built from the process scores
    with `|| 0` fallbacks, and the CV one (`CVBarChart`), which maps the backend's field
    names with `??` chains and refuses non-numeric scores. */
module BarCharts {

  import opened Wrappers
  import opened JsValue
  import Axes
  import Bands
  import Seqs

  /** The `scores` prop of the staged chart; every field may be missing. */
  datatype ScoreData = ScoreData(
    skills: Option<real>, experience: Option<real>, education: Option<real>,
    culture: Option<real>, interview: Option<real>)
  {
    /** The fields in axis order. */
    function Fields(): seq<Option<real>> {
      [skills, experience, education, culture, interview]
    }
  }

  /** The default of the `showAllScores` prop. */
  const DefaultShowAllScores: bool := false

  const BarColors: seq<string> := ["#3b82f6", "#10b981", "#f59e0b", "#ef4444", "#8b5cf6"]

  datatype BarEntry = BarEntry(name: string, score: int, color: string)

  /** `data`: the three CV axes, followed by culture and interview when `showAllScores`;
      each score is `Math.round(field || 0)`. */
  function BarData(s: ScoreData, showAllScores: bool): (r: seq<BarEntry>)
    ensures |r| == if showAllScores then 5 else 3
    ensures forall i :: 0 <= i < |r| ==>
      && r[i].name == Axes.Labels[i]
      && r[i].score == Round(OrZero(s.Fields()[i]))
      && r[i].color == BarColors[i]
  {
    var n := if showAllScores then 5 else 3;
    seq(n, i requires 0 <= i < n => BarEntry(Axes.Labels[i], Round(OrZero(s.Fields()[i])), BarColors[i]))
  }

  /** The three-bar chart is the five-bar chart without its last two bars. */
  lemma ThreeBarsArePrefix(s: ScoreData)
    ensures BarData(s, false) == BarData(s, true)[..3]
  {
  }

  /** A missing field and an explicit 0 both draw a 0 bar. */
  lemma MissingFieldIsZero(s: ScoreData, i: nat)
    requires i < 5 && (s.Fields()[i].None? || s.Fields()[i] == Some(0.0))
    ensures BarData(s, true)[i].score == 0
  {
  }

  /** `getBarColor`: the shared 80/60 bands, with the low band split again at 40. */
  function BarColor(score: real): (c: string)
    ensures Bands.BandOf(score) == Bands.High ==> c == "#10b981"
    ensures Bands.BandOf(score) == Bands.Medium ==> c == "#f59e0b"
    ensures Bands.BandOf(score) == Bands.Low ==> (c == "#ef4444" <==> score >= 40.0)
    ensures Bands.BandOf(score) == Bands.Low ==> (c == "#6b7280" <==> score < 40.0)
  {
    if score >= 80.0 then "#10b981"
    else if score >= 60.0 then "#f59e0b"
    else if score >= 40.0 then "#ef4444"
    else "#6b7280"
  }

  /** The band a bar colour stands for, from grey (0) to green (3). */
  function ColorRank(c: string): nat {
    if c == "#10b981" then 3 else if c == "#f59e0b" then 2 else if c == "#ef4444" then 1 else 0
  }

  /** A higher score never gets a lower band's colour. */
  lemma BarColorMonotone(x: real, y: real)
    requires x <= y
    ensures ColorRank(BarColor(x)) <= ColorRank(BarColor(y))
  {
  }

  function Scores(bars: seq<BarEntry>): (r: seq<real>)
    ensures |r| == |bars| && forall i :: 0 <= i < |r| ==> r[i] == bars[i].score as real
  {
    seq(|bars|, i requires 0 <= i < |bars| => bars[i].score as real)
  }

  /** `averageScore`: the mean of the displayed bars. The bar list is never empty, so the
      division is always defined. */
  function AverageScore(s: ScoreData, showAllScores: bool): (r: real)
    ensures r * (if showAllScores then 5.0 else 3.0) == Seqs.Sum(Scores(BarData(s, showAllScores)))
  {
    Seqs.Mean(Scores(BarData(s, showAllScores)))
  }

  /** With every displayed field within 0..100 the average is within 0..100 too. */
  lemma AverageOnScale(s: ScoreData, showAllScores: bool)
    requires forall i :: 0 <= i < 5 && s.Fields()[i].Some? ==> 0.0 <= s.Fields()[i].value <= 100.0
    ensures 0.0 <= AverageScore(s, showAllScores) <= 100.0
  {
    var bars := BarData(s, showAllScores);
    forall i | 0 <= i < |bars| ensures 0.0 <= Scores(bars)[i] <= 100.0 {
      var x := OrZero(s.Fields()[i]);
      assert Round(x) as real - 0.5 <= x < Round(x) as real + 0.5;
    }
    Seqs.MeanBounds(Scores(bars), 0.0, 100.0);
  }

  /** The class of the average-score badge: the shared 80/60 bands. */
  function AverageBadge(avg: real): (c: string)
    ensures c == (match Bands.BandOf(avg)
                  case High => "bg-green-100 text-green-800"
                  case Medium => "bg-yellow-100 text-yellow-800"
                  case Low => "bg-red-100 text-red-800")
  {
    Bands.Pick(avg, "bg-green-100 text-green-800", "bg-yellow-100 text-yellow-800", "bg-red-100 text-red-800")
  }

  /** The four values `mapScores` produces. */
  datatype Mapped = Mapped(skills: Value, experience: Value, education: Value, global: Value)

  /** `a ?? b ?? fallback`. */
  function FirstPresent(a: Value, b: Value, fallback: Value): (r: Value)
    ensures !Nullish(a) ==> r == a
    ensures Nullish(a) && !Nullish(b) ==> r == b
    ensures Nullish(a) && Nullish(b) ==> r == fallback
  {
    Coalesce(a, Coalesce(b, fallback))
  }

  /** `mapScores`: nothing for a falsy input; otherwise each axis prefers its `*_score`
      field, then its short name, then 0, and the global score prefers `final_score`, then
      `global`, then `score`, then 0. */
  function MapScores(raw: Value): (r: Mapped)
    ensures !Truthy(raw) ==> r == Mapped(Num(0.0), Num(0.0), Num(0.0), Num(0.0))
    ensures Truthy(raw) ==>
      && r.skills == FirstPresent(Get(raw, "skills_score"), Get(raw, "skills"), Num(0.0))
      && r.experience == FirstPresent(Get(raw, "experience_score"), Get(raw, "experience"), Num(0.0))
      && r.education == FirstPresent(Get(raw, "education_score"), Get(raw, "education"), Num(0.0))
      && r.global == FirstPresent(Get(raw, "final_score"),
                                  Get(raw, "global"), Coalesce(Get(raw, "score"), Num(0.0)))
  {
    if !Truthy(raw) then Mapped(Num(0.0), Num(0.0), Num(0.0), Num(0.0))
    else Mapped(
      Coalesce(Get(raw, "skills_score"), Coalesce(Get(raw, "skills"), Num(0.0))),
      Coalesce(Get(raw, "experience_score"), Coalesce(Get(raw, "experience"), Num(0.0))),
      Coalesce(Get(raw, "education_score"), Coalesce(Get(raw, "education"), Num(0.0))),
      Coalesce(Get(raw, "final_score"), Coalesce(Get(raw, "global"), Coalesce(Get(raw, "score"), Num(0.0)))))
  }

  /** `??` keeps an explicit 0: a `skills_score` of 0 wins over any short-named value. */
  lemma ExplicitZeroKept(raw: Value)
    requires Truthy(raw) && Get(raw, "skills_score") == Num(0.0)
    ensures MapScores(raw).skills == Num(0.0)
  {
  }

  /** A backend object using only the short field names maps to exactly those values. */
  lemma ShortNamesMapped(sk: real, ex: real, ed: real, gl: real)
    ensures MapScores(Obj(map["skills" := Num(sk), "experience" := Num(ex), "education" := Num(ed), "global" := Num(gl)]))
      == Mapped(Num(sk), Num(ex), Num(ed), Num(gl))
  {
    var m := map["skills" := Num(sk), "experience" := Num(ex), "education" := Num(ed), "global" := Num(gl)];
    assert "skills_score" !in m && "experience_score" !in m && "education_score" !in m && "final_score" !in m;
  }

  /** `isValidNumber`: a number that is not `NaN`. */
  predicate IsValidNumber(v: Value) {
    v.Num?
  }

  predicate AllValid(m: Mapped) {
    IsValidNumber(m.skills) && IsValidNumber(m.experience) && IsValidNumber(m.education) && IsValidNumber(m.global)
  }

  const ChartLabels: seq<string> := ["Compétences", "Expérience", "Formation", "Score global"]

  /** What the CV chart shows: the error panel, or four rounded bars labelled by
      `ChartLabels`. `Crashed` is the render throwing. */
  datatype ChartView = ErrorPanel | Bars(values: seq<int>) | Crashed

  function ChartOf(m: Mapped): (v: ChartView)
    ensures v.ErrorPanel? <==> !AllValid(m)
    ensures v.Bars? ==> v.values == [Round(m.skills.n), Round(m.experience.n), Round(m.education.n), Round(m.global.n)]
  {
    if AllValid(m) then Bars([Round(m.skills.n), Round(m.experience.n), Round(m.education.n), Round(m.global.n)])
    else ErrorPanel
  }

  /** The component as written: the debug logging runs `Object.entries(scores)` before the
      chart is built, and `Object.entries` throws on `null` and `undefined`. */
  function RenderAsWritten(raw: Value): (v: ChartView)
    ensures Nullish(raw) ==> v.Crashed?
    ensures !Nullish(raw) ==> v == ChartOf(MapScores(raw))
  {
    if Nullish(raw) then Crashed else ChartOf(MapScores(raw))
  }

  /** `mapScores` maps a missing prop to four zeros, but the component as written never
      shows them: it throws before. */
  lemma MissingScoresCrash()
    ensures MapScores(Null) == Mapped(Num(0.0), Num(0.0), Num(0.0), Num(0.0))
    ensures RenderAsWritten(Null) == Crashed
    ensures RenderAsWritten(Undefined) == Crashed
  {
  }

  /** The component without the throwing debug call, as `mapScores`' null handling
      intends: every input renders a chart or the error panel. */
  function Render(raw: Value): (v: ChartView)
    ensures !v.Crashed?
    ensures Nullish(raw) ==> v == Bars([0, 0, 0, 0])
    ensures v.Bars? ==> |v.values| == |ChartLabels|
  {
    ChartOf(MapScores(raw))
  }

  /** Outside the missing-prop case the corrected component renders as written. */
  lemma RenderAgreesOutsideMissing(raw: Value)
    requires !Nullish(raw)
    ensures Render(raw) == RenderAsWritten(raw)
  {
  }
}

=== FILE: brief_actions.dfy ===
/** The edit and delete actions on one job brief: the edit form filled from the brief, the
    save and delete outcomes. */
module BriefActions {

  import opened Wrappers
  import opened Records
  import Text

  datatype EditForm = EditForm(title: string, skills: string, experience: string, description: string)

  /** The form filled from the brief: skills joined with ", ", or "" when the backend sent
      something other than an array. */
  function InitialForm(b: JobBrief): (f: EditForm)
    ensures f.title == b.title && f.experience == b.experience && f.description == b.description
    ensures b.skills.None? ==> f.skills == ""
    ensures b.skills.Some? ==> f.skills == Text.Join(b.skills.value, ", ")
  {
    EditForm(b.title, if b.skills.Some? then Text.Join(b.skills.value, ", ") else "", b.experience, b.description)
  }

  /** Saving an untouched form sends back the brief's own skills, for any skills list
      whose items are non-empty, trimmed and comma-free. */
  lemma SkillsRoundTrip(b: JobBrief)
    requires b.skills.Some?
    requires forall i :: 0 <= i < |b.skills.value| ==>
      b.skills.value[i] != "" && Text.Trimmed(b.skills.value[i]) && ',' !in b.skills.value[i]
    ensures Text.ParseList(InitialForm(b).skills) == b.skills.value
  {
    Text.ParseJoinRoundTrip(b.skills.value);
  }

  datatype EditState = EditState(editing: bool, form: EditForm, toast: Option<Toast>)

  /** `handleCancelEdit`: leaves edit mode and restores all four fields from the brief. */
  function CancelEdit(st: EditState, b: JobBrief): (r: EditState)
    ensures !r.editing && r.form == InitialForm(b) && r.toast == st.toast
  {
    EditState(false, InitialForm(b), st.toast)
  }

  /** Cancelling throws away every edit. */
  lemma CancelDiscardsEdits(st: EditState, b: JobBrief, edited: EditForm)
    ensures CancelEdit(st.(form := edited), b) == CancelEdit(st, b)
  {
  }

  /** The body sent by `handleSaveEdit`. */
  function SaveSkills(f: EditForm): (r: seq<string>)
    ensures forall i :: 0 <= i < |r| ==> r[i] != "" && Text.Trimmed(r[i]) && ',' !in r[i]
  {
    Text.ParseList(f.skills)
  }

  /** What a save leaves: the edit state, and the brief passed to `onBriefUpdated`. */
  datatype SaveOutcome = SaveOutcome(state: EditState, updated: Option<JobBrief>)

  /** `handleSaveEdit`: accepted only when the reply says `status: 'success'` and carries
      the updated brief; otherwise editing continues with an error message. */
  function SaveEdit(st: EditState, reply: Reply<JobBrief>): (r: SaveOutcome)
    ensures r.updated.Some? <==> reply.Reply? && reply.status == Some("success") && reply.data.Some?
    ensures r.updated.Some? ==> (
      && r.updated == reply.data && !r.state.editing
      && r.state.toast == Some(Toast(MessageOr(reply.message, "Fiche modifiée avec succès ! "), SuccessToast)))
    ensures r.updated.None? ==> (
      && r.state.editing == st.editing && r.state.form == st.form
      && r.state.toast.Some? && r.state.toast.value.kind == ErrorToast)
    ensures reply.Reply? && r.updated.None? ==>
      r.state.toast.value.message == MessageOr(reply.message, MessageOr(reply.error, "Erreur lors de la modification"))
    ensures reply.Threw? ==>
      r.state.toast.value.message == (if reply.reason != "" then reply.reason else "Erreur réseau lors de la modification")
  {
    match reply
    case Threw(reason) =>
      SaveOutcome(st.(toast := Some(Toast(if reason != "" then reason else "Erreur réseau lors de la modification", ErrorToast))), None)
    case Reply(data, error, message, status) =>
      if status == Some("success") && data.Some? then
        SaveOutcome(EditState(false, st.form, Some(Toast(MessageOr(message, "Fiche modifiée avec succès ! "), SuccessToast))), data)
      else
        SaveOutcome(st.(toast := Some(Toast(MessageOr(message, MessageOr(error, "Erreur lors de la modification")), ErrorToast))), None)
  }

  /** What a delete leaves: whether `onBriefDeleted` was called, and the toast. */
  datatype DeleteOutcome = DeleteOutcome(deleted: bool, toast: Option<Toast>)

  /** `handleDelete`: nothing without confirmation; a reply carrying an error is reported
      and does not delete. */
  function Delete(confirmed: bool, reply: Reply<()>): (r: DeleteOutcome)
    ensures !confirmed ==> r == DeleteOutcome(false, None)
    ensures r.deleted <==> confirmed && reply.Reply? && MessageOr(reply.error, "") == ""
    ensures r.deleted ==> r.toast == Some(Toast("Fiche supprimée avec succès !", SuccessToast))
    ensures confirmed && !r.deleted ==> r.toast.Some? && r.toast.value.kind == ErrorToast
  {
    if !confirmed then DeleteOutcome(false, None)
    else match reply
      case Threw(_) => DeleteOutcome(false, Some(Toast("Erreur lors de la suppression", ErrorToast)))
      case Reply(_, error, _, _) =>
        if HasText(error) then DeleteOutcome(false, Some(Toast(error.value, ErrorToast)))
        else DeleteOutcome(true, Some(Toast("Fiche supprimée avec succès !", SuccessToast)))
  }
}

=== FILE: brief_page.dfy ===
/** The job-brief entry page: the required-field check, the skills parsing, and what a
    submission does to the form, the brief list and the active brief. */
module BriefPage {

  import opened Wrappers
  import opened Records
  import Text

  datatype BriefForm = BriefForm(title: string, skills: string, experience: string, description: string)

  const EmptyForm: BriefForm := BriefForm("", "", "", "")

  /** The body sent to create a brief. */
  datatype BriefRequest = BriefRequest(title: string, skills: seq<string>, experience: string, description: string)

  /** The validation of `handleSubmit` and the request it builds. */
  function Validate(f: BriefForm): (r: Result<BriefRequest, string>)
    ensures r.Err? <==> f.title == "" || f.skills == "" || f.experience == "" || f.description == ""
    ensures r.Err? ==> r.error == "Tous les champs sont requis"
    ensures r.Ok? ==>
      && r.value.title == f.title && r.value.experience == f.experience
      && r.value.description == f.description
      && r.value.skills == Text.ParseList(f.skills)
  {
    if f.title == "" || f.skills == "" || f.experience == "" || f.description == "" then
      Err("Tous les champs sont requis")
    else
      Ok(BriefRequest(f.title, Text.ParseList(f.skills), f.experience, f.description))
  }

  datatype PageState = PageState(form: BriefForm, briefs: seq<JobBrief>, active: Option<JobBrief>, toast: Option<Toast>)

  /** `handleSubmit`, given how the creation request settled. A successful creation clears
      the form, appends the new brief and makes it active if no brief was; every other path
      keeps the form, the list and the active brief. */
  function Submit(st: PageState, reply: Reply<JobBrief>): (r: PageState)
    ensures Validate(st.form).Err? ==>
      r == st.(toast := Some(Toast("Tous les champs sont requis", ErrorToast)))
    ensures Validate(st.form).Ok? && reply.Reply? && reply.data.Some? ==>
      && r.form == EmptyForm
      && r.briefs == st.briefs + [reply.data.value]
      && r.active == (if st.active.None? then reply.data else st.active)
      && r.toast == Some(Toast("Brief soumis avec succès !", SuccessToast))
    ensures !(Validate(st.form).Ok? && reply.Reply? && reply.data.Some?) ==>
      r.form == st.form && r.briefs == st.briefs && r.active == st.active
    ensures Validate(st.form).Ok? && reply.Reply? && reply.data.None? ==>
      r.toast == Some(Toast(MessageOr(reply.error, "Erreur lors de la soumission"), ErrorToast))
    ensures Validate(st.form).Ok? && reply.Threw? ==>
      r.toast == Some(Toast("Erreur lors de la soumission", ErrorToast))
  {
    if Validate(st.form).Err? then st.(toast := Some(Toast("Tous les champs sont requis", ErrorToast)))
    else match reply
      case Threw(_) => st.(toast := Some(Toast("Erreur lors de la soumission", ErrorToast)))
      case Reply(data, error, _, _) =>
        match data
        case Some(b) =>
          PageState(EmptyForm, st.briefs + [b], if st.active.None? then Some(b) else st.active,
                    Some(Toast("Brief soumis avec succès !", SuccessToast)))
        case None => st.(toast := Some(Toast(MessageOr(error, "Erreur lors de la soumission"), ErrorToast)))
  }

  /** Creating briefs one after another keeps the first one active. */
  lemma FirstBriefStaysActive(st: PageState, reply1: Reply<JobBrief>, f: BriefForm, reply2: Reply<JobBrief>)
    requires st.active.None? && Validate(st.form).Ok? && reply1.Reply? && reply1.data.Some?
    ensures var st1 := Submit(st, reply1);
      st1.active == reply1.data && Submit(st1.(form := f), reply2).active == reply1.data
  {
  }
}

=== FILE: candidate_card.dfy ===
/** The candidate card of the candidate list: status badge colour, score colour, and the
    one-line risk summary. */
module CandidateCard {

  import opened Wrappers
  import Bands
  import Text
  import Seqs

  /** `getStatusColor`: a badge per known status, grey for anything else. */
  function StatusColor(status: string): (c: string)
    ensures c == "bg-gray-100 text-gray-800 border-gray-200" <==>
      status !in {"Recommandé", "En évaluation", "À revoir"}
    ensures status == "Recommandé" ==> c == "bg-green-100 text-green-800 border-green-200"
    ensures status == "En évaluation" ==> c == "bg-yellow-100 text-yellow-800 border-yellow-200"
    ensures status == "À revoir" ==> c == "bg-red-100 text-red-800 border-red-200"
  {
    if status == "Recommandé" then "bg-green-100 text-green-800 border-green-200"
    else if status == "En évaluation" then "bg-yellow-100 text-yellow-800 border-yellow-200"
    else if status == "À revoir" then "bg-red-100 text-red-800 border-red-200"
    else "bg-gray-100 text-gray-800 border-gray-200"
  }

  /** The three known statuses have three different badges, and every other status gets
      the grey one. */
  lemma StatusColorsDistinct(a: string, b: string)
    ensures StatusColor(a) == StatusColor(b) && a != b ==>
      a !in {"Recommandé", "En évaluation", "À revoir"} && b !in {"Recommandé", "En évaluation", "À revoir"}
  {
  }

  /** `getScoreColor` on the predictive score; a missing score compares false against both
      thresholds. */
  function ScoreColor(score: Option<real>): (c: string)
    ensures score.None? ==> c == "text-red-600"
    ensures score.Some? ==> c == (match Bands.BandOf(score.value)
                                  case High => "text-green-600"
                                  case Medium => "text-yellow-600"
                                  case Low => "text-red-600")
  {
    if score.Some? && score.value >= 80.0 then "text-green-600"
    else if score.Some? && score.value >= 60.0 then "text-yellow-600"
    else "text-red-600"
  }

  /** The risks line: the first two risks joined by ", ", followed by "..." when there are
      more; no line when the list is missing or empty. */
  function RiskSummary(risks: Option<seq<string>>): (r: Option<string>)
    ensures r.None? <==> risks.None? || |risks.value| == 0
  {
    if risks.None? || |risks.value| == 0 then None
    else
      var rs := risks.value;
      Some(Text.Join(rs[..Seqs.Min(2, |rs|)], ", ") + (if |rs| > 2 then "..." else ""))
  }

  /** With at most two risks the line lists them all: splitting it at the commas gives the
      list back, for risks that are non-empty, trimmed and comma-free. */
  lemma ShortRiskListShownWhole(rs: seq<string>)
    requires 0 < |rs| <= 2
    requires forall i :: 0 <= i < |rs| ==> rs[i] != "" && Text.Trimmed(rs[i]) && ',' !in rs[i]
    ensures RiskSummary(Some(rs)).Some?
    ensures Text.ParseList(RiskSummary(Some(rs)).value) == rs
  {
    assert rs[..Seqs.Min(2, |rs|)] == rs;
    assert RiskSummary(Some(rs)).value == Text.Join(rs, ", ") + "";
    assert Text.Join(rs, ", ") + "" == Text.Join(rs, ", ");
    Text.ParseJoinRoundTrip(rs);
  }

  /** With more than two, the line shows the first two and marks the cut with "...". */
  lemma LongRiskListTruncated(rs: seq<string>)
    requires |rs| > 2
    ensures RiskSummary(Some(rs)) == Some(rs[0] + ", " + rs[1] + "...")
  {
    var two := rs[..2];
    assert two[1..] == [rs[1]];
    assert Text.Join([rs[1]], ", ") == rs[1];
    assert Text.Join(two, ", ") == rs[0] + ", " + rs[1];
  }
}

=== FILE: candidates.dfy ===
/** The candidate-list filters: by job brief (`filterCandidatesByBrief`, the process views'
    loaders, the interview page's dropdown), by dashboard status tab, and lookup by id. */
module Candidates {

  import opened Wrappers
  import opened Records
  import Seqs

  /** The predicate `c => c.brief_id === id`. */
  function BelongsTo(id: int): Candidate -> bool {
    (c: Candidate) => c.briefId == Some(id)
  }

  /** `filterCandidatesByBrief`: the candidates of the given brief, or everyone without one. */
  function FilterByBrief(cs: seq<Candidate>, brief: Option<JobBrief>): (r: seq<Candidate>)
    ensures brief.None? ==> r == cs
    ensures brief.Some? ==> forall i :: 0 <= i < |r| ==> r[i].briefId == Some(brief.value.id) && r[i] in cs
    ensures brief.Some? ==>
      forall i :: 0 <= i < |cs| && cs[i].briefId == Some(brief.value.id) ==> cs[i] in r
  {
    match brief
    case None => cs
    case Some(b) => Seqs.Filter(cs, BelongsTo(b.id))
  }

  /** Filtering by the same brief twice is filtering once. */
  lemma FilterByBriefIdempotent(cs: seq<Candidate>, brief: Option<JobBrief>)
    ensures FilterByBrief(FilterByBrief(cs, brief), brief) == FilterByBrief(cs, brief)
  {
    if brief.Some? {
      Seqs.FilterIdempotent(cs, BelongsTo(brief.value.id));
    }
  }

  /** The brief filter keeps relative order: filtering a concatenation concatenates the
      filtered parts. */
  lemma FilterByBriefOrder(a: seq<Candidate>, b: seq<Candidate>, brief: Option<JobBrief>)
    ensures FilterByBrief(a + b, brief) == FilterByBrief(a, brief) + FilterByBrief(b, brief)
  {
    if brief.Some? {
      Seqs.FilterAppend(a, b, BelongsTo(brief.value.id));
    }
  }

  /** The candidate status a dashboard tab selects; `None` for "all" and unknown tabs. */
  function TabStatus(filter: string): Option<string> {
    if filter == "recommended" then Some("Recommandé")
    else if filter == "review" then Some("À revoir")
    else if filter == "evaluation" then Some("En évaluation")
    else None
  }

  /** The dashboard's tab predicate, in the order the tabs are checked. */
  predicate TabKeeps(filter: string, c: Candidate) {
    if filter == "all" then true
    else if filter == "recommended" then c.status == "Recommandé"
    else if filter == "review" then c.status == "À revoir"
    else if filter == "evaluation" then c.status == "En évaluation"
    else true
  }

  function TabPredicate(filter: string): Candidate -> bool {
    (c: Candidate) => TabKeeps(filter, c)
  }

  /** The candidates listed under a dashboard tab. "all" and unrecognised tabs list everyone
      in order; the three status tabs list exactly the candidates with that status. */
  function FilterByTab(cs: seq<Candidate>, filter: string): (r: seq<Candidate>)
    ensures TabStatus(filter).None? ==> r == cs
    ensures TabStatus(filter).Some? ==>
      forall i :: 0 <= i < |r| ==> r[i] in cs && r[i].status == TabStatus(filter).value
    ensures TabStatus(filter).Some? ==>
      forall i :: 0 <= i < |cs| && cs[i].status == TabStatus(filter).value ==> cs[i] in r
  {
    if TabStatus(filter).None? then
      Seqs.FilterKeepsAll(cs, TabPredicate(filter));
      Seqs.Filter(cs, TabPredicate(filter))
    else
      Seqs.Filter(cs, TabPredicate(filter))
  }

  /** The status tabs keep the input order too. */
  lemma FilterByTabOrder(a: seq<Candidate>, b: seq<Candidate>, filter: string)
    ensures FilterByTab(a + b, filter) == FilterByTab(a, filter) + FilterByTab(b, filter)
  {
    Seqs.FilterAppend(a, b, TabPredicate(filter));
  }

  /** `response.data?.filter(c => c.brief_id === briefId) || []`, the process views' loader:
      the candidates of the brief in backend order, or none when the reply has no data. */
  function LoadForBrief(data: Option<seq<ProcessCandidate>>, briefId: int): (r: seq<ProcessCandidate>)
    ensures data.None? ==> r == []
    ensures data.Some? ==> forall i :: 0 <= i < |r| ==> r[i].briefId == briefId && r[i] in data.value
    ensures data.Some? ==>
      forall i :: 0 <= i < |data.value| && data.value[i].briefId == briefId ==> data.value[i] in r
  {
    match data
    case None => []
    case Some(cs) => Seqs.Filter(cs, (c: ProcessCandidate) => c.briefId == briefId)
  }

  /** The interview page's candidate dropdown: everyone while no brief is selected, otherwise
      the candidates of the selected brief. */
  function DropdownCandidates(cs: seq<Candidate>, selectedBrief: Option<int>): (r: seq<Candidate>)
    ensures !IsSelected(selectedBrief) ==> r == cs
    ensures IsSelected(selectedBrief) ==>
      forall i :: 0 <= i < |r| ==> r[i] in cs && r[i].briefId == selectedBrief
    ensures IsSelected(selectedBrief) ==>
      forall i :: 0 <= i < |cs| && cs[i].briefId == selectedBrief ==> cs[i] in r
  {
    var keep := (c: Candidate) => !IsSelected(selectedBrief) || c.briefId == selectedBrief;
    if !IsSelected(selectedBrief) then
      Seqs.FilterKeepsAll(cs, keep);
      Seqs.Filter(cs, keep)
    else
      Seqs.Filter(cs, keep)
  }

  /** `cs.find(c => c.id === id)`: the first candidate with that id. */
  function FindById(cs: seq<Candidate>, id: int): (r: Option<Candidate>)
    ensures r.None? <==> forall i :: 0 <= i < |cs| ==> cs[i].id != id
    ensures r.Some? ==> r.value in cs && r.value.id == id
    ensures r.Some? ==> exists k :: 0 <= k < |cs| && cs[k] == r.value && forall j :: 0 <= j < k ==> cs[j].id != id
    decreases |cs|
  {
    if |cs| == 0 then None
    else if cs[0].id == id then Some(cs[0])
    else
      var r := FindById(cs[1..], id);
      assert r.Some? ==> exists k :: 0 <= k < |cs[1..]| && cs[1..][k] == r.value && forall j :: 0 <= j < k ==> cs[1..][j].id != id;
      r
  }
}

=== FILE: context_page.dfy ===
/** The company-context page: the required-field check, the values parsing, the outcome of
    the question generation, and the per-category counters under the generated list. */
module ContextPage {

  import opened Wrappers
  import opened Records
  import Text
  import Seqs

  datatype ContextForm = ContextForm(values: string, culture: string)

  datatype ContextRequest = ContextRequest(values: seq<string>, culture: string)

  /** The validation of `handleSubmit` and the request it builds. */
  function Validate(f: ContextForm): (r: Result<ContextRequest, string>)
    ensures r.Err? <==> f.values == "" || f.culture == ""
    ensures r.Err? ==> r.error == "Tous les champs sont requis"
    ensures r.Ok? ==> r.value == ContextRequest(Text.ParseList(f.values), f.culture)
  {
    if f.values == "" || f.culture == "" then Err("Tous les champs sont requis")
    else Ok(ContextRequest(Text.ParseList(f.values), f.culture))
  }

  /** The check tests the raw text, not the parsed list: a values text of commas and blanks
      passes and sends an empty list. */
  lemma BlankValuesPass(f: ContextForm)
    requires f.values != "" && f.culture != ""
    requires forall i :: 0 <= i < |f.values| ==> f.values[i] == ',' || Text.IsSpace(f.values[i])
    ensures Validate(f) == Ok(ContextRequest([], f.culture))
  {
    Text.BlankListParsesEmpty(f.values);
  }

  /** What a submission leaves: the generated questions (`null` before the first success)
      and the toast. */
  datatype Outcome = Outcome(questions: Option<seq<Question>>, toast: Toast)

  const GenerationError := "Erreur lors de la génération"

  /** `handleSubmit`: only a reply with data replaces the shown questions; the refused form,
      a reply without data and a throw leave `current` on screen. */
  function Submit(f: ContextForm, current: Option<seq<Question>>, reply: Reply<seq<Question>>): (r: Outcome)
    ensures Validate(f).Err? ==> r == Outcome(current, Toast("Tous les champs sont requis", ErrorToast))
    ensures r.toast.kind == SuccessToast <==> Validate(f).Ok? && reply.Reply? && reply.data.Some?
    ensures r.toast.kind == SuccessToast ==> (
      && r.questions == reply.data
      && r.toast.message == Text.DecimalString(|reply.data.value|) + " questions générées avec succès !")
    ensures r.toast.kind == ErrorToast ==> r.questions == current
    ensures Validate(f).Ok? && reply.Reply? && reply.data.None? ==>
      r.toast.message == MessageOr(reply.error, GenerationError)
    ensures Validate(f).Ok? && reply.Threw? ==> r.toast.message == GenerationError
  {
    if Validate(f).Err? then Outcome(current, Toast("Tous les champs sont requis", ErrorToast))
    else match reply
      case Threw(_) => Outcome(current, Toast(GenerationError, ErrorToast))
      case Reply(data, error, _, _) =>
        match data
        case Some(qs) => Outcome(data, Toast(Text.DecimalString(|qs|) + " questions générées avec succès !", SuccessToast))
        case None => Outcome(current, Toast(MessageOr(error, GenerationError), ErrorToast))
  }

  /** After a successful submission, any number of failed ones keep its questions on screen;
      the page shows the list of the last successful submission. */
  lemma {:induction false} FailuresKeepLastSuccess(f: ContextForm, current: Option<seq<Question>>, ok: Reply<seq<Question>>,
                                                   later: seq<(ContextForm, Reply<seq<Question>>)>)
    requires Validate(f).Ok? && ok.Reply? && ok.data.Some?
    requires forall k :: 0 <= k < |later| ==> !(Validate(later[k].0).Ok? && later[k].1.Reply? && later[k].1.data.Some?)
    ensures SubmitAll(Submit(f, current, ok).questions, later) == ok.data
    decreases |later|
  {
    if |later| > 0 {
      var n := |later| - 1;
      FailuresKeepLastSuccess(f, current, ok, later[..n]);
    }
  }

  /** The questions shown after a run of submissions, each with its form and reply. */
  function SubmitAll(start: Option<seq<Question>>, subs: seq<(ContextForm, Reply<seq<Question>>)>): (r: Option<seq<Question>>)
    decreases |subs|
  {
    if |subs| == 0 then start
    else Submit(subs[|subs| - 1].0, SubmitAll(start, subs[..|subs| - 1]), subs[|subs| - 1].1).questions
  }

  function InCategory(category: string): Question -> bool {
    (q: Question) => q.category == category
  }

  datatype CategoryCounts = CategoryCounts(jobDescription: nat, companyCulture: nat, professionalLife: nat)

  /** The positions of the questions of `category`. */
  function CategoryPositions(qs: seq<Question>, category: string): set<int> {
    set i | 0 <= i < |qs| && qs[i].category == category
  }

  /** Filtering by category and counting counts the positions of that category. */
  lemma CategoryCountIsPositions(qs: seq<Question>, category: string)
    ensures Seqs.Count(qs, InCategory(category)) == |CategoryPositions(qs, category)|
  {
    var p := InCategory(category);
    Seqs.CountIndexSet(qs, p);
    assert Seqs.Where(qs, p) == CategoryPositions(qs, category) by {
      forall i ensures i in Seqs.Where(qs, p) <==> i in CategoryPositions(qs, category) {
        if 0 <= i < |qs| {
          assert p(qs[i]) == (qs[i].category == category);
        }
      }
    }
  }

  /** The three counters under the generated questions: each is the number of questions of
      its category. */
  function Counts(qs: seq<Question>): (r: CategoryCounts)
    ensures r.jobDescription == |CategoryPositions(qs, "Job Description")|
    ensures r.companyCulture == |CategoryPositions(qs, "Company Culture")|
    ensures r.professionalLife == |CategoryPositions(qs, "CV/Professional Life")|
  {
    CategoryCountIsPositions(qs, "Job Description");
    CategoryCountIsPositions(qs, "Company Culture");
    CategoryCountIsPositions(qs, "CV/Professional Life");
    CategoryCounts(
      Seqs.Count(qs, InCategory("Job Description")),
      Seqs.Count(qs, InCategory("Company Culture")),
      Seqs.Count(qs, InCategory("CV/Professional Life")))
  }

  /** Each question has one category, so the counters never add up to more than the list. */
  lemma CountsWithinTotal(qs: seq<Question>)
    ensures var c := Counts(qs); c.jobDescription + c.companyCulture + c.professionalLife <= |qs|
  {
    var p1, p2, p3 := InCategory("Job Description"), InCategory("Company Culture"), InCategory("CV/Professional Life");
    Seqs.CountUnion(qs, p1, p2);
    Seqs.CountDisjoint(qs, Seqs.Either(p1, p2), p3);
  }

  /** When every question has one of the three categories, the counters add up to exactly
      the number of questions. */
  lemma CountsCoverTotal(qs: seq<Question>)
    requires forall i :: 0 <= i < |qs| ==>
      qs[i].category in ["Job Description", "Company Culture", "CV/Professional Life"]
    ensures var c := Counts(qs); c.jobDescription + c.companyCulture + c.professionalLife == |qs|
  {
    var p1, p2, p3 := InCategory("Job Description"), InCategory("Company Culture"), InCategory("CV/Professional Life");
    Seqs.CountUnion(qs, p1, p2);
    Seqs.CountUnion(qs, Seqs.Either(p1, p2), p3);
    var all := Seqs.Either(Seqs.Either(p1, p2), p3);
    forall i | 0 <= i < |qs| ensures all(qs[i]) {
      assert qs[i].category in ["Job Description", "Company Culture", "CV/Professional Life"];
    }
    Seqs.FilterKeepsAll(qs, all);
  }
}

=== FILE: context_selector.dfy ===
/** The company-context selector: creating a context from its four fields, selecting the
    created one, and deleting a context. */
module ContextSelector {

  import opened Wrappers
  import opened Records
  import Text

  datatype Fields = Fields(company: string, domain: string, values: string, culture: string)

  const EmptyFields: Fields := Fields("", "", "", "")

  /** A stored context; the id is optional on the front end. */
  datatype CompanyContext = CompanyContext(id: Option<int>, company: string, domain: string, values: seq<string>, culture: string)

  datatype CreateRequest = CreateRequest(company: string, domain: string, values: seq<string>, culture: string)

  /** The selector's state, and the active context it shares with the rest of the app. */
  datatype State = State(form: Fields, showForm: bool, selected: Option<CompanyContext>, error: Option<string>, toast: Option<Toast>)

  /** How the creation call settled: a reply body carrying the new `context_id` when there
      is data, or a thrown error with its message. */
  datatype CreateReply = Created(data: Option<Option<int>>) | CreateThrew(reason: string)

  const RequiredMessage := "Tous les champs sont requis"

  /** The field check and the request of `handleCreate`. */
  function Validate(f: Fields): (r: Result<CreateRequest, string>)
    ensures r.Err? <==> f.company == "" || f.domain == "" || f.values == "" || f.culture == ""
    ensures r.Err? ==> r.error == RequiredMessage
    ensures r.Ok? ==> r.value == CreateRequest(f.company, f.domain, Text.ParseList(f.values), f.culture)
  {
    if f.company == "" || f.domain == "" || f.values == "" || f.culture == "" then Err(RequiredMessage)
    else Ok(CreateRequest(f.company, f.domain, Text.ParseList(f.values), f.culture))
  }

  /** `contexts.find(ctx => ctx.id === k)`: the first context carrying id `k`. */
  function FindById(cs: seq<CompanyContext>, k: int): (r: Option<CompanyContext>)
    ensures r.None? <==> forall i :: 0 <= i < |cs| ==> cs[i].id != Some(k)
    ensures r.Some? ==> r.value in cs && r.value.id == Some(k)
    ensures r.Some? ==> exists n :: 0 <= n < |cs| && cs[n] == r.value && forall j :: 0 <= j < n ==> cs[j].id != Some(k)
    decreases |cs|
  {
    if |cs| == 0 then None
    else if cs[0].id == Some(k) then Some(cs[0])
    else
      var r := FindById(cs[1..], k);
      assert r.Some? ==> exists n :: 0 <= n < |cs[1..]| && cs[1..][n] == r.value && forall j :: 0 <= j < n ==> cs[1..][j].id != Some(k);
      r
  }

  /** The context to make active after a creation, looked up in `lookIn`: only when the reply
      carries data, the list can be refreshed, the new id is non-zero and the list holds it. */
  function NewSelection(reply: CreateReply, hasRefresh: bool, lookIn: seq<CompanyContext>): (r: Option<CompanyContext>)
    ensures r.Some? ==> r.value in lookIn
  {
    if reply.Created? && reply.data.Some? && hasRefresh && reply.data.value.Some? && reply.data.value.value != 0
    then FindById(lookIn, reply.data.value.value)
    else None
  }

  /** The common part of `handleCreate`; the two versions below differ only in the list the
      new context is looked up in. */
  function CreateWith(st: State, reply: CreateReply, hasRefresh: bool, lookIn: seq<CompanyContext>): (r: State)
    ensures r.selected != st.selected ==> r.selected.Some? && r.selected.value in lookIn
  {
    if Validate(st.form).Err? then st.(error := Some(RequiredMessage))
    else match reply
      case CreateThrew(reason) =>
        var m := if reason != "" then reason else "Erreur lors de la création";
        st.(error := Some(m), toast := Some(Toast(m, ErrorToast)))
      case Created(_) =>
        var sel := NewSelection(reply, hasRefresh, lookIn);
        State(EmptyFields, false, if sel.Some? then sel else st.selected, None,
              Some(Toast("Contexte créé avec succès", SuccessToast)))
  }

  /** `handleCreate` as written: after awaiting the refresh it searches `contexts`, the
      list the handler captured when it was created, which is the list before the refresh. */
  function CreateAsWritten(st: State, reply: CreateReply, hasRefresh: bool, stale: seq<CompanyContext>, refreshed: seq<CompanyContext>): (r: State)
    ensures r.selected != st.selected ==> r.selected.Some? && r.selected.value in stale
  {
    CreateWith(st, reply, hasRefresh, stale)
  }

  /** `handleCreate` as intended: the created context is searched in the refreshed list. */
  function Create(st: State, reply: CreateReply, hasRefresh: bool, stale: seq<CompanyContext>, refreshed: seq<CompanyContext>): (r: State)
    ensures Validate(st.form).Err? ==> r == st.(error := Some(RequiredMessage))
    ensures Validate(st.form).Ok? && reply.Created? ==> (
      && r.form == EmptyFields && !r.showForm && r.error.None?
      && r.toast == Some(Toast("Contexte créé avec succès", SuccessToast)))
    ensures Validate(st.form).Ok? && reply.CreateThrew? ==> (
      && r.form == st.form && r.selected == st.selected
      && r.toast == Some(Toast(if reply.reason != "" then reply.reason else "Erreur lors de la création", ErrorToast)))
    ensures forall k :: (
      Validate(st.form).Ok? && reply == Created(Some(Some(k))) && hasRefresh && k != 0 &&
      (exists i :: 0 <= i < |refreshed| && refreshed[i].id == Some(k))) ==>
        r.selected.Some? && r.selected.value.id == Some(k)
    ensures r.selected != st.selected ==> r.selected.Some? && r.selected.value in refreshed
  {
    CreateWith(st, reply, hasRefresh, refreshed)
  }

  /** The discrepancy: a freshly created context, absent from the list before the refresh and
      present after it, is selected by the intended handler and never by the written one. */
  lemma StaleLookupMissesNewContext(st: State, k: int, stale: seq<CompanyContext>, refreshed: seq<CompanyContext>)
    requires Validate(st.form).Ok? && k != 0
    requires forall i :: 0 <= i < |stale| ==> stale[i].id != Some(k)
    requires exists i :: 0 <= i < |refreshed| && refreshed[i].id == Some(k)
    requires st.selected.None?
    ensures CreateAsWritten(st, Created(Some(Some(k))), true, stale, refreshed).selected.None?
    ensures Create(st, Created(Some(Some(k))), true, stale, refreshed).selected.Some?
  {
  }

  /** An instance of it: the first context ever created, with id 7. */
  lemma FirstContextNotSelected()
    ensures var st := State(Fields("Acme", "Retail", "Respect", "Open"), true, None, None, None);
      var c := CompanyContext(Some(7), "Acme", "Retail", ["Respect"], "Open");
      && CreateAsWritten(st, Created(Some(Some(7))), true, [], [c]).selected == None
      && Create(st, Created(Some(Some(7))), true, [], [c]).selected == Some(c)
  {
    var st := State(Fields("Acme", "Retail", "Respect", "Open"), true, None, None, None);
    var c := CompanyContext(Some(7), "Acme", "Retail", ["Respect"], "Open");
    assert Validate(st.form).Ok?;
    assert NewSelection(Created(Some(Some(7))), true, []) == None;
    assert NewSelection(Created(Some(Some(7))), true, [c]) == Some(c);
    assert CreateAsWritten(st, Created(Some(Some(7))), true, [], [c]).selected == None;
  }

  /** How the deletion call settled. */
  datatype DeleteReply = Deleted | DeleteThrew(reason: string)

  /** `handleDelete(id)`: nothing for a missing or zero id or without confirmation; a
      successful deletion drops the selection when it was the deleted context. */
  function Delete(st: State, id: Option<int>, confirmed: bool, reply: DeleteReply): (r: State)
    ensures (id.None? || id == Some(0) || !confirmed) ==> r == st
    ensures r.selected != st.selected <==> (
      && id.Some? && id.value != 0 && confirmed && reply.Deleted?
      && st.selected.Some? && st.selected.value.id == id)
    ensures r.selected != st.selected ==> r.selected.None?
    ensures id.Some? && id.value != 0 && confirmed && reply.Deleted? ==>
      r.toast == Some(Toast("Contexte supprimé", SuccessToast))
    ensures id.Some? && id.value != 0 && confirmed && reply.DeleteThrew? ==>
      var m := if reply.reason != "" then reply.reason else "Erreur lors de la suppression";
      r.error == Some(m) && r.toast == Some(Toast(m, ErrorToast))
  {
    if id.None? || id.value == 0 || !confirmed then st
    else match reply
      case DeleteThrew(reason) =>
        var m := if reason != "" then reason else "Erreur lors de la suppression";
        st.(error := Some(m), toast := Some(Toast(m, ErrorToast)))
      case Deleted =>
        var sel := if st.selected.Some? && st.selected.value.id == id then None else st.selected;
        st.(selected := sel, toast := Some(Toast("Contexte supprimé", SuccessToast)))
  }
}

=== FILE: cv_page.dfy ===
/** The CV upload page: the file checks run before anything is sent, the transformation of
    the analysis reply into the displayed result, and the score colour and label. */
module CvPage {

  import opened Wrappers
  import opened Records
  import Text
  import Bands

  const AllowedTypes: seq<string> := ["application/pdf", "text/plain"]

  /** 5 MiB, the largest accepted file. */
  const MaxSize: nat := 5 * 1024 * 1024

  /** The file checks of `handleFile`: the type first, then the size. */
  function CheckFile(fileType: string, size: nat): (r: Result<(), string>)
    ensures fileType !in AllowedTypes ==> r == Err("Seuls les fichiers PDF et TXT sont acceptés")
    ensures fileType in AllowedTypes && size > MaxSize ==> r == Err("Le fichier ne doit pas dépasser 5MB")
    ensures r.Ok? <==> fileType in AllowedTypes && size <= MaxSize
  {
    if fileType !in AllowedTypes then Err("Seuls les fichiers PDF et TXT sont acceptés")
    else if size > MaxSize then Err("Le fichier ne doit pas dépasser 5MB")
    else Ok(())
  }

  /** The page state `handleFile` touches before the upload settles. */
  datatype PageState = PageState(analyzing: bool, result: Option<AnalysisResult>, toast: Option<Toast>)

  /** The start of `handleFile`: a rejected file only raises an error toast; an accepted one
      turns the analysing flag on and clears the previous result. */
  function StartUpload(st: PageState, fileType: string, size: nat): (r: PageState)
    ensures CheckFile(fileType, size).Err? ==>
      r == st.(toast := Some(Toast(CheckFile(fileType, size).error, ErrorToast)))
    ensures CheckFile(fileType, size).Ok? ==> r == st.(analyzing := true, result := None)
  {
    match CheckFile(fileType, size)
    case Err(message) => st.(toast := Some(Toast(message, ErrorToast)))
    case Ok(_) => st.(analyzing := true, result := None)
  }

  /** A 5 MiB text file passes; one byte more does not. */
  lemma SizeLimitInclusive()
    ensures CheckFile("text/plain", MaxSize).Ok?
    ensures CheckFile("text/plain", MaxSize + 1).Err?
  {
  }

  /** The number of trailing characters that are neither `.` nor `/`. */
  function TrailingRun(s: string): (k: nat)
    ensures k <= |s|
    ensures forall j :: |s| - k <= j < |s| ==> s[j] != '.' && s[j] != '/'
    ensures k < |s| ==> s[|s| - k - 1] == '.' || s[|s| - k - 1] == '/'
    decreases |s|
  {
    if |s| == 0 || s[|s| - 1] == '.' || s[|s| - 1] == '/' then 0
    else 1 + TrailingRun(s[..|s| - 1])
  }

  /** The regular expression `/\.[^/.]+$/` matches at `p`: a dot followed by at least one
      character, none of them `.` or `/`, up to the end. */
  predicate ExtensionAt(name: string, p: int) {
    0 <= p < |name| - 1 && name[p] == '.' &&
    forall j :: p < j < |name| ==> name[j] != '.' && name[j] != '/'
  }

  /** `name.replace(/\.[^/.]+$/, "")`: drops the last extension, if any. */
  function StripExtension(name: string): (r: string)
    ensures |r| <= |name| && r == name[..|r|]
  {
    var k := TrailingRun(name);
    if 0 < k < |name| && name[|name| - k - 1] == '.' then name[..|name| - k - 1] else name
  }

  /** The regular expression matches at most at one place, and the replacement removes
      exactly the match; a name without a match is unchanged. */
  lemma StripExtensionMatchesRegex(name: string)
    ensures (exists p :: ExtensionAt(name, p)) <==> StripExtension(name) != name
    ensures forall p :: ExtensionAt(name, p) ==> StripExtension(name) == name[..p]
  {
    var k := TrailingRun(name);
    forall p | ExtensionAt(name, p) ensures p == |name| - k - 1 {
    }
    if 0 < k < |name| && name[|name| - k - 1] == '.' {
      assert ExtensionAt(name, |name| - k - 1);
    }
  }

  /** Stripping undoes appending an extension. */
  lemma StripAddedExtension(base: string, ext: string)
    requires |ext| > 0 && '.' !in ext && '/' !in ext
    ensures StripExtension(base + "." + ext) == base
  {
    var name := base + "." + ext;
    assert ExtensionAt(name, |base|) by {
      forall j | |base| < j < |name| ensures name[j] != '.' && name[j] != '/' {
        assert name[j] == ext[j - |base| - 1];
      }
    }
    StripExtensionMatchesRegex(name);
    assert name[..|base|] == base;
  }

  /** `list?.join(', ') || 'Non renseigné'`. */
  function JoinOrPlaceholder(list: Option<seq<string>>): (r: string)
    ensures list.Some? && Text.Join(list.value, ", ") != "" ==> r == Text.Join(list.value, ", ")
    ensures r == "Non renseigné" <==>
      list.None? || Text.Join(list.value, ", ") == "" || Text.Join(list.value, ", ") == "Non renseigné"
  {
    if list.Some? && Text.Join(list.value, ", ") != "" then Text.Join(list.value, ", ") else "Non renseigné"
  }

  /** The placeholder replaces a missing list, an empty one, and a list of one empty item. */
  lemma PlaceholderCases(list: seq<string>)
    ensures JoinOrPlaceholder(Some(list)) == "Non renseigné" <==>
      |list| == 0 || (|list| == 1 && (list[0] == "" || list[0] == "Non renseigné"))
  {
    Text.JoinEmpty(list, ", ");
    if |list| > 1 {
      var j := Text.Join(list, ", ");
      assert j == list[0] + ", " + Text.Join(list[1..], ", ");
      assert j[|list[0]|] == ',';
      assert ',' !in "Non renseigné";
    }
  }

  /** The displayed analysis (`AnalysisResult`), without the scores. */
  datatype AnalysisResult = AnalysisResult(name: string, experience: string, education: string, skills: seq<string>)

  /** The transformation of a successful upload reply. */
  function Transform(fileName: string, cv: CvAnalysis): (r: AnalysisResult)
    ensures r.name == StripExtension(fileName)
    ensures r.experience == JoinOrPlaceholder(cv.experience)
    ensures r.education == JoinOrPlaceholder(cv.education)
    ensures r.skills == cv.competences.GetOr([])
  {
    AnalysisResult(StripExtension(fileName), JoinOrPlaceholder(cv.experience),
                   JoinOrPlaceholder(cv.education), cv.competences.GetOr([]))
  }

  /** How the upload settles: the result and a success toast when the reply carries data,
      an error toast otherwise; the analysing flag is off again either way. */
  function FinishUpload(st: PageState, fileName: string, reply: Reply<CvAnalysis>): (r: PageState)
    ensures !r.analyzing
    ensures reply.Reply? && reply.data.Some? ==>
      r.result == Some(Transform(fileName, reply.data.value))
      && r.toast == Some(Toast("CV analysé avec succès !", SuccessToast))
    ensures !(reply.Reply? && reply.data.Some?) ==> r.result == st.result
    ensures reply.Reply? && reply.data.None? ==>
      r.toast == Some(Toast(MessageOr(reply.error, "Erreur lors de l'analyse du CV"), ErrorToast))
    ensures reply.Threw? ==> r.toast == Some(Toast("Erreur lors de l'analyse du CV", ErrorToast))
  {
    match reply
    case Threw(_) => PageState(false, st.result, Some(Toast("Erreur lors de l'analyse du CV", ErrorToast)))
    case Reply(data, error, _, _) =>
      if data.Some? then
        PageState(false, Some(Transform(fileName, data.value)), Some(Toast("CV analysé avec succès !", SuccessToast)))
      else
        PageState(false, st.result, Some(Toast(MessageOr(error, "Erreur lors de l'analyse du CV"), ErrorToast)))
  }

  /** An accepted file whose upload fails leaves no result on screen: the start cleared it. */
  lemma FailedUploadShowsNothing(st: PageState, fileType: string, size: nat, fileName: string,
                                 reply: Reply<CvAnalysis>)
    requires CheckFile(fileType, size).Ok?
    requires !(reply.Reply? && reply.data.Some?)
    ensures FinishUpload(StartUpload(st, fileType, size), fileName, reply).result.None?
  {
  }

  /** `getScoreColor`. */
  function ScoreColor(score: real): (c: string)
    ensures c == (match Bands.BandOf(score)
                  case High => "text-green-600 bg-green-100"
                  case Medium => "text-yellow-600 bg-yellow-100"
                  case Low => "text-red-600 bg-red-100")
  {
    Bands.Pick(score, "text-green-600 bg-green-100", "text-yellow-600 bg-yellow-100", "text-red-600 bg-red-100")
  }

  /** `getScoreLabel`. */
  function ScoreLabel(score: real): (l: string)
    ensures l == (match Bands.BandOf(score)
                  case High => "Excellent"
                  case Medium => "Satisfaisant"
                  case Low => "À améliorer")
  {
    Bands.Pick(score, "Excellent", "Satisfaisant", "À améliorer")
  }

  /** Colour and label change at the same scores: two scores share a colour exactly when
      they share a label. */
  lemma ColorAndLabelAgree(x: real, y: real)
    ensures ScoreColor(x) == ScoreColor(y) <==> ScoreLabel(x) == ScoreLabel(y)
  {
    Bands.PickDecidesBand(x, y, "text-green-600 bg-green-100", "text-yellow-600 bg-yellow-100", "text-red-600 bg-red-100");
    Bands.PickDecidesBand(x, y, "Excellent", "Satisfaisant", "À améliorer");
  }
}

=== FILE: dashboard.dfy ===
/** The HR dashboard's derived data for the selected candidate: the radar profile estimated
    from the CV analysis (`createRadarData`) and the rule-based risks and recommendations
    (`generateRisksAndRecommendations`). */
module Dashboard {

  import opened Wrappers
  import opened Records
  import Axes
  import Seqs

  /** The scores of a list of appreciations. */
  function AppreciationScores(apps: seq<Appreciation>): (r: seq<real>)
    ensures |r| == |apps|
    ensures forall i :: 0 <= i < |r| ==> r[i] == apps[i].score
  {
    seq(|apps|, i requires 0 <= i < |apps| => apps[i].score)
  }

  /** `Math.min(list?.length * per || fallback, 100)`: a list-length estimate capped at 100,
      with `fallback` when the list is missing or empty (both make the product falsy). */
  function LengthEstimate(list: Option<seq<string>>, per: nat, fallback: real): (r: real)
    requires per > 0 && fallback <= 100.0
    ensures list.Some? && |list.value| > 0 ==> r == (if (|list.value| * per) as real < 100.0 then (|list.value| * per) as real else 100.0)
    ensures list.None? || |list.value| == 0 ==> r == fallback
    ensures r <= 100.0
  {
    if list.Some? && |list.value| > 0 then
      var v := (|list.value| * per) as real;
      if v < 100.0 then v else 100.0
    else fallback
  }

  /** `x || fallback` for a numeric field: a missing or zero value falls back. */
  function NumberOr(x: Option<real>, fallback: real): (r: real)
    ensures x.Some? && x.value != 0.0 ==> r == x.value
    ensures x.None? || x.value == 0.0 ==> r == fallback
  {
    if x.Some? && x.value != 0.0 then x.value else fallback
  }

  /** The interview axis: mean appreciation score times 25, or 0 without appreciations. */
  function InterviewEstimate(apps: Option<seq<Appreciation>>): (r: real)
    ensures apps.None? || |apps.value| == 0 ==> r == 0.0
    ensures apps.Some? && |apps.value| > 0 ==>
      r == 25.0 * Seqs.Mean(AppreciationScores(apps.value))
      && r * |apps.value| as real == 25.0 * Seqs.Sum(AppreciationScores(apps.value))
  {
    if apps.Some? && |apps.value| > 0 then
      var mean := Seqs.Mean(AppreciationScores(apps.value));
      assert mean * 25.0 * |apps.value| as real == 25.0 * (mean * |apps.value| as real);
      mean * 25.0
    else 0.0
  }

  /** Appreciation scores within `[lo, hi]` put the interview axis within `[25*lo, 25*hi]`. */
  lemma InterviewEstimateBounds(apps: seq<Appreciation>, lo: real, hi: real)
    requires |apps| > 0
    requires forall i :: 0 <= i < |apps| ==> lo <= apps[i].score <= hi
    ensures 25.0 * lo <= InterviewEstimate(Some(apps)) <= 25.0 * hi
  {
    Seqs.MeanBounds(AppreciationScores(apps), lo, hi);
  }

  /** `createRadarData`: no axis at all without a CV analysis, otherwise exactly the five axes,
      each estimated from the candidate's own fields with the dashboard's fallbacks
      (75, 60, 70, 80 and 0). */
  function RadarData(c: Candidate): (r: map<string, real>)
    ensures c.cvAnalysis.None? ==> r == map[]
    ensures c.cvAnalysis.Some? ==> r.Keys == set a | a in Axes.Labels
    ensures c.cvAnalysis.Some? ==>
      && r[Axes.Skills] == NumberOr(c.cvAnalysis.value.score, 75.0)
      && r[Axes.Experience] == LengthEstimate(c.cvAnalysis.value.experience, 20, 60.0)
      && r[Axes.Education] == LengthEstimate(c.cvAnalysis.value.education, 25, 70.0)
      && r[Axes.Culture] == NumberOr(c.predictiveScore, 80.0)
      && r[Axes.Interview] == InterviewEstimate(c.appreciations)
  {
    match c.cvAnalysis
    case None => map[]
    case Some(cv) =>
      map[
        Axes.Skills := NumberOr(cv.score, 75.0),
        Axes.Experience := LengthEstimate(cv.experience, 20, 60.0),
        Axes.Education := LengthEstimate(cv.education, 25, 70.0),
        Axes.Culture := NumberOr(c.predictiveScore, 80.0),
        Axes.Interview := InterviewEstimate(c.appreciations)
      ]
  }

  /** A candidate whose CV analysis carries nothing usable, with no predictive score and no
      appreciations, gets the dashboard's default profile 75/60/70/80/0, not zeros. */
  lemma DefaultProfile(c: Candidate)
    requires c.cvAnalysis.Some?
    requires c.cvAnalysis.value.score.None? && c.cvAnalysis.value.experience.None?
    requires c.cvAnalysis.value.education.None?
    requires c.predictiveScore.None? && c.appreciations.None?
    ensures RadarData(c) == map[Axes.Skills := 75.0, Axes.Experience := 60.0, Axes.Education := 70.0,
                                Axes.Culture := 80.0, Axes.Interview := 0.0]
  {
  }

  /** With backend values in range (CV score and predictive score in [0,100], appreciation
      scores in [0,4]) every radar axis lies in [0,100]. */
  lemma RadarDataInRange(c: Candidate)
    requires c.cvAnalysis.Some?
    requires c.cvAnalysis.value.score.Some? ==> 0.0 <= c.cvAnalysis.value.score.value <= 100.0
    requires c.predictiveScore.Some? ==> 0.0 <= c.predictiveScore.value <= 100.0
    requires c.appreciations.Some? ==>
      forall i :: 0 <= i < |c.appreciations.value| ==> 0.0 <= c.appreciations.value[i].score <= 4.0
    ensures forall a :: a in RadarData(c) ==> 0.0 <= RadarData(c)[a] <= 100.0
  {
    var apps := c.appreciations;
    if apps.Some? && |apps.value| > 0 {
      InterviewEstimateBounds(apps.value, 0.0, 4.0);
    }
  }

  /** A longer experience or education list never lowers its axis, once the list is non-empty. */
  lemma LengthEstimateMonotone(a: seq<string>, b: seq<string>, per: nat, fallback: real)
    requires per > 0 && fallback <= 100.0
    requires 0 < |a| <= |b|
    ensures LengthEstimate(Some(a), per, fallback) <= LengthEstimate(Some(b), per, fallback)
  {
    assert |a| * per <= |b| * per by {
      assert |b| * per == |a| * per + (|b| - |a|) * per;
    }
  }

  const ThresholdRisk: string := "Score prédictif en dessous du seuil recommandé"
  const SkillsRisk: string := "Nombre de compétences techniques limité"
  const InterviewRisk: string := "Aucune évaluation d'entretien disponible"

  /** The recommendation the dashboard pairs with each of its three risks. */
  function RecommendationFor(risk: string): (r: string)
    ensures r != "" <==> risk in [ThresholdRisk, SkillsRisk, InterviewRisk]
  {
    if risk == ThresholdRisk then "Organiser un entretien complémentaire technique"
    else if risk == SkillsRisk then "Formation technique complémentaire requise"
    else if risk == InterviewRisk then "Finaliser l'évaluation d'entretien"
    else ""
  }

  /** The rule behind each risk. A missing predictive score compares false with 70. */
  predicate BelowThreshold(c: Candidate) {
    c.predictiveScore.Some? && c.predictiveScore.value < 70.0
  }

  predicate FewSkills(c: Candidate) {
    || c.cvAnalysis.None?
    || c.cvAnalysis.value.competences.None?
    || |c.cvAnalysis.value.competences.value| < 3
  }

  /** Only an appreciation list that is present and empty counts as "no interview". */
  predicate NoInterview(c: Candidate) {
    c.appreciations == Some([])
  }

  datatype Advice = Advice(risks: seq<string>, recommendations: seq<string>)

  /** One risk with its recommendation when `fires`, nothing otherwise. */
  function Rule(fires: bool, risk: string): Advice {
    if fires then Advice([risk], [RecommendationFor(risk)]) else Advice([], [])
  }

  /** `generateRisksAndRecommendations`: the risks whose rule fires, in rule order, each with
      its own recommendation at the same position. */
  function RisksAndRecommendations(c: Candidate): (r: Advice)
    ensures |r.risks| == |r.recommendations| <= 3
    ensures forall i :: 0 <= i < |r.risks| ==> r.recommendations[i] == RecommendationFor(r.risks[i])
    ensures ThresholdRisk in r.risks <==> BelowThreshold(c)
    ensures SkillsRisk in r.risks <==> FewSkills(c)
    ensures InterviewRisk in r.risks <==> NoInterview(c)
    ensures forall i :: 0 <= i < |r.risks| ==> r.risks[i] in [ThresholdRisk, SkillsRisk, InterviewRisk]
  {
    var a := Rule(BelowThreshold(c), ThresholdRisk);
    var b := Rule(FewSkills(c), SkillsRisk);
    var d := Rule(NoInterview(c), InterviewRisk);
    Advice(a.risks + b.risks + d.risks, a.recommendations + b.recommendations + d.recommendations)
  }
}

=== FILE: evaluation.dfy ===
/** The interview evaluation page: the answer sheet keyed by question index, the submit guard
    and payload, the per-category scores, the radar built after a successful submission, and
    the candidate-list update. */
module Evaluation {

  import opened Wrappers
  import opened Records
  import Text
  import Seqs
  import Axes

  /** The answer sheet: question index to chosen option value (`Record<number, number>`). */
  type Answers = map<nat, int>

  /** The question indexes `0 .. n-1`. */
  function Indices(n: nat): (r: set<nat>)
    ensures forall i :: i in r <==> 0 <= i < n
    ensures |r| == n
  {
    if n == 0 then {} else Indices(n - 1) + {n - 1}
  }

  /** The answered question indexes below `n`. */
  function KeysBelow(m: Answers, n: nat): (r: set<nat>)
    ensures forall i :: i in r <==> i in m && 0 <= i < n
  {
    if n == 0 then {} else KeysBelow(m, n - 1) + (if n - 1 in m then {n - 1} else {})
  }

  lemma SubsetCard<T>(a: set<T>, b: set<T>)
    requires a <= b
    ensures |a| <= |b|
  {
    assert b == a + (b - a);
  }

  /** The sheet only holds answers for questions on the page: the radio buttons are rendered
      once per question index, so no other key is ever written. */
  predicate KeysInRange(m: Answers, n: nat) {
    forall i :: i in m ==> i < n
  }

  predicate AllAnswered(m: Answers, n: nat) {
    forall i: nat :: i < n ==> i in m
  }

  /** `Object.keys(appreciations).length`. */
  function AnsweredCount(m: Answers): nat {
    |m.Keys|
  }

  /** When every key is a question index, counting keys decides completeness: the sheet is
      complete exactly when it has as many keys as there are questions. */
  lemma CountDecidesCompleteness(m: Answers, n: nat)
    requires KeysInRange(m, n)
    ensures AnsweredCount(m) <= n
    ensures AllAnswered(m, n) <==> AnsweredCount(m) >= n
  {
    SubsetCard(m.Keys, Indices(n));
    if AnsweredCount(m) >= n && !AllAnswered(m, n) {
      var i: nat :| i < n && i !in m;
      SubsetCard(m.Keys, Indices(n) - {i});
    }
    if AllAnswered(m, n) {
      assert Indices(n) <= m.Keys;
      SubsetCard(Indices(n), m.Keys);
    }
  }

  /** `handleAppreciationChange`: choosing option `v` for question `i` records it and leaves
      every other answer alone. */
  function SetAnswer(m: Answers, i: nat, v: int): (r: Answers)
    ensures r.Keys == m.Keys + {i}
    ensures r[i] == v
    ensures forall j :: j in m && j != i ==> r[j] == m[j]
    ensures AnsweredCount(r) == AnsweredCount(m) + (if i in m then 0 else 1)
  {
    m[i := v]
  }

  /** Answering a question shown on the page keeps the sheet's keys in range. */
  lemma SetAnswerKeepsRange(m: Answers, n: nat, i: nat, v: int)
    requires KeysInRange(m, n) && i < n
    ensures KeysInRange(SetAnswer(m, i, v), n)
  {
  }

  /** `getProgressPercentage`. */
  function Progress(m: Answers, n: nat): (r: real)
    ensures n == 0 ==> r == 0.0
    ensures n > 0 ==> r * n as real == 100.0 * AnsweredCount(m) as real
  {
    if n > 0 then
      var a, d := AnsweredCount(m) as real, n as real;
      DivMul(a, d);
      assert a / d * 100.0 * d == 100.0 * (a / d * d);
      a / d * 100.0
    else 0.0
  }

  /** The progress bar stays within 0..100 and reaches 100 exactly when every question has an
      answer. */
  lemma ProgressReachesFull(m: Answers, n: nat)
    requires KeysInRange(m, n) && n > 0
    ensures 0.0 <= Progress(m, n) <= 100.0
    ensures Progress(m, n) == 100.0 <==> AllAnswered(m, n)
  {
    CountDecidesCompleteness(m, n);
    Percent(AnsweredCount(m) as real, n as real);
  }

  /** `a / d * 100` for `0 <= a <= d` lies in 0..100 and is 100 only when `a == d`. */
  lemma Percent(a: real, d: real)
    requires 0.0 <= a <= d && d > 0.0
    ensures 0.0 <= a / d * 100.0 <= 100.0
    ensures a / d * 100.0 == 100.0 <==> a == d
  {
    DivBounds(a, d);
    if a == d {
      DivSelf(d);
    } else {
      DivBelowOne(a, d);
    }
  }

  lemma DivSelf(d: real)
    requires d > 0.0
    ensures d / d == 1.0
  {
  }

  lemma DivBounds(a: real, d: real)
    requires 0.0 <= a <= d && d > 0.0
    ensures 0.0 <= a / d <= 1.0
  {
  }

  lemma DivMul(a: real, d: real)
    requires d > 0.0
    ensures (a / d) * d == a
  {
  }

  lemma DivBelowOne(a: real, d: real)
    requires 0.0 <= a < d && d > 0.0
    ensures a / d < 1.0
  {
    DivBounds(a, d);
    DivMul(a, d);
  }

  /** The four appreciation options, in display order. */
  const Options: seq<(int, string)> :=
    [(1, "Très insatisfait"), (2, "Insatisfait"), (3, "Satisfait"), (4, "Très satisfait")]

  /** `getAppreciationLabel`: the label of the option with value `v`, or "" for any other
      value. */
  function AppreciationLabel(v: int): (r: string)
    ensures (exists k :: 0 <= k < |Options| && Options[k].0 == v) ==> r != ""
    ensures forall k :: 0 <= k < |Options| && Options[k].0 == v ==> r == Options[k].1
    ensures (forall k :: 0 <= k < |Options| ==> Options[k].0 != v) ==> r == ""
  {
    if 1 <= v <= 4 then Options[v - 1].1 else ""
  }

  /** Distinct options have distinct labels, so the label sent to the backend identifies the
      score. */
  lemma AppreciationLabelInjective(v: int, w: int)
    requires 1 <= v <= 4 && 1 <= w <= 4 && v != w
    ensures AppreciationLabel(v) != AppreciationLabel(w)
  {
  }

  /** The submit button's `disabled` condition. */
  predicate SubmitDisabled(selected: Option<Candidate>, m: Answers, n: nat) {
    AnsweredCount(m) < n || selected.None?
  }

  /** The evaluation payload: one appreciation per question, in question order, carrying the
      question, its category, the chosen score and that score's label. */
  function Payload(qs: seq<Question>, m: Answers): (r: seq<Appreciation>)
    requires AllAnswered(m, |qs|)
    ensures |r| == |qs|
    ensures forall i :: 0 <= i < |r| ==>
      && r[i].question == qs[i].question
      && r[i].category == qs[i].category
      && r[i].score == m[i] as real
      && r[i].appreciation == AppreciationLabel(m[i])
  {
    seq(|qs|, i requires 0 <= i < |qs| =>
      Appreciation(qs[i].question, qs[i].category, AppreciationLabel(m[i]), m[i] as real))
  }

  function ProgressMessage(answered: nat, total: nat): string {
    "Veuillez répondre à toutes les questions (" + Text.DecimalString(answered) + "/"
      + Text.DecimalString(total) + ")"
  }

  /** The guards of `handleSubmit`: no candidate, then an incomplete sheet (with the
      answered/total counts in the message); otherwise the payload to send. */
  function CheckSubmission(selected: Option<Candidate>, qs: seq<Question>, m: Answers)
    : (r: Result<seq<Appreciation>, string>)
    requires KeysInRange(m, |qs|)
    ensures selected.None? ==> r == Err("Aucun candidat sélectionné")
    ensures selected.Some? && !AllAnswered(m, |qs|) ==>
      r == Err(ProgressMessage(AnsweredCount(m), |qs|))
    ensures r.Ok? <==> selected.Some? && AllAnswered(m, |qs|)
    ensures r.Ok? ==> |r.value| == |qs|
  {
    CountDecidesCompleteness(m, |qs|);
    if selected.None? then Err("Aucun candidat sélectionné")
    else if AnsweredCount(m) < |qs| then Err(ProgressMessage(AnsweredCount(m), |qs|))
    else Ok(Payload(qs, m))
  }

  /** The submit button is enabled exactly when the guards of `handleSubmit` let the
      submission through. */
  lemma SubmitButtonMatchesGuards(selected: Option<Candidate>, qs: seq<Question>, m: Answers)
    requires KeysInRange(m, |qs|)
    ensures !SubmitDisabled(selected, m, |qs|) <==> CheckSubmission(selected, qs, m).Ok?
  {
    CountDecidesCompleteness(m, |qs|);
  }

  function AsReals(s: seq<int>): (r: seq<real>)
    ensures |r| == |s| && forall i :: 0 <= i < |s| ==> r[i] == s[i] as real
  {
    seq(|s|, i requires 0 <= i < |s| => s[i] as real)
  }

  /** The arithmetic mean, or `None` for the empty list (where `0 / 0` is `NaN`). */
  function Mean(s: seq<int>): (r: Option<real>)
    ensures r.None? <==> |s| == 0
    ensures r.Some? ==> r.value * |s| as real == Seqs.Sum(AsReals(s))
  {
    if |s| == 0 then None else Some(Seqs.Mean(AsReals(s)))
  }

  /** Scores of valid options have their mean within the option range. */
  lemma MeanWithinOptions(s: seq<int>)
    requires |s| > 0 && forall i :: 0 <= i < |s| ==> 1 <= s[i] <= 4
    ensures 1.0 <= Mean(s).value <= 4.0
  {
    Seqs.MeanBounds(AsReals(s), 1.0, 4.0);
  }

  /** The answers of the first `n` questions, in question order (`Object.values` lists
      integer keys in ascending order). */
  function AnsweredValues(m: Answers, n: nat): (r: seq<int>)
    ensures |r| == |KeysBelow(m, n)|
    ensures forall k :: 0 <= k < |r| ==> exists i: nat :: i < n && i in m && m[i] == r[k]
  {
    if n == 0 then []
    else
      var prefix := AnsweredValues(m, n - 1);
      assert n - 1 !in KeysBelow(m, n - 1);
      prefix + (if n - 1 in m then [m[n - 1]] else [])
  }

  /** With keys in range, the listed values are all the answers of the sheet. */
  lemma AnsweredValuesCount(m: Answers, n: nat)
    requires KeysInRange(m, n)
    ensures |AnsweredValues(m, n)| == AnsweredCount(m)
  {
    assert KeysBelow(m, n) == m.Keys;
  }

  /** The question positions `0 .. n-1`, in order. */
  function Positions(n: nat): (r: seq<nat>)
    ensures |r| == n && forall i :: 0 <= i < n ==> r[i] == i
  {
    seq(n, i requires 0 <= i < n => i as nat)
  }

  /** The two filters of `calculateCategoryScore`: the question belongs to `category`, and
      its answer `appreciations[q.index]` is truthy (present and non-zero). */
  function Counted(qs: seq<Question>, m: Answers, category: string): nat -> bool {
    (i: nat) => i < |qs| && qs[i].category == category && i in m && m[i] != 0
  }

  /** The answers at the given positions (`.map(q => appreciations[q.index])`). */
  function AnswersAt(m: Answers, idx: seq<nat>): (r: seq<int>)
    ensures |r| == |idx|
    ensures forall k :: 0 <= k < |idx| ==> r[k] == (if idx[k] in m then m[idx[k]] else 0)
  {
    seq(|idx|, k requires 0 <= k < |idx| => if idx[k] in m then m[idx[k]] else 0)
  }

  /** Extending the positions by one filters to the old result plus, when it passes, the
      new position. */
  lemma CountedStep(qs: seq<Question>, m: Answers, category: string, n: nat)
    requires 0 < n <= |qs|
    ensures var kept := Seqs.Filter<nat>(Positions(n - 1), Counted(qs, m, category));
      Seqs.Filter<nat>(Positions(n), Counted(qs, m, category))
        == if Counted(qs, m, category)(n - 1) then kept + [n - 1] else kept
  {
    var p := Counted(qs, m, category);
    var single: seq<nat> := [n - 1];
    assert Positions(n) == Positions(n - 1) + single;
    Seqs.FilterAppend(Positions(n - 1), single, p);
    assert Seqs.Filter<nat>(single, p) == if p(n - 1) then single else [];
  }

  /** The truthy answers to the first `n` questions of `category`, in question order. */
  function CategoryAnswers(qs: seq<Question>, m: Answers, category: string, n: nat): (r: seq<int>)
    requires n <= |qs|
    ensures |r| <= n
    ensures forall k :: 0 <= k < |r| ==>
      r[k] != 0 && exists i: nat :: i < n && i in m && m[i] == r[k] && qs[i].category == category
    ensures |r| == 0 <==> forall i: nat :: i < n && qs[i].category == category && i in m ==> m[i] == 0
  {
    if n == 0 then []
    else
      var prefix := CategoryAnswers(qs, m, category, n - 1);
      var i := n - 1;
      prefix + (if qs[i].category == category && i in m && m[i] != 0 then [m[i]] else [])
  }

  /** The question-by-question list is exactly what the source computes: the positions of the
      category's questions with a truthy answer, in order, mapped to their answers. */
  lemma {:induction false} CategoryAnswersFilterMap(qs: seq<Question>, m: Answers, category: string, n: nat)
    requires n <= |qs|
    ensures CategoryAnswers(qs, m, category, n)
      == AnswersAt(m, Seqs.Filter<nat>(Positions(n), Counted(qs, m, category)))
    decreases n
  {
    if n > 0 {
      CategoryAnswersFilterMap(qs, m, category, n - 1);
      var i := n - 1;
      var kept := Seqs.Filter<nat>(Positions(n - 1), Counted(qs, m, category));
      var last: seq<nat> := if Counted(qs, m, category)(i) then [i] else [];
      CountedStep(qs, m, category, n);
      assert AnswersAt(m, kept + last) == AnswersAt(m, kept) + AnswersAt(m, last);
      assert AnswersAt(m, last) == if qs[i].category == category && i in m && m[i] != 0 then [m[i]] else [];
    }
  }

  /** `calculateCategoryScore`: the mean of the category's truthy answers, 0 without any. */
  function CategoryScore(qs: seq<Question>, m: Answers, category: string): (r: real)
    ensures var a := CategoryAnswers(qs, m, category, |qs|);
      && (|a| == 0 ==> r == 0.0)
      && (|a| > 0 ==> r * |a| as real == Seqs.Sum(AsReals(a)))
  {
    var s := CategoryAnswers(qs, m, category, |qs|);
    if |s| > 0 then Seqs.Mean(AsReals(s)) else 0.0
  }

  predicate ValidOptions(m: Answers) {
    forall i :: i in m ==> 1 <= m[i] <= 4
  }

  /** A category score is 0 when no question of the category has an answer, and otherwise the
      mean of its answers, inside the option range 1..4. */
  lemma CategoryScoreRange(qs: seq<Question>, m: Answers, category: string)
    requires ValidOptions(m)
    ensures CategoryScore(qs, m, category) == 0.0 <==>
      forall i: nat :: i < |qs| && qs[i].category == category ==> i !in m
    ensures CategoryScore(qs, m, category) != 0.0 ==> 1.0 <= CategoryScore(qs, m, category) <= 4.0
  {
    var s := CategoryAnswers(qs, m, category, |qs|);
    if |s| > 0 {
      forall k | 0 <= k < |s| ensures 1 <= s[k] <= 4 {
        var i: nat :| i < |qs| && i in m && m[i] == s[k] && qs[i].category == category;
      }
      MeanWithinOptions(s);
    }
  }

  /** The radar shown after a successful submission. Experience and education are random
      draws (`Math.random() * 30 + 70`, `Math.random() * 20 + 80`); `draw1` and `draw2` stand
      for the two `Math.random()` values. `interview` is `None` when the sheet is empty,
      where the page computes `NaN`. */
  datatype EvaluationRadar = EvaluationRadar(
    skills: real, experience: real, education: real, culture: real, interview: Option<real>)

  function BuildRadar(qs: seq<Question>, m: Answers, draw1: real, draw2: real): (r: EvaluationRadar)
    requires 0.0 <= draw1 < 1.0 && 0.0 <= draw2 < 1.0
    requires KeysInRange(m, |qs|)
    ensures r.skills == CategoryScore(qs, m, "Job Description") * 25.0
    ensures r.culture == CategoryScore(qs, m, "Company Culture") * 25.0
    ensures 70.0 <= r.experience < 100.0 && 80.0 <= r.education < 100.0
    ensures r.interview.None? <==> AnsweredCount(m) == 0
  {
    AnsweredValuesCount(m, |qs|);
    var mean := Mean(AnsweredValues(m, |qs|));
    EvaluationRadar(
      CategoryScore(qs, m, "Job Description") * 25.0,
      draw1 * 30.0 + 70.0,
      draw2 * 20.0 + 80.0,
      CategoryScore(qs, m, "Company Culture") * 25.0,
      if mean.Some? then Some(mean.value * 25.0) else None)
  }

  /** With valid options every axis of the submitted radar stays on the 0..100 chart scale,
      and the interview axis of a non-empty sheet lies in 25..100. */
  lemma BuildRadarOnScale(qs: seq<Question>, m: Answers, draw1: real, draw2: real)
    requires 0.0 <= draw1 < 1.0 && 0.0 <= draw2 < 1.0
    requires KeysInRange(m, |qs|) && ValidOptions(m)
    ensures 0.0 <= BuildRadar(qs, m, draw1, draw2).skills <= 100.0
    ensures 0.0 <= BuildRadar(qs, m, draw1, draw2).culture <= 100.0
    ensures BuildRadar(qs, m, draw1, draw2).interview.Some? ==>
      25.0 <= BuildRadar(qs, m, draw1, draw2).interview.value <= 100.0
  {
    CategoryScoreRange(qs, m, "Job Description");
    CategoryScoreRange(qs, m, "Company Culture");
    var s := AnsweredValues(m, |qs|);
    if |s| > 0 {
      forall k | 0 <= k < |s| ensures 1 <= s[k] <= 4 {
        var i: nat :| i < |qs| && i in m && m[i] == s[k];
      }
      MeanWithinOptions(s);
    }
  }

  /** The list update after a successful submission: the evaluated candidate becomes
      'Évalué' with the returned predictive score; every other candidate is untouched. */
  function MarkEvaluated(cs: seq<Candidate>, id: int, score: real): (r: seq<Candidate>)
    ensures |r| == |cs|
    ensures forall i :: 0 <= i < |cs| && cs[i].id != id ==> r[i] == cs[i]
    ensures forall i :: 0 <= i < |cs| && cs[i].id == id ==>
      r[i] == cs[i].(status := "Évalué", predictiveScore := Some(score))
  {
    seq(|cs|, i requires 0 <= i < |cs| =>
      if cs[i].id == id then cs[i].(status := "Évalué", predictiveScore := Some(score)) else cs[i])
  }

  /** Applying the same evaluation result twice changes nothing more. */
  lemma MarkEvaluatedIdempotent(cs: seq<Candidate>, id: int, score: real)
    ensures MarkEvaluated(MarkEvaluated(cs, id, score), id, score) == MarkEvaluated(cs, id, score)
  {
  }

  /** What the page holds after a submission settles. */
  datatype Outcome = Outcome(toast: Toast, candidates: seq<Candidate>, radar: Option<EvaluationRadar>)

  /** `handleSubmit` after its guards, given how the backend call settled: `reply.data` stands
      for `response.data.analysis.predictive_score`. */
  function Submit(cs: seq<Candidate>, selected: Candidate, qs: seq<Question>, m: Answers,
                  reply: Reply<real>, draw1: real, draw2: real): (r: Outcome)
    requires 0.0 <= draw1 < 1.0 && 0.0 <= draw2 < 1.0
    requires KeysInRange(m, |qs|)
    ensures r.toast.kind == SuccessToast <==> reply.Reply? && reply.data.Some?
    ensures r.toast.kind == SuccessToast ==>
      && r.candidates == MarkEvaluated(cs, selected.id, reply.data.value)
      && r.radar == Some(BuildRadar(qs, m, draw1, draw2))
      && r.toast.message == "Évaluation soumise avec succès !"
    ensures r.toast.kind == ErrorToast ==> r.candidates == cs && r.radar.None?
    ensures reply.Reply? && reply.data.None? ==>
      r.toast.message == MessageOr(reply.error, "Erreur lors de la soumission")
    ensures reply.Threw? ==> r.toast.message == "Erreur lors de la soumission"
  {
    match reply
    case Threw(_) => Outcome(Toast("Erreur lors de la soumission", ErrorToast), cs, None)
    case Reply(data, error, _, _) =>
      if data.Some? then
        Outcome(Toast("Évaluation soumise avec succès !", SuccessToast),
                MarkEvaluated(cs, selected.id, data.value), Some(BuildRadar(qs, m, draw1, draw2)))
      else
        Outcome(Toast(MessageOr(error, "Erreur lors de la soumission"), ErrorToast), cs, None)
  }
}

=== FILE: interview_evaluation.dfy ===
/** The per-question interview evaluation: one record per question, edited one field at a
    time, with a current question, a progress bar and the navigation buttons. */
module InterviewEvaluation {

  import opened Records

  datatype Eval = Eval(question: string, category: string, purpose: string, score: int, appreciation: string, notes: string)

  /** The initial evaluations: one unscored, empty record per question, in question order. */
  function Init(qs: seq<Question>): (r: seq<Eval>)
    ensures |r| == |qs|
    ensures forall i :: 0 <= i < |r| ==>
      r[i] == Eval(qs[i].question, qs[i].category, qs[i].purpose, 0, "", "")
  {
    seq(|qs|, i requires 0 <= i < |qs| => Eval(qs[i].question, qs[i].category, qs[i].purpose, 0, "", ""))
  }

  /** The three fields the page edits. */
  datatype Field = ScoreField(score: int) | AppreciationField(appreciation: string) | NotesField(notes: string)

  function Apply(e: Eval, f: Field): Eval {
    match f
    case ScoreField(s) => e.(score := s)
    case AppreciationField(a) => e.(appreciation := a)
    case NotesField(n) => e.(notes := n)
  }

  /** `updateEvaluation(index, field, value)`: a copy of the list in which only the one
      field of the one record differs. */
  function Update(evals: seq<Eval>, i: nat, f: Field): (r: seq<Eval>)
    requires i < |evals|
    ensures |r| == |evals|
    ensures forall j :: 0 <= j < |r| && j != i ==> r[j] == evals[j]
    ensures r[i].question == evals[i].question && r[i].category == evals[i].category
      && r[i].purpose == evals[i].purpose
    ensures f.ScoreField? ==> (r[i].score == f.score
      && r[i].appreciation == evals[i].appreciation && r[i].notes == evals[i].notes)
    ensures f.AppreciationField? ==> (r[i].appreciation == f.appreciation
      && r[i].score == evals[i].score && r[i].notes == evals[i].notes)
    ensures f.NotesField? ==> (r[i].notes == f.notes
      && r[i].score == evals[i].score && r[i].appreciation == evals[i].appreciation)
  {
    evals[i := Apply(evals[i], f)]
  }

  /** Writing a field back to the value it had changes nothing. */
  lemma UpdateSameValue(evals: seq<Eval>, i: nat)
    requires i < |evals|
    ensures Update(evals, i, ScoreField(evals[i].score)) == evals
    ensures Update(evals, i, AppreciationField(evals[i].appreciation)) == evals
    ensures Update(evals, i, NotesField(evals[i].notes)) == evals
  {
  }

  /** The labels of the five score buttons, from 1 to 5. */
  const Labels: seq<string> := ["Faible", "Moyen", "Bien", "Très bien", "Excellent"]

  /** `getScoreLabel`: a button value's own label, 'Non évalué' for anything else. */
  function ScoreLabel(score: int): (r: string)
    ensures 1 <= score <= 5 ==> r == Labels[score - 1]
    ensures !(1 <= score <= 5) ==> r == "Non évalué"
  {
    match score
    case 5 => "Excellent"
    case 4 => "Très bien"
    case 3 => "Bien"
    case 2 => "Moyen"
    case 1 => "Faible"
    case _ => "Non évalué"
  }

  /** Only the five button values have their own label, and no two share one. */
  lemma ScoreLabelsDistinct(a: int, b: int)
    ensures ScoreLabel(a) == "Non évalué" <==> !(1 <= a <= 5)
    ensures 1 <= a <= 5 && ScoreLabel(a) == ScoreLabel(b) ==> a == b
  {
  }

  /** `getScoreColor`: the band rises by one from score 1 to score 4 and stays flat
      outside that range. */
  function ScoreColor(score: int): (r: string)
    ensures r in ["text-red-600", "text-orange-600", "text-yellow-600", "text-green-600"]
    ensures ColorRank(r) == if score <= 1 then 0 else if score >= 4 then 3 else score - 1
  {
    if score >= 4 then "text-green-600"
    else if score >= 3 then "text-yellow-600"
    else if score >= 2 then "text-orange-600"
    else "text-red-600"
  }

  function ColorRank(c: string): int {
    if c == "text-green-600" then 3
    else if c == "text-yellow-600" then 2
    else if c == "text-orange-600" then 1
    else 0
  }

  /** A higher score never gets a worse colour. */
  lemma ScoreColorMonotone(a: int, b: int)
    requires a <= b
    ensures ColorRank(ScoreColor(a)) <= ColorRank(ScoreColor(b))
  {
  }

  /** The page renders the question only when both the question and its evaluation exist. */
  predicate Ready(qs: seq<Question>, evals: seq<Eval>, i: nat) {
    i < |qs| && i < |evals|
  }

  /** The progress bar: the share of questions up to and including the current one. */
  function Progress(i: nat, n: nat): (r: real)
    requires i < n
    ensures 0.0 < r <= 100.0
    ensures r == 100.0 <==> i == n - 1
  {
    ((i + 1) as real / n as real) * 100.0
  }

  /** Moving forward never makes the bar shorter. */
  lemma ProgressMonotone(i: nat, j: nat, n: nat)
    requires i <= j < n
    ensures Progress(i, n) <= Progress(j, n)
  {
    assert (i + 1) as real / n as real <= (j + 1) as real / n as real;
  }

  /** The question has a score and an appreciation: the condition both forward buttons test. */
  predicate Complete(e: Eval) {
    e.score != 0 && e.appreciation != ""
  }

  /** The buttons under the question. */
  datatype Navigation = Navigation(previous: bool, next: bool, nextDisabled: bool, finish: bool, finishDisabled: bool)

  function NavigationFor(evals: seq<Eval>, i: nat, n: nat, loading: bool): (r: Navigation)
    requires i < |evals|
    ensures r.previous <==> i > 0
    ensures r.next <==> i + 1 < n
    ensures r.finish <==> !r.next
    ensures r.next ==> (r.nextDisabled <==> !Complete(evals[i]))
    ensures r.finish ==> (r.finishDisabled <==> !Complete(evals[i]) || loading)
  {
    var incomplete := evals[i].score == 0 || evals[i].appreciation == "";
    Navigation(i > 0, i + 1 < n, incomplete, !(i + 1 < n), incomplete || loading)
  }

  /** What the user can do on the page. */
  datatype Action = Edit(field: Field) | Previous | Next | Jump(target: nat)

  datatype Session = Session(evals: seq<Eval>, current: nat)

  /** One user action. Edits go to the current question; the previous and next buttons move
      only when shown and enabled; a click on a summary tile jumps to that question. */
  function Step(s: Session, a: Action): (r: Session)
    requires s.current < |s.evals|
    ensures |r.evals| == |s.evals| && r.current < |r.evals|
  {
    var nav := NavigationFor(s.evals, s.current, |s.evals|, false);
    match a
    case Edit(f) => s.(evals := Update(s.evals, s.current, f))
    case Previous => if nav.previous then s.(current := s.current - 1) else s
    case Next => if nav.next && !nav.nextDisabled then s.(current := s.current + 1) else s
    case Jump(t) => if t < |s.evals| then s.(current := t) else s
  }

  /** Every question before the current one has been scored and appreciated. */
  predicate CompleteBefore(s: Session) {
    s.current < |s.evals| && forall j :: 0 <= j < s.current ==> Complete(s.evals[j])
  }

  /** The previous and next buttons and the edits keep that invariant: moving forward needs
      the current question complete, and moving back only shortens the prefix. */
  lemma StepKeepsCompleteBefore(s: Session, a: Action)
    requires CompleteBefore(s) && !a.Jump?
    ensures CompleteBefore(Step(s, a))
  {
    var r := Step(s, a);
    forall j | 0 <= j < r.current
      ensures Complete(r.evals[j])
    {
      if a.Next? && r.current == s.current + 1 && j == s.current {
        assert Complete(s.evals[s.current]);
      }
    }
  }

  /** Applying a run of button clicks and edits from the first question. */
  method Run(qs: seq<Question>, actions: seq<Action>) returns (s: Session)
    requires |qs| > 0
    requires forall k :: 0 <= k < |actions| ==> !actions[k].Jump?
    ensures |s.evals| == |qs| && s.current < |qs|
    ensures CompleteBefore(s)
  {
    s := Session(Init(qs), 0);
    var k := 0;
    while k < |actions|
      invariant 0 <= k <= |actions|
      invariant |s.evals| == |qs|
      invariant CompleteBefore(s)
    {
      StepKeepsCompleteBefore(s, actions[k]);
      s := Step(s, actions[k]);
      k := k + 1;
    }
  }

  /** When the finish button is enabled after such a run, every question is complete. */
  lemma FinishMeansAllComplete(s: Session)
    requires CompleteBefore(s) && s.current == |s.evals| - 1
    requires !NavigationFor(s.evals, s.current, |s.evals|, false).finishDisabled
    ensures forall j :: 0 <= j < |s.evals| ==> Complete(s.evals[j])
  {
  }

  /** The summary tiles skip that guard: a jump straight to the last question lets an
      evaluation be finished with the earlier questions still unscored. */
  lemma JumpSkipsEarlierQuestions(q: Question)
    ensures var s0 := Session(Init([q, q]), 0);
      var s1 := Step(s0, Jump(1));
      var s2 := Step(Step(s1, Edit(ScoreField(4))), Edit(AppreciationField("Bonne réponse")));
      && !NavigationFor(s2.evals, s2.current, 2, false).finishDisabled
      && !Complete(s2.evals[0])
  {
    var s0 := Session(Init([q, q]), 0);
    var s1 := Step(s0, Jump(1));
    assert s1.current == 1;
    var s2 := Step(Step(s1, Edit(ScoreField(4))), Edit(AppreciationField("Bonne réponse")));
    assert s2.evals[0] == s0.evals[0];
    assert s2.evals[1].score == 4;
  }
}

=== FILE: js_value.dfy ===
/** Untyped JavaScript values, for payloads whose shape the front end only discovers at run
    time (backend replies, `any`-typed props), with the three access operators the
    components use on them: optional chaining `?.`, logical or `||` and nullish
    coalescing `??`. */
module JsValue {

  import opened Wrappers

  /** A JavaScript value as far as the components can observe it. `NaN` is kept apart from
      the finite numbers because `isNaN` and truthiness treat it differently. */
  datatype Value =
    | Undefined
    | Null
    | Bool(b: bool)
    | Num(n: real)
    | NaN
    | Str(s: string)
    | Arr(items: seq<Value>)
    | Obj(fields: map<string, Value>)

  /** JavaScript truthiness: `undefined`, `null`, `false`, `0`, `NaN` and `""` are falsy. */
  predicate Truthy(v: Value) {
    match v
    case Undefined => false
    case Null => false
    case Bool(b) => b
    case Num(n) => n != 0.0
    case NaN => false
    case Str(s) => s != ""
    case Arr(_) => true
    case Obj(_) => true
  }

  /** The values `??` skips: `undefined` and `null`. */
  predicate Nullish(v: Value) {
    v.Undefined? || v.Null?
  }

  /** `v?.key`: the field when `v` is an object holding it, `undefined` otherwise. */
  function Get(v: Value, key: string): (r: Value)
    ensures !v.Obj? ==> r == Undefined
    ensures v.Obj? && key in v.fields ==> r == v.fields[key]
  {
    if v.Obj? && key in v.fields then v.fields[key] else Undefined
  }

  /** `v?.k0?.k1?...`: a chain of optional property accesses. */
  function Path(v: Value, keys: seq<string>): Value
    decreases |keys|
  {
    if |keys| == 0 then v else Path(Get(v, keys[0]), keys[1..])
  }

  /** `a || b`. */
  function Or(a: Value, b: Value): (r: Value)
    ensures Truthy(a) ==> r == a
    ensures !Truthy(a) ==> r == b
  {
    if Truthy(a) then a else b
  }

  /** `a ?? b`. */
  function Coalesce(a: Value, b: Value): (r: Value)
    ensures !Nullish(a) ==> r == a
    ensures Nullish(a) ==> r == b
  {
    if Nullish(a) then b else a
  }

  /** `Math.round` on a finite number: halves round up, towards positive infinity. */
  function Round(x: real): (r: int)
    ensures r as real - 0.5 <= x < r as real + 0.5
  {
    (x + 0.5).Floor
  }

  /** The number a `number | undefined` field holds after `x || 0`: a present value is kept
      (a present 0 and the fallback 0 coincide), a missing one becomes 0. */
  function OrZero(x: Option<real>): (r: real)
    ensures x.Some? ==> r == x.value
    ensures x.None? ==> r == 0.0
  {
    x.GetOr(0.0)
  }
}

=== FILE: process.dfy ===
/** The staged recruitment process of the candidate process manager: the stage names and
    their labels, which actions each stage enables, the stage each action reports on
    success, the handlers' outcomes, and the five-score panel. */
module Process {

  import opened Wrappers
  import opened JsValue
  import opened Records
  import Text
  import Axes
  import Questions

  /** The recruitment stages, in process order, and any other `process_stage` string. */
  datatype Stage = CvAnalyzed | QuestionsGenerated | InterviewEvaluated | FullyEvaluated | Unknown(name: string)

  /** The backend's name for each known stage. */
  function StageName(st: Stage): string
    requires !st.Unknown?
  {
    match st
    case CvAnalyzed => "cv_analysis"
    case QuestionsGenerated => "interview_questions"
    case InterviewEvaluated => "interview_evaluation"
    case FullyEvaluated => "final_evaluation"
  }

  function ParseStage(s: string): (st: Stage)
    ensures st.Unknown? ==> st.name == s
  {
    if s == "cv_analysis" then CvAnalyzed
    else if s == "interview_questions" then QuestionsGenerated
    else if s == "interview_evaluation" then InterviewEvaluated
    else if s == "final_evaluation" then FullyEvaluated
    else Unknown(s)
  }

  /** Stage names and stages correspond one to one. */
  lemma StageNameRoundTrip(st: Stage, s: string)
    ensures !st.Unknown? ==> ParseStage(StageName(st)) == st
    ensures !ParseStage(s).Unknown? ==> StageName(ParseStage(s)) == s
  {
  }

  /** The next stage of the process; the last stage and unknown stages have none. */
  function Successor(st: Stage): (r: Option<Stage>)
    ensures r.Some? ==> !r.value.Unknown?
  {
    match st
    case CvAnalyzed => Some(QuestionsGenerated)
    case QuestionsGenerated => Some(InterviewEvaluated)
    case InterviewEvaluated => Some(FullyEvaluated)
    case _ => None
  }

  /** `getStageInfo(stage).label`. */
  function StageLabel(stage: string): (r: string)
    ensures ParseStage(stage).Unknown? <==> r == "En attente"
  {
    match ParseStage(stage)
    case CvAnalyzed => "CV Analysé"
    case QuestionsGenerated => "Questions Générées"
    case InterviewEvaluated => "Entretien Évalué"
    case FullyEvaluated => "Évaluation Complète"
    case Unknown(_) => "En attente"
  }

  /** The buttons `CandidateActions` shows for a candidate. */
  datatype Actions = Actions(generate: bool, view: bool, evaluate: bool, finalize: bool)

  function ActionsFor(stage: string): (r: Actions)
    ensures r.generate <==> stage == "cv_analysis"
    ensures r.view <==> stage in ["interview_questions", "interview_evaluation", "final_evaluation"]
    ensures r.evaluate <==> stage == "interview_questions"
    ensures r.finalize <==> stage == "interview_evaluation"
  {
    Actions(
      stage == "cv_analysis",
      stage in ["interview_questions", "interview_evaluation", "final_evaluation"],
      stage == "interview_questions",
      stage == "interview_evaluation")
  }

  /** The forward buttons of `CandidateActions`. */
  datatype Forward = GenerateAction | EvaluateAction | FinalizeAction

  function Enabled(a: Actions, f: Forward): bool {
    match f
    case GenerateAction => a.generate
    case EvaluateAction => a.evaluate
    case FinalizeAction => a.finalize
  }

  /** The stage name each request handler passes to `onStageChange` once its reply carries
      data: `generateInterviewQuestions`, `evaluateInterview` and `finalizeEvaluation`. */
  function Reports(f: Forward): string {
    match f
    case GenerateAction => "interview_questions"
    case EvaluateAction => "interview_evaluation"
    case FinalizeAction => "final_evaluation"
  }

  /** What a click on the button reports once its request succeeds. "Générer Questions" and
      "Finaliser Évaluation" call their handlers; "Évaluer Entretien" only selects the
      candidate and calls no handler, so it reports nothing. */
  function ClickReports(f: Forward): (r: Option<string>)
    ensures r.None? <==> f == EvaluateAction
    ensures r.Some? ==> r.value == Reports(f)
  {
    if f == EvaluateAction then None else Some(Reports(f))
  }

  /** At most one forward button is enabled at any stage, and the stage that enables it is a
      known one with a successor. A click on the generate or finalize button reports exactly
      that successor; a click on the evaluate button reports no stage at all. */
  lemma ForwardActionAdvancesOneStage(stage: string, f: Forward, g: Forward)
    requires Enabled(ActionsFor(stage), f)
    ensures Enabled(ActionsFor(stage), g) ==> f == g
    ensures !ParseStage(stage).Unknown?
    ensures Successor(ParseStage(stage)).Some?
    ensures ClickReports(f).Some? <==> stage != "interview_questions"
    ensures ClickReports(f).Some? ==> ClickReports(f).value == StageName(Successor(ParseStage(stage)).value)
  {
  }

  /** No button of the process manager ever reports `interview_evaluation`: the one handler
      that would, `evaluateInterview`, is not called by any button. */
  lemma InterviewEvaluationNeverReported(stage: string, f: Forward)
    requires Enabled(ActionsFor(stage), f)
    ensures ClickReports(f) != Some("interview_evaluation")
  {
  }

  /** An unknown stage shows "En attente" and enables no forward action and no viewing. */
  lemma UnknownStageIsInert(stage: string)
    requires ParseStage(stage).Unknown?
    ensures StageLabel(stage) == "En attente"
    ensures ActionsFor(stage) == Actions(false, false, false, false)
  {
  }

  /** The viewing action is offered exactly at the stages after the CV analysis. */
  lemma ViewAfterGeneration(stage: string)
    ensures ActionsFor(stage).view <==> ParseStage(stage) in {QuestionsGenerated, InterviewEvaluated, FullyEvaluated}
  {
  }

  /** What a process-manager handler leaves behind: the questions shown (if it set them),
      the stage it reported through `onStageChange`, and the alert text. */
  datatype HandlerOutcome = HandlerOutcome(questions: Option<seq<Value>>, reported: Option<string>, alert: string)

  /** `generateInterviewQuestions`: the `||` chain on `response.data`, reporting the next
      stage only when it yields an array. */
  function GenerateOutcome(reply: Questions.Settled): (r: HandlerOutcome)
    ensures r.reported.Some? <==> reply.Resolved? && Questions.GeneratedQuestions(reply.response).Some?
    ensures r.reported.Some? ==>
      r.reported.value == Reports(GenerateAction) && r.questions == Questions.GeneratedQuestions(reply.response)
    ensures r.reported.None? ==> r.questions.None?
  {
    match reply
    case Rejected(message) => HandlerOutcome(None, None, "❌ Erreur génération questions: " + message)
    case Resolved(response) =>
      match Questions.GeneratedQuestions(response)
      case Some(qs) =>
        HandlerOutcome(Some(qs), Some(Reports(GenerateAction)),
                       "✅ " + Text.DecimalString(|qs|) + " questions générées avec succès !")
      case None =>
        var error := Get(response, "error");
        HandlerOutcome(None, None, "❌ Erreur: " + (if Truthy(error) && error.Str? then error.s else "Structure de données inattendue"))
  }

  /** `viewInterviewQuestions`: the four-location chain; viewing reports no stage. */
  function ViewOutcome(reply: Questions.Settled): (r: HandlerOutcome)
    ensures r.reported.None?
    ensures r.questions.Some? <==> reply.Resolved? && Questions.ExtractQuestions(reply.response).Some?
    ensures r.questions.Some? ==> r.questions == Questions.ExtractQuestions(reply.response)
  {
    match reply
    case Rejected(message) => HandlerOutcome(None, None, "❌ Erreur récupération questions: " + message)
    case Resolved(response) =>
      match Questions.ExtractQuestions(response)
      case Some(qs) => HandlerOutcome(Some(qs), None, "✅ " + Text.DecimalString(|qs|) + " questions récupérées !")
      case None => HandlerOutcome(None, None, "❌ Aucune question trouvée pour ce candidat")
  }

  /** `evaluateInterview` and `finalizeEvaluation`: the stage is reported only when the
      reply carries truthy data. No button calls `evaluateInterview`, so its half is the
      handler as written rather than a reachable step. */
  function ReportedOnData(reply: Questions.Settled, f: Forward): (r: Option<string>)
    requires f != GenerateAction
    ensures r.Some? <==> reply.Resolved? && Truthy(Get(reply.response, "data"))
    ensures r.Some? ==> r.value == Reports(f)
  {
    if reply.Resolved? && Truthy(Get(reply.response, "data")) then Some(Reports(f)) else None
  }

  /** `deleteCandidate`: a declined confirmation sends nothing; the list is reloaded only
      when the deletion reply carries truthy data. */
  function DeleteReloads(confirmed: bool, reply: Questions.Settled): (r: bool)
    ensures r ==> confirmed
    ensures r <==> confirmed && reply.Resolved? && Truthy(Get(reply.response, "data"))
  {
    confirmed && reply.Resolved? && Truthy(Get(reply.response, "data"))
  }

  /** The five stage scores of a process candidate, in axis order. */
  function Scores(c: ProcessCandidate): Axes.Profile {
    Axes.Profile(c.skillsScore, c.experienceScore, c.educationScore, c.cultureScore, c.interviewScore)
  }

  /** `ScoreDisplay`: the five axes in display order, each with its value when positive and
      `None` (shown as '-') otherwise. */
  function ScoreDisplay(c: ProcessCandidate): (r: seq<(string, Option<real>)>)
    ensures |r| == |Axes.Labels|
    ensures forall i :: 0 <= i < |r| ==> r[i].0 == Axes.Labels[i]
    ensures forall i :: 0 <= i < |r| ==>
      (r[i].1.Some? <==> Scores(c).Values()[i] > 0.0)
      && (r[i].1.Some? ==> r[i].1.value == Scores(c).Values()[i])
  {
    var vs := Scores(c).Values();
    seq(5, i requires 0 <= i < 5 => (Axes.Labels[i], if vs[i] > 0.0 then Some(vs[i]) else None))
  }
}

=== FILE: process_dashboard.dfy ===
/** The process dashboard of one brief: the scored candidates handed to the comparison
    radar, the per-stage statistics, and which screen is rendered. */
module ProcessDashboard {

  import opened Wrappers
  import opened Records
  import Seqs
  import Axes
  import Process

  /** A candidate as the comparison radar receives it (`CandidateScores`). */
  datatype ScoredCandidate = ScoredCandidate(id: int, name: string, scores: Axes.Profile, finalScore: real)

  /** The radar entry of one process candidate. */
  function Entry(c: ProcessCandidate): (e: ScoredCandidate)
    ensures e.id == c.id && e.name == c.name && e.finalScore == c.finalPredictiveScore
    ensures e.scores.Values() == Process.Scores(c).Values()
  {
    ScoredCandidate(c.id, c.name, Process.Scores(c), c.finalPredictiveScore)
  }

  function IsScored(c: ProcessCandidate): bool {
    c.finalPredictiveScore > 0.0
  }

  /** `radarData`: the scored candidates in list order, each converted to its entry. */
  function RadarEntries(cs: seq<ProcessCandidate>): (r: seq<ScoredCandidate>)
    ensures |r| == Seqs.Count(cs, IsScored) <= |cs|
    ensures forall i :: 0 <= i < |r| ==> r[i] == Entry(Seqs.Filter(cs, IsScored)[i])
    ensures forall i :: 0 <= i < |r| ==> r[i].finalScore > 0.0
  {
    var kept := Seqs.Filter(cs, IsScored);
    seq(|kept|, i requires 0 <= i < |kept| => Entry(kept[i]))
  }

  /** Every candidate with a positive final score has its entry on the radar. */
  lemma ScoredCandidatesAppear(cs: seq<ProcessCandidate>, i: nat)
    requires i < |cs| && cs[i].finalPredictiveScore > 0.0
    ensures Entry(cs[i]) in RadarEntries(cs)
  {
    var kept := Seqs.Filter(cs, IsScored);
    assert IsScored(cs[i]);
    var k :| 0 <= k < |kept| && kept[k] == cs[i];
    assert RadarEntries(cs)[k] == Entry(cs[i]);
  }

  /** Entries keep list order: the entries of a concatenation are the entries of each part,
      in turn. */
  lemma RadarEntriesAppend(a: seq<ProcessCandidate>, b: seq<ProcessCandidate>)
    ensures RadarEntries(a + b) == RadarEntries(a) + RadarEntries(b)
  {
    Seqs.FilterAppend(a, b, IsScored);
  }

  function AtStage(stage: string): ProcessCandidate -> bool {
    (c: ProcessCandidate) => c.processStage == stage
  }

  /** The positions of the list holding a candidate at `stage`. */
  function StagePositions(cs: seq<ProcessCandidate>, stage: string): set<int> {
    set i | 0 <= i < |cs| && cs[i].processStage == stage
  }

  /** The filter-and-count of one stage counts the positions of the list at that stage. */
  lemma StageCountIsPositions(cs: seq<ProcessCandidate>, stage: string)
    ensures Seqs.Count(cs, AtStage(stage)) == |StagePositions(cs, stage)|
  {
    var p := AtStage(stage);
    Seqs.CountIndexSet(cs, p);
    assert Seqs.Where(cs, p) == StagePositions(cs, stage) by {
      forall i ensures i in Seqs.Where(cs, p) <==> i in StagePositions(cs, stage) {
        if 0 <= i < |cs| {
          assert p(cs[i]) == (cs[i].processStage == stage);
        }
      }
    }
  }

  /** The number of candidates at `stage`, counted by filtering. */
  function StageCount(cs: seq<ProcessCandidate>, stage: string): (r: nat)
    ensures r == |StagePositions(cs, stage)|
  {
    StageCountIsPositions(cs, stage);
    Seqs.Count(cs, AtStage(stage))
  }

  datatype Stats = Stats(
    total: nat,
    cvAnalyzed: nat,
    questionsGenerated: nat,
    interviewEvaluated: nat,
    fullyEvaluated: nat,
    averageScore: real)

  function FinalScores(entries: seq<ScoredCandidate>): (r: seq<real>)
    ensures |r| == |entries| && forall i :: 0 <= i < |r| ==> r[i] == entries[i].finalScore
  {
    seq(|entries|, i requires 0 <= i < |entries| => entries[i].finalScore)
  }

  /** The mean final score of `entries`, 0 when there are none. */
  function Average(entries: seq<ScoredCandidate>): (r: real)
    ensures |entries| == 0 ==> r == 0.0
    ensures |entries| > 0 ==> r * |entries| as real == Seqs.Sum(FinalScores(entries))
  {
    if |entries| > 0 then Seqs.Mean(FinalScores(entries)) else 0.0
  }

  /** `stats`: the list size, the number of candidates at each known stage, and the mean
      final score of the radar entries (0 when there are none). */
  function ComputeStats(cs: seq<ProcessCandidate>): (r: Stats)
    ensures r.total == |cs|
    ensures r.cvAnalyzed == |StagePositions(cs, "cv_analysis")|
    ensures r.questionsGenerated == |StagePositions(cs, "interview_questions")|
    ensures r.interviewEvaluated == |StagePositions(cs, "interview_evaluation")|
    ensures r.fullyEvaluated == |StagePositions(cs, "final_evaluation")|
    ensures r.averageScore == Average(RadarEntries(cs))
  {
    Stats(
      |cs|,
      StageCount(cs, "cv_analysis"),
      StageCount(cs, "interview_questions"),
      StageCount(cs, "interview_evaluation"),
      StageCount(cs, "final_evaluation"),
      Average(RadarEntries(cs)))
  }

  /** The average lies between any bounds of the final scores of the scored candidates. */
  lemma AverageWithinScores(cs: seq<ProcessCandidate>, lo: real, hi: real)
    requires |RadarEntries(cs)| > 0
    requires forall i :: 0 <= i < |cs| && cs[i].finalPredictiveScore > 0.0 ==>
      lo <= cs[i].finalPredictiveScore <= hi
    ensures lo <= ComputeStats(cs).averageScore <= hi
  {
    var entries := RadarEntries(cs);
    var kept := Seqs.Filter(cs, IsScored);
    forall k | 0 <= k < |entries| ensures lo <= FinalScores(entries)[k] <= hi {
      assert entries[k] == Entry(kept[k]);
      assert kept[k] in cs && IsScored(kept[k]);
    }
    Seqs.MeanBounds(FinalScores(entries), lo, hi);
  }

  /** A candidate is at one stage at most, so the four stage counters never exceed the
      total. */
  lemma StageCountsWithinTotal(cs: seq<ProcessCandidate>)
    ensures var s := ComputeStats(cs);
      s.cvAnalyzed + s.questionsGenerated + s.interviewEvaluated + s.fullyEvaluated <= s.total
  {
    var p1, p2 := AtStage("cv_analysis"), AtStage("interview_questions");
    var p3, p4 := AtStage("interview_evaluation"), AtStage("final_evaluation");
    Seqs.CountUnion(cs, p1, p2);
    Seqs.CountUnion(cs, Seqs.Either(p1, p2), p3);
    Seqs.CountDisjoint(cs, Seqs.Either(Seqs.Either(p1, p2), p3), p4);
  }

  /** The average is 0 exactly when no candidate has a positive final score, and positive
      otherwise. */
  lemma AverageScoreSign(cs: seq<ProcessCandidate>)
    ensures ComputeStats(cs).averageScore == 0.0 <==> |RadarEntries(cs)| == 0
    ensures |RadarEntries(cs)| > 0 ==> ComputeStats(cs).averageScore > 0.0
  {
    var entries := RadarEntries(cs);
    if |entries| > 0 {
      var scores := FinalScores(entries);
      forall i | 0 <= i < |scores| ensures scores[i] > 0.0 {
        assert entries[i] in entries;
      }
      Seqs.MeanPositive(scores);
    }
  }

  /** The screens the dashboard can render. */
  datatype Screen = LoadingScreen | EvaluationScreen | MainScreen

  /** The evaluation screen needs the 'evaluation' view, a selected candidate and a
      non-empty question list; otherwise the main screen is rendered once loading ends. */
  function ScreenFor(loading: bool, view: string, selected: Option<int>, questionCount: nat): (r: Screen)
    ensures r == EvaluationScreen ==> view == "evaluation" && IsSelected(selected) && questionCount > 0
    ensures r == LoadingScreen <==> loading
    ensures !loading && view == "evaluation" && IsSelected(selected) && questionCount > 0 ==> r == EvaluationScreen
  {
    if loading then LoadingScreen
    else if view == "evaluation" && IsSelected(selected) && questionCount > 0 then EvaluationScreen
    else MainScreen
  }
}

=== FILE: questions.dfy ===
/** Interview questions as the pages receive them: the priority-ordered extraction of the
    question list from differently shaped backend responses, the normalisation of the
    `interview_questions` field stored on a candidate, and the interview page's generate and
    refresh handlers. */
module Questions {

  import opened Wrappers
  import opened JsValue
  import opened Records
  import Text
  import Candidates

  /** The locations the extraction chain tries, highest priority first:
      `response.questions.questions`, `response.data.questions.questions`,
      `response.data.questions`, `response.questions`. */
  const Locations: seq<seq<string>> :=
    [["questions", "questions"], ["data", "questions", "questions"], ["data", "questions"], ["questions"]]

  /** Reference definition: the items of the first location in `paths` holding an array. */
  function FirstArray(v: Value, paths: seq<seq<string>>): (r: Option<seq<Value>>)
    ensures r.None? <==> forall k :: 0 <= k < |paths| ==> !Path(v, paths[k]).Arr?
    ensures r.Some? ==> (exists k :: 0 <= k < |paths| && Path(v, paths[k]) == Arr(r.value)
                                  && forall j :: 0 <= j < k ==> !Path(v, paths[j]).Arr?)
    decreases |paths|
  {
    if |paths| == 0 then None
    else if Path(v, paths[0]).Arr? then Some(Path(v, paths[0]).items)
    else
      var r := FirstArray(v, paths[1..]);
      assert r.Some? ==> (exists k :: 0 <= k < |paths[1..]| && Path(v, paths[1..][k]) == Arr(r.value)
                                     && forall j :: 0 <= j < k ==> !Path(v, paths[1..][j]).Arr?);
      r
  }

  /** The extraction chain of the interview page and of the process manager's "view
      questions", as written: each branch tests its location for truthiness and for being
      an array. */
  function ExtractQuestions(response: Value): (r: Option<seq<Value>>)
  {
    var nestedTop := Get(Get(response, "questions"), "questions");
    var nestedData := Get(Get(Get(response, "data"), "questions"), "questions");
    var flatData := Get(Get(response, "data"), "questions");
    var flatTop := Get(response, "questions");
    if Truthy(nestedTop) && nestedTop.Arr? then Some(nestedTop.items)
    else if Truthy(nestedData) && nestedData.Arr? then Some(nestedData.items)
    else if Truthy(flatData) && flatData.Arr? then Some(flatData.items)
    else if Truthy(flatTop) && flatTop.Arr? then Some(flatTop.items)
    else None
  }

  /** The chain returns the first array found in priority order, and fails exactly when no
      location holds an array. */
  lemma ExtractFollowsPriority(response: Value)
    ensures ExtractQuestions(response) == FirstArray(response, Locations)
  {
    assert Path(response, Locations[0]) == Get(Get(response, "questions"), "questions");
    assert Path(response, Locations[1]) == Get(Get(Get(response, "data"), "questions"), "questions");
    assert Path(response, Locations[2]) == Get(Get(response, "data"), "questions");
    assert Path(response, Locations[3]) == Get(response, "questions");
    assert Locations[1..][1..][1..] == [Locations[3]];
  }

  /** The usual backend shape `{data: {questions: {questions: [...]}}}` yields its list. */
  lemma ExtractNestedData(qs: seq<Value>)
    ensures ExtractQuestions(Obj(map["data" := Obj(map["questions" := Obj(map["questions" := Arr(qs)])])]))
      == Some(qs)
  {
  }

  /** The process manager's generate handler:
      `response.data?.questions?.questions || response.data?.questions`, accepted only when
      the result is an array. */
  function GeneratedQuestions(response: Value): (r: Option<seq<Value>>)
    ensures r.Some? ==> (Arr(r.value) == Get(Get(response, "data"), "questions")
                         || Arr(r.value) == Get(Get(Get(response, "data"), "questions"), "questions"))
    ensures r == FirstArray(response, [["data", "questions", "questions"], ["data", "questions"]])
  {
    var paths := [["data", "questions", "questions"], ["data", "questions"]];
    assert Path(response, paths[0]) == Get(Get(Get(response, "data"), "questions"), "questions");
    assert Path(response, paths[1]) == Get(Get(response, "data"), "questions");
    assert paths[1..][1..] == [];
    var flatData := Get(Get(response, "data"), "questions");
    var picked := Or(Get(flatData, "questions"), flatData);
    if Truthy(picked) && picked.Arr? then Some(picked.items) else None
  }

  /** On a response without a top-level `questions` field the generate handler's shorter
      `||` chain finds the same list as the four-location chain. */
  lemma GeneratedAgreesWithChain(response: Value)
    requires Get(response, "questions") == Undefined
    ensures GeneratedQuestions(response) == ExtractQuestions(response)
  {
  }

  /** The questions carried by a parsed JSON string: its `questions` array, the value itself
      when it is an array, and `[]` otherwise. */
  function ParsedQuestions(parsed: Value): (r: Value)
    ensures r.Arr?
    ensures Get(parsed, "questions").Arr? ==> r == Get(parsed, "questions")
    ensures !Get(parsed, "questions").Arr? && parsed.Arr? ==> r == parsed
  {
    var inner := Get(parsed, "questions");
    if Truthy(inner) && inner.Arr? then inner
    else if parsed.Arr? then parsed
    else Arr([])
  }

  /** The normalisation of a candidate's stored `interview_questions`. `parse` stands for
      `JSON.parse`, returning `None` where it throws; a parse failure yields `[]`. */
  function StoredQuestions(stored: Value, parse: string -> Option<Value>): (r: Value)
    ensures !Truthy(stored) ==> r == Arr([])
    ensures stored.Str? && stored.s != "" ==>
      r == (if parse(stored.s).Some? then ParsedQuestions(parse(stored.s).value) else Arr([]))
    ensures stored.Arr? ==> r == stored
    ensures stored.Obj? && "questions" in stored.fields ==> r == stored.fields["questions"]
    ensures stored.Obj? && "questions" !in stored.fields ==> r == Arr([])
    ensures stored.Num? || stored.Bool? ==> r == Arr([])
  {
    if !Truthy(stored) then Arr([])
    else match stored
      case Str(s) =>
        var parsed := parse(s);
        if parsed.Some? then ParsedQuestions(parsed.value) else Arr([])
      case Arr(_) => stored
      case Obj(fields) => if "questions" in fields then fields["questions"] else Arr([])
      case _ => Arr([])
  }

  /** Storing the questions as a JSON string or as the decoded value gives the same list,
      both for a bare array and for an object wrapping one under `questions`. */
  lemma StringFormAgrees(s: string, v: Value, parse: string -> Option<Value>)
    requires s != "" && parse(s) == Some(v)
    requires v.Arr? || (v.Obj? && "questions" in v.fields && v.fields["questions"].Arr?)
    ensures StoredQuestions(Str(s), parse) == StoredQuestions(v, parse)
  {
  }

  /** The effect run when the selected candidate or the candidate list changes: no selection
      or an unknown candidate clears the questions, otherwise the candidate's stored
      questions are normalised. */
  function QuestionsForSelection(selected: Option<int>, cs: seq<Candidate>,
                                 parse: string -> Option<Value>): (r: Value)
    ensures !IsSelected(selected) ==> r == Arr([])
    ensures IsSelected(selected) && Candidates.FindById(cs, selected.value).None? ==> r == Arr([])
    ensures IsSelected(selected) && Candidates.FindById(cs, selected.value).Some? ==>
      r == StoredQuestions(Candidates.FindById(cs, selected.value).value.interviewQuestions, parse)
  {
    if !IsSelected(selected) then Arr([])
    else match Candidates.FindById(cs, selected.value)
      case None => Arr([])
      case Some(c) => StoredQuestions(c.interviewQuestions, parse)
  }

  /** How a backend call settled: the response object it resolved with, or the message of
      the error it threw. */
  datatype Settled = Resolved(response: Value) | Rejected(message: string)

  /** The interview page's question state and toast after a handler runs. */
  datatype PageUpdate = PageUpdate(questions: Value, toast: Toast)

  predicate HasBrief(briefs: seq<JobBrief>, id: int) {
    exists i :: 0 <= i < |briefs| && briefs[i].id == id
  }

  function CountMessage(n: nat, suffix: string): string {
    "✅ " + Text.DecimalString(n) + suffix
  }

  /** `handleGenerateQuestions`: both a brief and a candidate must be selected and known;
      the reply's questions replace the current ones only when the chain finds an array,
      and every failure leaves them as they were. The candidate reload that follows a
      success is added by `GenerateAndReload`. */
  function Generate(brief: Option<int>, candidate: Option<int>, cs: seq<Candidate>,
                    briefs: seq<JobBrief>, current: Value, reply: Settled): (r: PageUpdate)
    ensures r.toast.kind == ErrorToast ==> r.questions == current
    ensures !(IsSelected(brief) && IsSelected(candidate)) ==>
      r.toast == Toast("Sélectionnez un brief et un candidat", ErrorToast)
    ensures (IsSelected(brief) && IsSelected(candidate) &&
             (Candidates.FindById(cs, candidate.value).None? || !HasBrief(briefs, brief.value))) ==>
      r.toast == Toast("Brief ou candidat introuvable", ErrorToast)
    ensures r.toast.kind == SuccessToast <==>
      IsSelected(brief) && IsSelected(candidate) && Candidates.FindById(cs, candidate.value).Some?
      && HasBrief(briefs, brief.value) && reply.Resolved? && ExtractQuestions(reply.response).Some?
    ensures r.toast.kind == SuccessToast ==>
      var qs := ExtractQuestions(reply.response).value;
      r.questions == Arr(qs) && r.toast.message == CountMessage(|qs|, " questions générées !")
  {
    if !(IsSelected(brief) && IsSelected(candidate)) then
      PageUpdate(current, Toast("Sélectionnez un brief et un candidat", ErrorToast))
    else if Candidates.FindById(cs, candidate.value).None? || !HasBrief(briefs, brief.value) then
      PageUpdate(current, Toast("Brief ou candidat introuvable", ErrorToast))
    else match reply
      case Rejected(message) => PageUpdate(current, Toast(message, ErrorToast))
      case Resolved(response) =>
        match ExtractQuestions(response)
        case Some(qs) => PageUpdate(Arr(qs), Toast(CountMessage(|qs|, " questions générées !"), SuccessToast))
        case None =>
          PageUpdate(current, Toast("Impossible d'extraire les questions de la réponse", ErrorToast))
  }

  /** How the candidate reload after a successful generation settled: a reply whose `data`
      is the new candidate list, or a throw or a reply without data, which keep the list. */
  datatype Reload = Reloaded(candidates: seq<Candidate>) | NotReloaded

  /** `handleGenerateQuestions` with its reload. A new candidate list re-runs the selection
      effect, so after a successful generation the page shows the selected candidate's
      stored questions, read from the reloaded list, in place of the generated ones. */
  function GenerateAndReload(brief: Option<int>, candidate: Option<int>, cs: seq<Candidate>,
                             briefs: seq<JobBrief>, current: Value, reply: Settled,
                             reload: Reload, parse: string -> Option<Value>): (r: PageUpdate)
    ensures r.toast == Generate(brief, candidate, cs, briefs, current, reply).toast
    ensures r.toast.kind == ErrorToast ==> r.questions == current
    ensures r.toast.kind == SuccessToast && reload.NotReloaded? ==>
      r.questions == Arr(ExtractQuestions(reply.response).value)
    ensures r.toast.kind == SuccessToast && reload.Reloaded? ==>
      r.questions == QuestionsForSelection(candidate, reload.candidates, parse)
  {
    var g := Generate(brief, candidate, cs, briefs, current, reply);
    if g.toast.kind == SuccessToast && reload.Reloaded? then
      PageUpdate(QuestionsForSelection(candidate, reload.candidates, parse), g.toast)
    else g
  }

  /** After a successful generation and reload, the generated list stays on the page exactly
      when the reloaded candidate stores questions that normalise to that same list, or,
      for an empty list, when the candidate is no longer in the reloaded list. */
  lemma GeneratedSurvivesReload(brief: Option<int>, candidate: Option<int>, cs: seq<Candidate>,
                                briefs: seq<JobBrief>, current: Value, reply: Settled,
                                reloaded: seq<Candidate>, parse: string -> Option<Value>)
    requires Generate(brief, candidate, cs, briefs, current, reply).toast.kind == SuccessToast
    ensures var qs := ExtractQuestions(reply.response).value;
      var found := Candidates.FindById(reloaded, candidate.value);
      var r := GenerateAndReload(brief, candidate, cs, briefs, current, reply, Reloaded(reloaded), parse);
      r.questions == Arr(qs) <==>
        (found.Some? && StoredQuestions(found.value.interviewQuestions, parse) == Arr(qs))
        || (found.None? && qs == [])
  {
  }

  /** An instance: the backend answers with one question, and the reloaded candidate stores
      none, so the page ends up showing no question although the toast announces one. */
  lemma ReloadOverwritesGenerated(q: Value, parse: string -> Option<Value>)
    ensures var c := Candidate(3, "Ana", "Nouveau", Some(1), None, None, None, Undefined, None);
      var b := JobBrief(1, "Dev", None, "", "", "actif");
      var reply := Resolved(Obj(map["data" := Obj(map["questions" := Arr([q])])]));
      var g := Generate(Some(1), Some(3), [c], [b], Arr([]), reply);
      var r := GenerateAndReload(Some(1), Some(3), [c], [b], Arr([]), reply, Reloaded([c]), parse);
      && g.questions == Arr([q]) && g.toast.kind == SuccessToast
      && r.questions == Arr([]) && r.toast == g.toast
  {
    var c := Candidate(3, "Ana", "Nouveau", Some(1), None, None, None, Undefined, None);
    var b := JobBrief(1, "Dev", None, "", "", "actif");
    var response := Obj(map["data" := Obj(map["questions" := Arr([q])])]);
    assert [b][0].id == 1;
    assert HasBrief([b], 1);
    ExtractFollowsPriority(response);
    assert Path(response, Locations[2]) == Arr([q]);
    assert ExtractQuestions(response) == Some([q]);
  }

  /** `refreshQuestions`: the same chain on the stored questions of the selected candidate. */
  function Refresh(candidate: Option<int>, current: Value, reply: Settled): (r: PageUpdate)
    ensures r.toast.kind == ErrorToast ==> r.questions == current
    ensures !IsSelected(candidate) ==>
      r.toast == Toast("Veuillez sélectionner un candidat d'abord", ErrorToast)
    ensures r.toast.kind == SuccessToast <==>
      IsSelected(candidate) && reply.Resolved? && ExtractQuestions(reply.response).Some?
    ensures r.toast.kind == SuccessToast ==>
      var qs := ExtractQuestions(reply.response).value;
      r.questions == Arr(qs) && r.toast.message == CountMessage(|qs|, " questions récupérées !")
    ensures IsSelected(candidate) && reply.Rejected? ==> r.toast.message == "Erreur: " + reply.message
    ensures IsSelected(candidate) && reply.Resolved? && ExtractQuestions(reply.response).None? ==>
      r.toast.message == "Aucune question trouvée pour ce candidat"
  {
    if !IsSelected(candidate) then
      PageUpdate(current, Toast("Veuillez sélectionner un candidat d'abord", ErrorToast))
    else match reply
      case Rejected(message) => PageUpdate(current, Toast("Erreur: " + message, ErrorToast))
      case Resolved(response) =>
        match ExtractQuestions(response)
        case Some(qs) => PageUpdate(Arr(qs), Toast(CountMessage(|qs|, " questions récupérées !"), SuccessToast))
        case None => PageUpdate(current, Toast("Aucune question trouvée pour ce candidat", ErrorToast))
  }
}

=== FILE: radar_v2.dfy ===
/** The comparison radar: the best candidates by final score, the five axis rows keyed
    `candidate_<i>`, the colour of each dataset and the recommendation beside each name. */
module RadarV2 {

  import opened ProcessDashboard
  import Axes
  import Bands
  import Text
  import Seqs

  /** The default of the `maxCandidates` prop. */
  const DefaultMaxCandidates: nat := 3

  const Colors: seq<string> := ["#3b82f6", "#ef4444", "#10b981", "#f59e0b", "#8b5cf6"]

  /** Non-increasing by final score. */
  predicate SortedDesc(s: seq<ScoredCandidate>) {
    forall i, j :: 0 <= i < j < |s| ==> s[i].finalScore >= s[j].finalScore
  }

  /** Inserts `x` before the first element scoring no more than it, so that `x` goes ahead
      of the elements of equal score. */
  function Insert(x: ScoredCandidate, s: seq<ScoredCandidate>): (r: seq<ScoredCandidate>)
    requires SortedDesc(s)
    ensures |r| == |s| + 1
    ensures forall k :: 0 <= k < |r| ==> r[k] == x || r[k] in s
    ensures SortedDesc(r)
    decreases |s|
  {
    if |s| == 0 || x.finalScore >= s[0].finalScore then [x] + s
    else
      var rest := Insert(x, s[1..]);
      HeadDominates(s, x, rest);
      [s[0]] + rest
  }

  /** The head of a sorted list scoring above `x` dominates anything made of `x` and the
      list's tail. */
  lemma HeadDominates(s: seq<ScoredCandidate>, x: ScoredCandidate, rest: seq<ScoredCandidate>)
    requires SortedDesc(s) && |s| > 0 && x.finalScore < s[0].finalScore
    requires forall k :: 0 <= k < |rest| ==> rest[k] == x || rest[k] in s[1..]
    ensures forall k :: 0 <= k < |rest| ==> s[0].finalScore >= rest[k].finalScore
  {
    forall k | 0 <= k < |rest| ensures s[0].finalScore >= rest[k].finalScore {
      if rest[k] != x {
        var m :| 0 <= m < |s[1..]| && s[1..][m] == rest[k];
        assert s[1..][m] == s[m + 1];
      }
    }
  }

  /** Insertion adds exactly `x`. */
  lemma {:induction false} InsertPermutes(x: ScoredCandidate, s: seq<ScoredCandidate>)
    requires SortedDesc(s)
    ensures multiset(Insert(x, s)) == multiset(s) + multiset{x}
    decreases |s|
  {
    if |s| > 0 && x.finalScore < s[0].finalScore {
      InsertPermutes(x, s[1..]);
      assert s == [s[0]] + s[1..];
    }
  }

  /** `candidates.sort((a, b) => b.final_predictive_score - a.final_predictive_score)`, on
      a copy: the same candidates, by non-increasing final score. */
  function SortByFinalScore(s: seq<ScoredCandidate>): (r: seq<ScoredCandidate>)
    ensures SortedDesc(r)
    ensures |r| == |s|
    decreases |s|
  {
    if |s| == 0 then []
    else Insert(s[0], SortByFinalScore(s[1..]))
  }

  /** Sorting keeps exactly the candidates it was given. */
  lemma {:induction false} SortPermutes(s: seq<ScoredCandidate>)
    ensures multiset(SortByFinalScore(s)) == multiset(s)
    decreases |s|
  {
    if |s| > 0 {
      SortPermutes(s[1..]);
      InsertPermutes(s[0], SortByFinalScore(s[1..]));
      assert s == [s[0]] + s[1..];
    }
  }

  /** `topCandidates`: the first `maxCandidates` of the sorted list. */
  function TopCandidates(cs: seq<ScoredCandidate>, maxCandidates: nat): (r: seq<ScoredCandidate>)
    ensures |r| == Seqs.Min(|cs|, maxCandidates)
    ensures SortedDesc(r)
    ensures multiset(r) <= multiset(cs)
  {
    var sorted := SortByFinalScore(cs);
    var k := Seqs.Min(|cs|, maxCandidates);
    SortPermutes(cs);
    assert sorted == sorted[..k] + sorted[k..];
    sorted[..k]
  }

  /** The candidates left off the chart. */
  function Omitted(cs: seq<ScoredCandidate>, maxCandidates: nat): seq<ScoredCandidate> {
    SortByFinalScore(cs)[Seqs.Min(|cs|, maxCandidates)..]
  }

  /** The chart shows and omits each candidate exactly once between them, and no omitted
      candidate scores higher than any shown one. */
  lemma OmittedScoreNoHigher(cs: seq<ScoredCandidate>, maxCandidates: nat)
    ensures multiset(TopCandidates(cs, maxCandidates)) + multiset(Omitted(cs, maxCandidates)) == multiset(cs)
    ensures forall i, j :: 0 <= i < |TopCandidates(cs, maxCandidates)| && 0 <= j < |Omitted(cs, maxCandidates)| ==>
      Omitted(cs, maxCandidates)[j].finalScore <= TopCandidates(cs, maxCandidates)[i].finalScore
  {
    var sorted := SortByFinalScore(cs);
    var k := Seqs.Min(|cs|, maxCandidates);
    var top, omitted := TopCandidates(cs, maxCandidates), Omitted(cs, maxCandidates);
    assert top == sorted[..k] && omitted == sorted[k..];
    SortPermutes(cs);
    assert sorted == top + omitted;
    forall i, j | 0 <= i < |top| && 0 <= j < |omitted|
      ensures omitted[j].finalScore <= top[i].finalScore
    {
      assert omitted[j] == sorted[k + j] && top[i] == sorted[i];
    }
  }

  /** The data key of dataset `i`. */
  function Key(i: nat): string {
    "candidate_" + Text.DecimalString(i)
  }

  /** Distinct datasets have distinct keys. */
  lemma KeyInjective(i: nat, j: nat)
    ensures Key(i) == Key(j) ==> i == j
  {
    if Key(i) == Key(j) {
      var p := "candidate_";
      assert Text.DecimalString(i) == Key(i)[|p|..];
      assert Text.DecimalString(j) == Key(j)[|p|..];
      Text.DecimalStringInjective(i, j);
    }
  }

  /** The `reduce` of one axis row over the first `n` top candidates: key `candidate_<i>`
      holds candidate `i`'s score on axis `axis` (an index into `Axes.Labels`). */
  function AxisValues(top: seq<ScoredCandidate>, axis: nat, n: nat): (m: map<string, real>)
    requires axis < 5 && n <= |top|
    ensures m.Keys == set i | 0 <= i < n :: Key(i)
    ensures forall i :: 0 <= i < n ==> m[Key(i)] == top[i].scores.Values()[axis]
  {
    if n == 0 then map[]
    else
      var prev := AxisValues(top, axis, n - 1);
      forall i | 0 <= i < n - 1 ensures Key(i) != Key(n - 1) {
        KeyInjective(i, n - 1);
      }
      prev[Key(n - 1) := top[n - 1].scores.Values()[axis]]
  }

  /** One row of `radarData`. */
  datatype Row = Row(subject: string, fullMark: int, values: map<string, real>)

  /** `radarData`: five rows in axis order, each scaled to 100, pivoting the top candidates'
      scores on that axis. */
  function RadarRows(top: seq<ScoredCandidate>): (r: seq<Row>)
    ensures |r| == 5
    ensures forall a :: 0 <= a < 5 ==> r[a].subject == Axes.Labels[a] && r[a].fullMark == 100
    ensures forall a :: 0 <= a < 5 ==> r[a].values.Keys == set i | 0 <= i < |top| :: Key(i)
    ensures forall a, i :: 0 <= a < 5 && 0 <= i < |top| ==>
      r[a].values[Key(i)] == top[i].scores.Values()[a]
  {
    seq(5, a requires 0 <= a < 5 => Row(Axes.Labels[a], 100, AxisValues(top, a, |top|)))
  }

  /** `colors[index % colors.length]`. */
  function ColorFor(i: nat): (c: string)
    ensures c in Colors
    ensures c == Colors[i % |Colors|]
  {
    Colors[i % |Colors|]
  }

  /** Up to five datasets, and so all of the default three, get pairwise distinct colours. */
  lemma ColorsDistinct(i: nat, j: nat)
    requires i < j < |Colors|
    ensures ColorFor(i) != ColorFor(j)
  {
  }

  /** The recommendation printed beside a candidate. */
  function Recommendation(finalScore: real): (r: string)
    ensures r == (match Bands.BandOf(finalScore)
                  case High => "Excellent"
                  case Medium => "Bon candidat"
                  case Low => "À considérer")
  {
    Bands.Pick(finalScore, "Excellent", "Bon candidat", "À considérer")
  }

  /** The class colouring the recommendation. */
  function RecommendationColor(finalScore: real): (r: string)
    ensures r == (match Bands.BandOf(finalScore)
                  case High => "text-green-600"
                  case Medium => "text-yellow-600"
                  case Low => "text-red-600")
  {
    Bands.Pick(finalScore, "text-green-600", "text-yellow-600", "text-red-600")
  }

  /** What the component renders: the empty-state panel, or the chart of the top list. */
  datatype View = EmptyPanel | Chart(top: seq<ScoredCandidate>, rows: seq<Row>)

  function Render(cs: seq<ScoredCandidate>, maxCandidates: nat): (v: View)
    ensures v.EmptyPanel? <==> |cs| == 0 || maxCandidates == 0
    ensures v.Chart? ==> v.top == TopCandidates(cs, maxCandidates) && |v.top| > 0
  {
    var top := TopCandidates(cs, maxCandidates);
    if |top| == 0 then EmptyPanel else Chart(top, RadarRows(top))
  }
}

=== FILE: records.dfy ===
/** The records the pages exchange with the backend, as far as the modelled logic reads them.
    Every field the backend may omit is an `Option`; fields whose shape varies between
    backend versions are untyped `Value`s. */
module Records {

  import opened Wrappers
  import opened JsValue

  /** The CV analysis attached to a candidate (`CVAnalysis`). */
  datatype CvAnalysis = CvAnalysis(
    competences: Option<seq<string>>,
    experience: Option<seq<string>>,
    education: Option<seq<string>>,
    score: Option<real>)

  /** One recorded interview appreciation of a candidate. */
  datatype Appreciation = Appreciation(question: string, category: string, appreciation: string, score: real)

  /** A candidate as listed by `candidateService.getCandidates` and shown on the dashboard,
      evaluation, interview and card views. */
  datatype Candidate = Candidate(
    id: int,
    name: string,
    status: string,
    briefId: Option<int>,
    cvAnalysis: Option<CvAnalysis>,
    predictiveScore: Option<real>,
    appreciations: Option<seq<Appreciation>>,
    interviewQuestions: Value,
    risks: Option<seq<string>>)

  /** A candidate in the staged recruitment process (`CandidateProcessStage`, `CandidateData`). */
  datatype ProcessCandidate = ProcessCandidate(
    id: int,
    name: string,
    status: string,
    processStage: string,
    briefId: int,
    skillsScore: real,
    experienceScore: real,
    educationScore: real,
    cultureScore: real,
    interviewScore: real,
    finalPredictiveScore: real)

  /** A job brief (`JobBrief`); `skills` is `None` when the backend sent something other than
      an array. */
  datatype JobBrief = JobBrief(
    id: int,
    title: string,
    skills: Option<seq<string>>,
    experience: string,
    description: string,
    status: string)

  /** An interview question (`InterviewQuestion`). */
  datatype Question = Question(id: int, question: string, category: string, purpose: string)

  /** How a backend call settled: the `ApiResponse` fields it resolved with, or the message
      of the exception it threw. */
  datatype Reply<T> =
    | Reply(data: Option<T>, error: Option<string>, message: Option<string>, status: Option<string>)
    | Threw(reason: string)

  datatype ToastKind = SuccessToast | ErrorToast

  /** A toast notification shown to the user. */
  datatype Toast = Toast(message: string, kind: ToastKind)

  /** An optional string is truthy when present and non-empty. */
  predicate HasText(s: Option<string>) {
    s.Some? && s.value != ""
  }

  /** `s || fallback` for an optional string: a missing or empty message falls back. */
  function MessageOr(s: Option<string>, fallback: string): (r: string)
    ensures s.Some? && s.value != "" ==> r == s.value
    ensures s.None? || s.value == "" ==> r == fallback
  {
    if HasText(s) then s.value else fallback
  }

  /** A selected id in a `number | null` state: `null` and `0` (the placeholder option) are
      both "nothing selected", as `!id` tests. */
  predicate IsSelected(id: Option<int>) {
    id.Some? && id.value != 0
  }
}

=== FILE: seqs.dfy ===
/** Order-preserving filtering of sequences (`Array.prototype.filter`) and counting, with the
    algebra the components' list views rely on. */
module Seqs {

  /** `s.filter(p)`: the elements satisfying `p`, in their original order. */
  function Filter<T>(s: seq<T>, p: T -> bool): (r: seq<T>)
    ensures |r| <= |s|
    ensures forall i :: 0 <= i < |r| ==> r[i] in s && p(r[i])
    ensures forall i :: 0 <= i < |s| && p(s[i]) ==> s[i] in r
    decreases |s|
  {
    if |s| == 0 then []
    else (if p(s[0]) then [s[0]] else []) + Filter(s[1..], p)
  }

  /** `s.filter(p).length`. */
  function Count<T>(s: seq<T>, p: T -> bool): nat {
    |Filter(s, p)|
  }

  /** Filtering distributes over concatenation: the kept elements of a prefix all come
      before the kept elements of the suffix, which is what "order preserved" means. */
  lemma {:induction false} FilterAppend<T>(a: seq<T>, b: seq<T>, p: T -> bool)
    ensures Filter(a + b, p) == Filter(a, p) + Filter(b, p)
    decreases |a|
  {
    if |a| == 0 {
      assert a + b == b;
    } else {
      assert (a + b)[1..] == a[1..] + b;
      FilterAppend(a[1..], b, p);
    }
  }

  /** A sequence whose elements all satisfy `p` is returned unchanged. */
  lemma {:induction false} FilterKeepsAll<T>(s: seq<T>, p: T -> bool)
    requires forall i :: 0 <= i < |s| ==> p(s[i])
    ensures Filter(s, p) == s
    decreases |s|
  {
    if |s| > 0 {
      FilterKeepsAll(s[1..], p);
    }
  }

  /** A sequence with no element satisfying `p` filters to nothing. */
  lemma {:induction false} FilterNone<T>(s: seq<T>, p: T -> bool)
    requires forall i :: 0 <= i < |s| ==> !p(s[i])
    ensures Filter(s, p) == []
    decreases |s|
  {
    if |s| > 0 {
      FilterNone(s[1..], p);
    }
  }

  /** Filtering twice with the same predicate equals filtering once. */
  lemma FilterIdempotent<T>(s: seq<T>, p: T -> bool)
    ensures Filter(Filter(s, p), p) == Filter(s, p)
  {
    FilterKeepsAll(Filter(s, p), p);
  }

  /** Two predicates that agree on every element of `s` filter it identically. */
  lemma {:induction false} FilterExt<T>(s: seq<T>, p: T -> bool, q: T -> bool)
    requires forall i :: 0 <= i < |s| ==> p(s[i]) == q(s[i])
    ensures Filter(s, p) == Filter(s, q)
    decreases |s|
  {
    if |s| > 0 {
      FilterExt(s[1..], p, q);
    }
  }

  /** A filter only drops elements: its result is a sub-multiset of the input. */
  lemma {:induction false} FilterSubMultiset<T>(s: seq<T>, p: T -> bool)
    ensures multiset(Filter(s, p)) <= multiset(s)
    decreases |s|
  {
    if |s| > 0 {
      FilterSubMultiset(s[1..], p);
      assert s == [s[0]] + s[1..];
    }
  }

  /** Elements satisfying two disjoint predicates are counted at most once between them. */
  lemma {:induction false} CountDisjoint<T>(s: seq<T>, p: T -> bool, q: T -> bool)
    requires forall i :: 0 <= i < |s| ==> !(p(s[i]) && q(s[i]))
    ensures Count(s, p) + Count(s, q) <= |s|
    decreases |s|
  {
    if |s| > 0 {
      CountDisjoint(s[1..], p, q);
    }
  }

  /** The positions of `s` whose element satisfies `p`. */
  function Where<T>(s: seq<T>, p: T -> bool): set<int> {
    set i | 0 <= i < |s| && p(s[i])
  }

  /** Extending a sequence by one element adds at most its position to `Where`. */
  lemma WhereSnoc<T>(s: seq<T>, p: T -> bool)
    requires |s| > 0
    ensures |s| - 1 !in Where(s[..|s| - 1], p)
    ensures Where(s, p) == Where(s[..|s| - 1], p) + (if p(s[|s| - 1]) then {|s| - 1} else {})
  {
    var n := |s| - 1;
    var t := s[..n];
    forall i ensures i in Where(s, p) <==> i in Where(t, p) + (if p(s[n]) then {n} else {}) {
      if 0 <= i < n {
        assert s[i] == t[i];
      }
    }
  }

  /** Extending a sequence by one element adds one to the count exactly when it is kept. */
  lemma CountSnoc<T>(s: seq<T>, p: T -> bool)
    requires |s| > 0
    ensures Count(s, p) == Count(s[..|s| - 1], p) + (if p(s[|s| - 1]) then 1 else 0)
  {
    var n := |s| - 1;
    assert s == s[..n] + [s[n]];
    FilterAppend(s[..n], [s[n]], p);
    assert Filter([s[n]], p) == if p(s[n]) then [s[n]] else [];
  }

  /** A filter keeps as many elements as there are positions whose element satisfies `p`. */
  lemma {:induction false} CountIndexSet<T>(s: seq<T>, p: T -> bool)
    ensures Count(s, p) == |Where(s, p)|
    decreases |s|
  {
    if |s| > 0 {
      var n := |s| - 1;
      CountIndexSet(s[..n], p);
      CountSnoc(s, p);
      WhereSnoc(s, p);
    }
  }

  /** The smaller of two counts. */
  function Min(a: nat, b: nat): nat {
    if a <= b then a else b
  }

  /** The predicate `x => p(x) || q(x)`. */
  function Either<T>(p: T -> bool, q: T -> bool): T -> bool {
    x => p(x) || q(x)
  }

  /** Counts of disjoint predicates add up to the count of their union. */
  lemma {:induction false} CountUnion<T>(s: seq<T>, p: T -> bool, q: T -> bool)
    requires forall i :: 0 <= i < |s| ==> !(p(s[i]) && q(s[i]))
    ensures Count(s, p) + Count(s, q) == Count(s, Either(p, q))
    decreases |s|
  {
    if |s| > 0 {
      CountUnion(s[1..], p, q);
    }
  }

  /** The sum of a sequence of reals. */
  function Sum(s: seq<real>): real
    decreases |s|
  {
    if |s| == 0 then 0.0 else s[0] + Sum(s[1..])
  }

  /** A sum of terms in `[lo, hi]` lies in `[|s|*lo, |s|*hi]`. */
  lemma {:induction false} SumBounds(s: seq<real>, lo: real, hi: real)
    requires forall i :: 0 <= i < |s| ==> lo <= s[i] <= hi
    ensures |s| as real * lo <= Sum(s) <= |s| as real * hi
    decreases |s|
  {
    if |s| > 0 {
      SumBounds(s[1..], lo, hi);
    }
  }

  /** A non-empty sum of positive terms is positive. */
  lemma {:induction false} SumPositive(s: seq<real>)
    requires |s| > 0
    requires forall i :: 0 <= i < |s| ==> s[i] > 0.0
    ensures Sum(s) > 0.0
    decreases |s|
  {
    if |s| > 1 {
      SumPositive(s[1..]);
    }
  }

  /** The arithmetic mean of a non-empty sequence: the value that, taken once per term,
      adds up to the same total. */
  function Mean(s: seq<real>): (r: real)
    requires |s| > 0
    ensures r * |s| as real == Sum(s)
  {
    Sum(s) / |s| as real
  }

  /** The mean of a non-empty sequence lies between any bounds of its terms. */
  lemma MeanBounds(s: seq<real>, lo: real, hi: real)
    requires |s| > 0
    requires forall i :: 0 <= i < |s| ==> lo <= s[i] <= hi
    ensures lo <= Sum(s) / |s| as real <= hi
    ensures lo <= Mean(s) <= hi
  {
    SumBounds(s, lo, hi);
    QuotientBounds(Sum(s), |s| as real, lo, hi);
  }

  /** The mean of positive terms is positive. */
  lemma MeanPositive(s: seq<real>)
    requires |s| > 0
    requires forall i :: 0 <= i < |s| ==> s[i] > 0.0
    ensures Mean(s) > 0.0
  {
    SumPositive(s);
  }

  /** Dividing by a positive `n` maps `[n*lo, n*hi]` onto `[lo, hi]`. */
  lemma QuotientBounds(a: real, n: real, lo: real, hi: real)
    requires n > 0.0 && n * lo <= a <= n * hi
    ensures lo <= a / n <= hi
  {
    assert a / n >= lo by {
      assert a / n - lo == (a - n * lo) / n;
    }
    assert a / n <= hi by {
      assert hi - a / n == (n * hi - a) / n;
    }
  }

}

=== FILE: text.dfy ===
/** The string operations the forms use: `trim`, `split(',')`, `join(sep)`, the
    comma-list parser `split(',').map(trim).filter(nonEmpty)`, and decimal rendering of
    counters and indices inside messages and keys. */
module Text {

  import Seqs

  /** ECMAScript WhiteSpace and LineTerminator code points: the characters `String.prototype.trim`
      removes (section 22.1.3.32 of ECMA-262). */
  predicate IsSpace(c: char) {
    || c == '\t' || c == '\n' || c == '\U{000B}' || c == '\U{000C}' || c == '\r'
    || c == ' ' || c == '\U{00A0}' || c == '\U{1680}'
    || ('\U{2000}' <= c <= '\U{200A}')
    || c == '\U{2028}' || c == '\U{2029}' || c == '\U{202F}' || c == '\U{205F}'
    || c == '\U{3000}' || c == '\U{FEFF}'
  }

  /** No white space at either end. */
  predicate Trimmed(s: string) {
    s == "" || (!IsSpace(s[0]) && !IsSpace(s[|s| - 1]))
  }

  /** Drops leading white space; the result is a suffix of `s`. */
  function TrimStart(s: string): (r: string)
    ensures |r| <= |s| && r == s[|s| - |r|..]
    ensures r == "" || !IsSpace(r[0])
    ensures forall i :: 0 <= i < |s| - |r| ==> IsSpace(s[i])
    decreases |s|
  {
    if |s| > 0 && IsSpace(s[0]) then TrimStart(s[1..]) else s
  }

  /** Drops trailing white space; the result is a prefix of `s`. */
  function TrimEnd(s: string): (r: string)
    ensures |r| <= |s| && r == s[..|r|]
    ensures r == "" || !IsSpace(r[|r| - 1])
    ensures forall i :: |r| <= i < |s| ==> IsSpace(s[i])
    decreases |s|
  {
    if |s| > 0 && IsSpace(s[|s| - 1]) then TrimEnd(s[..|s| - 1]) else s
  }

  /** `s.trim()`. */
  function Trim(s: string): (r: string)
    ensures Trimmed(r)
    ensures forall c :: c in r ==> c in s
  {
    var t := TrimStart(s);
    var r := TrimEnd(t);
    assert forall c :: c in r ==> c in t;
    r
  }

  /** Trimming a trimmed string changes nothing, even after a leading blank is added. */
  lemma TrimSpaced(x: string)
    requires Trimmed(x)
    ensures Trim(x) == x
    ensures Trim(" " + x) == x
  {
    assert (" " + x)[1..] == x;
  }

  /** The position of the first `c` in `s`. */
  function IndexOf(s: string, c: char): (i: nat)
    requires c in s
    ensures i < |s| && s[i] == c && c !in s[..i]
    decreases |s|
  {
    if s[0] == c then 0 else 1 + IndexOf(s[1..], c)
  }

  /** `s.split(c)` for a one-character separator: the maximal `c`-free pieces between
      separators, always at least one (`"".split(",")` is `[""]`). */
  function Split(s: string, c: char): (r: seq<string>)
    ensures |r| >= 1
    ensures forall i :: 0 <= i < |r| ==> c !in r[i]
    decreases |s|
  {
    if c !in s then [s]
    else
      var i := IndexOf(s, c);
      [s[..i]] + Split(s[i + 1..], c)
  }

  /** `parts.join(sep)`. */
  function Join(parts: seq<string>, sep: string): string
    decreases |parts|
  {
    if |parts| == 0 then ""
    else if |parts| == 1 then parts[0]
    else parts[0] + sep + Join(parts[1..], sep)
  }

  /** With a non-empty separator, a join is empty only for no parts or one empty part. */
  lemma JoinEmpty(parts: seq<string>, sep: string)
    requires |sep| > 0
    ensures Join(parts, sep) == "" <==> |parts| == 0 || (|parts| == 1 && parts[0] == "")
  {
    if |parts| > 1 {
      assert |Join(parts, sep)| >= |sep|;
    }
  }

  /** Joining the pieces of a split with the same separator gives the string back. */
  lemma {:induction false} JoinSplit(s: string, c: char)
    ensures Join(Split(s, c), [c]) == s
    decreases |s|
  {
    if c in s {
      var i := IndexOf(s, c);
      var rest := Split(s[i + 1..], c);
      JoinSplit(s[i + 1..], c);
      assert Split(s, c) == [s[..i]] + rest;
      assert ([s[..i]] + rest)[1..] == rest;
      assert s == s[..i] + [c] + s[i + 1..];
    }
  }

  /** Splitting a join of separator-free pieces gives the pieces back. */
  lemma {:induction false} SplitJoin(parts: seq<string>, c: char)
    requires |parts| >= 1
    requires forall i :: 0 <= i < |parts| ==> c !in parts[i]
    ensures Split(Join(parts, [c]), c) == parts
    decreases |parts|
  {
    if |parts| > 1 {
      var s := Join(parts, [c]);
      var p := parts[0];
      var tail := Join(parts[1..], [c]);
      assert s == p + [c] + tail;
      assert s[|p|] == c && s[..|p|] == p;
      assert s[|p| + 1..] == tail;
      SplitAt(s, c, |p|);
      SplitJoin(parts[1..], c);
      assert parts == [p] + parts[1..];
    }
  }

  /** The first occurrence is the only position holding `c` with no `c` before it. */
  lemma IndexOfUnique(s: string, c: char, k: nat)
    requires k < |s| && s[k] == c && c !in s[..k]
    ensures c in s && IndexOf(s, c) == k
  {
    assert s[k] in s;
  }

  /** Splitting at the first separator, wherever it is. */
  lemma SplitAt(s: string, c: char, k: nat)
    requires k < |s| && s[k] == c && c !in s[..k]
    ensures Split(s, c) == [s[..k]] + Split(s[k + 1..], c)
  {
    IndexOfUnique(s, c, k);
  }

  /** Joining two non-empty lists of pieces joins their joins. */
  lemma {:induction false} JoinAppend(x: seq<string>, y: seq<string>, sep: string)
    requires |x| >= 1 && |y| >= 1
    ensures Join(x + y, sep) == Join(x, sep) + sep + Join(y, sep)
    decreases |x|
  {
    if |x| > 1 {
      JoinAppend(x[1..], y, sep);
      assert (x + y)[1..] == x[1..] + y;
    }
  }

  /** A separator splits the string into the pieces of each side. */
  lemma SplitAppend(a: string, b: string, c: char)
    ensures Split(a + [c] + b, c) == Split(a, c) + Split(b, c)
  {
    var pa := Split(a, c);
    var pb := Split(b, c);
    JoinSplit(a, c);
    JoinSplit(b, c);
    JoinAppend(pa, pb, [c]);
    SplitJoin(pa + pb, c);
  }

  /** `parts.map(p => p.trim())`. */
  function TrimAll(parts: seq<string>): (r: seq<string>)
    ensures |r| == |parts|
    ensures forall i :: 0 <= i < |r| ==> r[i] == Trim(parts[i])
  {
    seq(|parts|, i requires 0 <= i < |parts| => Trim(parts[i]))
  }

  /** The filter `x => x` on strings: keep the non-empty ones. */
  predicate NonEmpty(x: string) {
    x != ""
  }

  /** `s.split(',').map(x => x.trim()).filter(x => x)`: the comma-separated list parser used
      for skills and company values. Every item is non-empty, trimmed and comma-free. */
  function ParseList(s: string): (r: seq<string>)
    ensures forall i :: 0 <= i < |r| ==> r[i] != "" && Trimmed(r[i]) && ',' !in r[i]
  {
    var pieces := Split(s, ',');
    var trimmed := TrimAll(pieces);
    assert forall i :: 0 <= i < |trimmed| ==> ',' !in trimmed[i] by {
      forall i | 0 <= i < |trimmed|
        ensures ',' !in trimmed[i]
      {
        assert ',' !in pieces[i];
      }
    }
    Seqs.Filter(trimmed, NonEmpty)
  }

  /** The parser reads a comma-joined text piece by piece, left to right: the items of the
      text before a comma all precede the items of the text after it. */
  lemma ParseListAppend(a: string, b: string)
    ensures ParseList(a + "," + b) == ParseList(a) + ParseList(b)
  {
    SplitAppend(a, b, ',');
    var pa := Split(a, ',');
    var pb := Split(b, ',');
    assert TrimAll(pa + pb) == TrimAll(pa) + TrimAll(pb);
    Seqs.FilterAppend(TrimAll(pa), TrimAll(pb), NonEmpty);
  }

  /** Every character of a split piece comes from the split string. */
  lemma {:induction false} SplitChars(s: string, c: char)
    ensures forall i, ch :: 0 <= i < |Split(s, c)| && ch in Split(s, c)[i] ==> ch in s
    decreases |s|
  {
    if c in s {
      var i := IndexOf(s, c);
      SplitChars(s[i + 1..], c);
      assert Split(s, c) == [s[..i]] + Split(s[i + 1..], c);
      assert forall ch :: ch in s[i + 1..] ==> ch in s;
    }
  }

  /** A text made only of commas and white space passes a non-empty check yet parses to no
      item at all. */
  lemma BlankListParsesEmpty(s: string)
    requires forall i :: 0 <= i < |s| ==> s[i] == ',' || IsSpace(s[i])
    ensures ParseList(s) == []
  {
    var pieces := Split(s, ',');
    SplitChars(s, ',');
    var trimmed := TrimAll(pieces);
    forall i | 0 <= i < |trimmed| ensures trimmed[i] == "" {
      forall ch | ch in trimmed[i] ensures IsSpace(ch) {
        assert ch in pieces[i] && ',' !in pieces[i];
        assert ch in s;
        var j :| 0 <= j < |s| && s[j] == ch;
      }
    }
    Seqs.FilterNone(trimmed, NonEmpty);
  }

  /** The pieces `xs.join(', ')` is made of when seen as a `','`-join: the first item, then
      every later item behind one blank. */
  function SpacedTail(xs: seq<string>): seq<string>
  {
    seq(|xs|, i requires 0 <= i < |xs| => " " + xs[i])
  }

  lemma {:induction false} JoinCommaSpace(xs: seq<string>)
    requires |xs| >= 1
    ensures " " + Join(xs, ", ") == Join(SpacedTail(xs), ",")
    decreases |xs|
  {
    if |xs| > 1 {
      JoinCommaSpace(xs[1..]);
      assert SpacedTail(xs)[1..] == SpacedTail(xs[1..]);
    }
  }

  /** The pieces `xs.join(', ')` splits into at `','`. */
  function CommaPieces(xs: seq<string>): (r: seq<string>)
    requires |xs| >= 1
    ensures |r| == |xs| && r[0] == xs[0]
    ensures forall i :: 1 <= i < |r| ==> r[i] == " " + xs[i]
  {
    [xs[0]] + SpacedTail(xs[1..])
  }

  lemma JoinAsCommaPieces(xs: seq<string>)
    requires |xs| >= 1
    ensures Join(xs, ", ") == Join(CommaPieces(xs), ",")
  {
    var parts := CommaPieces(xs);
    if |xs| > 1 {
      var j := Join(xs[1..], ", ");
      JoinCommaSpace(xs[1..]);
      assert parts[0] == xs[0] && parts[1..] == SpacedTail(xs[1..]);
      assert Join(parts, ",") == xs[0] + "," + (" " + j);
      assert Join(xs, ", ") == xs[0] + ", " + j;
      CommaSpace(xs[0], j);
    }
  }

  lemma CommaSpace(x: string, y: string)
    ensures x + ", " + y == x + "," + (" " + y)
  {
    assert ", " == "," + " ";
  }

  lemma TrimCommaPieces(xs: seq<string>)
    requires |xs| >= 1
    requires forall i :: 0 <= i < |xs| ==> Trimmed(xs[i])
    ensures TrimAll(CommaPieces(xs)) == xs
  {
    var parts := CommaPieces(xs);
    forall i | 0 <= i < |parts|
      ensures Trim(parts[i]) == xs[i]
    {
      TrimSpaced(xs[i]);
    }
    assert TrimAll(parts) == xs;
  }

  lemma CommaPiecesCommaFree(xs: seq<string>)
    requires |xs| >= 1
    requires forall i :: 0 <= i < |xs| ==> ',' !in xs[i]
    ensures forall i :: 0 <= i < |CommaPieces(xs)| ==> ',' !in CommaPieces(xs)[i]
  {
    var parts := CommaPieces(xs);
    forall i | 0 <= i < |parts|
      ensures ',' !in parts[i]
    {
      assert i == 0 || parts[i] == " " + xs[i];
    }
  }

  /** A blank text parses to no items. */
  lemma ParseEmpty()
    ensures ParseList("") == []
  {
    assert Split("", ',') == [""];
    assert TrimAll([""]) == [""];
  }

  /** The skills editor's round trip: a list of non-empty, trimmed, comma-free items joined
      with `", "` parses back to the same list. */
  lemma ParseJoinRoundTrip(xs: seq<string>)
    requires forall i :: 0 <= i < |xs| ==> xs[i] != "" && Trimmed(xs[i]) && ',' !in xs[i]
    ensures ParseList(Join(xs, ", ")) == xs
  {
    if |xs| == 0 {
      ParseEmpty();
    } else {
      var parts := CommaPieces(xs);
      JoinAsCommaPieces(xs);
      CommaPiecesCommaFree(xs);
      SplitJoin(parts, ',');
      TrimCommaPieces(xs);
      Seqs.FilterKeepsAll(xs, NonEmpty);
    }
  }

  /** The decimal digit for `d`. */
  function Digit(d: nat): (c: char)
    requires d < 10
    ensures '0' <= c <= '9'
  {
    ('0' as int + d) as char
  }

  /** `String(n)` for a natural number: its decimal digits, without leading zeros. */
  function DecimalString(n: nat): (r: string)
    ensures 1 <= |r|
    ensures n >= 10 ==> |r| >= 2
    ensures forall i :: 0 <= i < |r| ==> '0' <= r[i] <= '9'
    decreases n
  {
    if n < 10 then [Digit(n)] else DecimalString(n / 10) + [Digit(n % 10)]
  }

  /** Distinct numbers render as distinct strings. */
  lemma {:induction false} DecimalStringInjective(m: nat, n: nat)
    requires DecimalString(m) == DecimalString(n)
    ensures m == n
    decreases m
  {
    var sm := DecimalString(m);
    var sn := DecimalString(n);
    if m >= 10 && n >= 10 {
      assert sm[|sm| - 1] == Digit(m % 10) && sn[|sn| - 1] == Digit(n % 10);
      assert sm[..|sm| - 1] == DecimalString(m / 10);
      assert sn[..|sn| - 1] == DecimalString(n / 10);
      DecimalStringInjective(m / 10, n / 10);
    } else if m < 10 && n < 10 {
      assert sm[0] == Digit(m) && sn[0] == Digit(n);
    }
  }
}

=== FILE: wrappers.dfy ===
/** Option and Result, the two failure-carrying datatypes the model uses in place of
    `null`/`undefined` and of error toasts. */
module Wrappers {

  /** A value that may be absent (`undefined` or `null` in the source). */
  datatype Option<+T> = None | Some(value: T) {

    /** The held value, or `default` when absent. */
    function GetOr(default: T): T {
      match this
      case Some(v) => v
      case None => default
    }
  }

  /** The outcome of an operation that may be refused with an error message. */
  datatype Result<+T, +E> = Ok(value: T) | Err(error: E)
}
